=== FILE: README.md ===
# Expense tracker core, modelled in Dafny

This project models the core of a single-user expense tracker. It has two halves.

The backend is an Express service over a Prisma record store. Its parts are:
- the list endpoint, with filters, sorting and pagination;
- get, create, update and delete by id, each guarded by the owner check;
- the totals with their category/type breakdown, and the six-month series;
- the zod request validators;
- the CSV exporter.

The browser client keeps its own list in a React context. Its parts are:
- adding (prepend), partial update (field spread) and delete (filter);
- loading from local storage, with the legacy category migration;
- its own CSV text;
- the dashboard's derived views: the cards, the filtered list, the month picker and the monthly chart.

Everything is stated over immutable values:
- A record store is a `seq<Transaction>`.
- Amounts are integer cents.
- Instants are `DateTime(year, month, day, hour, minute, second)` values, with no time zone.
- A JSON body is a `Json` datatype.
- A query string is a `map<string, string>`.

Each handler is a pure function from the store and request to a `Result`. The store's work is modelled as follows:
- Its `findMany` ordering is a stable insertion sort (`Sorting.Sort`).
- `skip`/`take` is a slice; a negative `take` counts from the end.
- Fresh ids and "now" are parameters.

Things the program gets from its environment are also parameters:
- date-string parsing (`new Date(s)`);
- `JSON.parse`;
- the locale's date text.

Modules, following the program's files:

| module | models |
|---|---|
| `Wrappers`, `Text`, `Calendar`, `Domain`, `JsNumber`, `Sorting`, `Filtering`, `Ledger` | shared vocabulary: `Option`/`Result`, `join`/`split`, JavaScript `Date` month arithmetic, the enums, `parseInt`, the store's ordering, `Array.prototype.filter`, income/expense folds and month grouping |
| `Listing` | `getAllTransactions` |
| `Records` | `getTransactionById`, `createTransaction`, `updateTransaction`, `deleteTransaction` |
| `Stats` | `getTransactionStats`, `getMonthlyStats`, and the seed data's totals |
| `Validation` | the three zod schemas, `validate` and `validateQuery` |
| `Routes` | the router: validation in front of each handler |
| `CsvExport` | the backend `exportToCSV` |
| `ClientStore` | the context's `addTransaction`, `updateTransaction`, `deleteTransaction` |
| `ClientStorage` | `loadTransactions` and the client `exportToCSV` text |
| `Dashboard` | the `stats`, `filteredTransactions`, `availableMonths` and `monthlyStats` memos |

## Model

| member | source | states |
|---|---|---|
| Calendar.DaysInMonth | backend/src/controllers/transactionController.ts:37 | February has 29 days exactly in leap years; April, June, September and November have 30; every month has 28 to 31 days |
| Calendar.DaysInYear | backend/src/controllers/transactionController.ts:43-44 | the twelve months add up to 365 days, or 366 in a leap year |
| Calendar.NotAfterTotalOrder | backend/src/controllers/transactionController.ts:38-41 | the date comparison the range filter uses is a total order |
| Calendar.MonthOfMonotone | backend/src/controllers/transactionController.ts:256 | a later instant never falls in an earlier month |
| Calendar.FullYear | backend/src/controllers/transactionController.ts:36 | `new Date(y, …)` reads years 0..99 as 1900..1999 and keeps every other year |
| Calendar.MonthAt | backend/src/controllers/transactionController.ts:36-37 | a zero-based month index lands in a month 1..12; an ordinary index lands in the month after it |
| Calendar.MonthAtPredecessor | backend/src/controllers/transactionController.ts:37 | day 0 of month m+1 belongs to month m, including across a year boundary |
| Calendar.FirstDay | backend/src/controllers/transactionController.ts:36 | `new Date(year, monthIndex, 1)` is a real instant in the normalised month |
| Calendar.DayZeroLastSecond | backend/src/controllers/transactionController.ts:37 | `new Date(year, month, 0, 23, 59, 59)` is a real instant in the month before `month` |
| Calendar.MonthRange | backend/src/controllers/transactionController.ts:35-41 | both ends of the month filter lie in the requested month; it starts on day 1 and ends on that month's last day |
| Calendar.YearRange | backend/src/controllers/transactionController.ts:42-48 | both ends of the year filter are real instants in the requested full year |
| Calendar.MonthRangeSelectsMonth | backend/src/controllers/transactionController.ts:35-41 | a real instant lies in the month range exactly when it is in the requested month |
| Calendar.YearRangeSelectsYear | backend/src/controllers/transactionController.ts:42-48 | a real instant lies in the year range exactly when it is in the requested year |
| Calendar.MonthRangeOrdinary | backend/src/controllers/transactionController.ts:36-37 | for months 1..12 of a year from 100 on, the range runs from the 1st at midnight to 23:59:59 on the last day, which is the 29th for a leap February |
| Domain.KindName | backend/src/middleware/validation.ts:6 | the type names are non-empty and contain no '-', ',', quote or line break |
| Domain.CategoryName | backend/src/middleware/validation.ts:8-19 | the category names are non-empty and contain no '-', ',', quote or line break |
| Domain.KindNamed | backend/src/middleware/validation.ts:6 | a string is accepted as a type exactly when it is one of the type names, and then it names that value |
| Domain.CategoryNamed | backend/src/middleware/validation.ts:8-19 | a string is accepted as a category exactly when it is one of the ten names, and then it names that value |
| Domain.NamesRoundTrip | backend/src/middleware/validation.ts:6-19 | reading a value's name gives the value back |
| Domain.NamesInjective | backend/src/middleware/validation.ts:6-19 | different values have different names |
| JsNumber.TrimStart | backend/src/controllers/transactionController.ts:11 | `parseInt` skips a leading run of white space and nothing more |
| JsNumber.DigitOf | backend/src/controllers/transactionController.ts:11 | a character is a decimal digit exactly when its digit value is below 10 |
| JsNumber.DigitRun | backend/src/controllers/transactionController.ts:11 | `parseInt` reads the longest prefix of valid digits and stops at the first invalid one |
| JsNumber.ParseMagnitude | backend/src/controllers/transactionController.ts:11-12 | an unsigned `parseInt` result is never negative |
| JsNumber.RunValueIsDecimal | backend/src/controllers/transactionController.ts:11 | a base-10 digit run has its ordinary decimal value |
| JsNumber.DigitRunAllDigits | backend/src/controllers/transactionController.ts:11 | reading stops exactly where the digits end |
| JsNumber.MagnitudeOfDecimal | backend/src/controllers/transactionController.ts:11 | the unsigned reading of a printed natural number, followed by a non-digit suffix, is that number |
| JsNumber.TrimStartKeeps | backend/src/controllers/transactionController.ts:11 | text that does not start with white space is read as it is |
| JsNumber.ParseIntDigitLed | backend/src/controllers/transactionController.ts:11 | a digit-led string is read as an unsigned number |
| JsNumber.ParseIntMinus | backend/src/controllers/transactionController.ts:15-16 | a leading minus negates the reading |
| JsNumber.ParseIntDecimal | backend/src/controllers/transactionController.ts:11-16 | `parseInt` reads back any printed natural number, whatever non-digit text follows it |
| JsNumber.ParseIntNoDigits | backend/src/controllers/transactionController.ts:11-16 | text whose first character is not white space, a sign or a digit gives NaN |
| JsNumber.ParseInt | backend/src/controllers/transactionController.ts:11-16 | `parseInt` yields a number only for text holding a digit, and a negative number only for text whose first non-blank character is a minus |
| JsNumber.ParseIntNegative | backend/src/controllers/transactionController.ts:12 | a minus followed by a printed natural number reads as its negation, so `limit=-5` is -5 |
| Sorting.Insert | backend/src/controllers/transactionController.ts:59-61 | inserting adds exactly one element and loses none |
| Sorting.Sort | backend/src/controllers/transactionController.ts:59-61 | ordering the matches is a permutation of them |
| Sorting.InsertSorted | backend/src/controllers/transactionController.ts:59-61 | inserting into an ordered sequence keeps it ordered under any total preorder |
| Sorting.SortSorted | backend/src/controllers/transactionController.ts:59-61 | the result is ordered by the key and is a permutation of the input |
| Filtering.Keep | src/contexts/TransactionContext.tsx:43 | filtering never lengthens the list and keeps only elements that pass |
| Filtering.KeepIsSubsequence | src/contexts/TransactionContext.tsx:43 | the kept elements keep their input order |
| Filtering.KeepCounts | src/contexts/TransactionContext.tsx:43 | every passing element is kept as often as it occurs, and no other element is kept |
| Filtering.KeepMembers | src/pages/Index.tsx:40-45 | an element is kept exactly when it occurs in the input and passes |
| Filtering.KeepEverything | src/pages/Index.tsx:40-45 | when every element passes, nothing is removed |
| Filtering.KeepTwice | src/contexts/TransactionContext.tsx:43 | filtering twice by the same test is filtering once |
| Ledger.SignedTotalSnoc | backend/src/controllers/transactionController.ts:217 | one more record moves the signed total by its amount, up for income and down for expense |
| Ledger.GrossTotalSnoc | backend/src/controllers/transactionController.ts:209-215 | one more record adds its amount to the sum over both kinds |
| Ledger.BalanceIsSignedTotal | backend/src/controllers/transactionController.ts:209-217 | balance = income − expense equals the sum with income counted positive and expense negative |
| Ledger.IncomePlusExpenseIsGross | backend/src/controllers/transactionController.ts:209-215 | income plus expense is the sum of all amounts |
| Ledger.TotalsAppend | backend/src/controllers/transactionController.ts:209-215 | the totals of two concatenated lists are the sums of their totals |
| Ledger.IncomeTotal | backend/src/controllers/transactionController.ts:209-211 | with no income record the income total is 0; with no negative income amount it is not negative |
| Ledger.ExpenseTotal | backend/src/controllers/transactionController.ts:213-215 | with no expense record the expense total is 0; with no negative expense amount it is not negative |
| Ledger.Summarize | backend/src/controllers/transactionController.ts:209-217 | the summary's balance is the signed total, and income plus expense is the gross total |
| Ledger.Credit | backend/src/controllers/transactionController.ts:277-283 | crediting keeps the month, adds the amount to exactly one of income and expense by the record's type, and keeps balance = income − expense |
| Ledger.IndexOfMonth | backend/src/controllers/transactionController.ts:270 | a `Map.get` lookup finds the first entry with that month, or reports that none has it |
| Ledger.Absorb | backend/src/controllers/transactionController.ts:270-284 | one grouping step adds at most one entry and keeps balance = income − expense in every entry |
| Ledger.GroupByMonth | backend/src/controllers/transactionController.ts:265-285 | the grouping has no more entries than records, at least one when there is a record, and balance = income − expense in each |
| Ledger.KeysOfSnoc | backend/src/controllers/transactionController.ts:265-285 | one more record adds exactly its month to the months seen |
| Ledger.AbsentMonthHasNoPostings | backend/src/controllers/transactionController.ts:265-285 | a month that no record carries has no postings |
| Ledger.AbsorbEffect | backend/src/controllers/transactionController.ts:270-284 | one grouping step credits the record to its month's entry in place, or appends a fresh entry at the end; no other entry changes |
| Ledger.GroupByMonthKeys | backend/src/controllers/transactionController.ts:260-288 | the grouping has one entry for each month that occurs and no month twice |
| Ledger.CreditSums | backend/src/controllers/transactionController.ts:277-283 | crediting a record adds income to income and anything else to expense, and recomputes the balance |
| Ledger.GroupByMonthFaithful | backend/src/controllers/transactionController.ts:265-285 | each entry holds exactly its month's income and expense, with balance their difference |
| Ledger.GroupByMonthCorrect | backend/src/controllers/transactionController.ts:260-288 | the grouping is correct: distinct months, every month that occurs, and each month's exact sums |
| Ledger.BucketSumsUpdate | backend/src/controllers/transactionController.ts:284 | replacing one entry changes the column sums by that entry's difference only |
| Ledger.GroupByMonthPreservesSums | backend/src/controllers/transactionController.ts:265-288 | the entries' income and expense add up to the totals over all records: grouping loses nothing |
| Ledger.GroupByMonthAscending | backend/src/controllers/transactionController.ts:256-288 | date-ordered input gives strictly ascending months, ending with the last record's month |
| Ledger.TakeLast | backend/src/controllers/transactionController.ts:288 | `slice(-n)` is the last n entries, or all of them when there are fewer |
| Ledger.TakeLastKeepsOrder | backend/src/controllers/transactionController.ts:288 | keeping the last entries keeps strict ascent and the latest month |
| Ledger.TakeLastFaithful | backend/src/controllers/transactionController.ts:288 | keeping the last entries keeps each entry's sums |
| Listing.NumberParam | backend/src/controllers/transactionController.ts:11-12 | an absent or empty parameter gives the default; any other text is read by `parseInt` |
| Listing.OptionalNumberParam | backend/src/controllers/transactionController.ts:15-16 | an absent or empty month or year is the falsy `NaN` (standing for `undefined`); any other text is read by `parseInt` |
| Listing.DateRangeOf | backend/src/controllers/transactionController.ts:35-49 | a range is set exactly when the year is truthy; it holds exactly the instants of the requested month when the month is truthy too, and of the requested year otherwise |
| Listing.BuildFilter | backend/src/controllers/transactionController.ts:23-49 | the filter names the default user, a category and a type exactly when non-empty ones are given, and a date range exactly when the year is truthy |
| Listing.Select | backend/src/controllers/transactionController.ts:52-56 | a record is selected exactly when it is stored and passes the filter, each as often as it is stored, in store order |
| Listing.OrderIsTotalPreorder | backend/src/controllers/transactionController.ts:59-61 | ordering by date or amount, ascending or descending, is total and transitive |
| Listing.SortFieldOf | backend/src/controllers/transactionController.ts:17 | an absent or empty `sortBy`, or "date", orders by date; "amount" orders by amount; any other name gives no order |
| Listing.DirectionOf | backend/src/controllers/transactionController.ts:18 | an absent or empty `sortOrder`, or "desc", is descending; "asc" is ascending; any other text gives no direction |
| Listing.Slice | backend/src/controllers/transactionController.ts:57-58 | skip/take returns at most `take` consecutive records starting at `skip`, or none past the end |
| Listing.SliceFromEnd | backend/src/controllers/transactionController.ts:57-58 | a negative `take` returns at most the magnitude of `take` consecutive records ending `skip` records before the end, or none when `skip` passes the start |
| Listing.TotalPages | backend/src/controllers/transactionController.ts:72 | `Math.ceil(total / limit)`: for a positive limit the fewest pages that hold `total`; for a negative limit the ceiling of a non-positive quotient; undefined for a zero limit |
| Listing.FetchPage | backend/src/controllers/transactionController.ts:55-62 | a fetched page holds at most the magnitude of `take` records, all of them matches |
| Listing.GetAllTransactions | backend/src/controllers/transactionController.ts:8-79 | a listing reports the parsed page and limit, the total number of matches and `Math.ceil(total / limit)` pages, and holds at most the magnitude of `limit` records, each a stored match; the only failure is the store's |
| Listing.FetchPageIsOrderedSlice | backend/src/controllers/transactionController.ts:55-62 | a page is the slice of the matches in the requested order, and that order is a sorted permutation |
| Listing.ListedPage | backend/src/controllers/transactionController.ts:11-20 | a listing is the page `page` of size `limit`, starting at (page − 1) · limit |
| Listing.FetchPageFromEnd | backend/src/controllers/transactionController.ts:55-62 | with nothing skipped and a negative `take`, the page is the last ordered matches, as many as the magnitude of `take`, or all of them when there are fewer |
| Listing.NegativeLimitListsLast | backend/src/controllers/transactionController.ts:12-20 | a successful first page with a negative limit lists the last matches in the requested order, as many as the magnitude of `limit` allows |
| Listing.FirstPageListed | backend/src/controllers/transactionController.ts:19-62 | a successful first page skips nothing: it is the fetch of the matches with `take` the limit |
| Listing.NegativeLimitAccepted | backend/src/controllers/transactionController.ts:11-20 | a negative limit on the default page and order is accepted and reported as given |
| Listing.DefaultQuery | backend/src/controllers/transactionController.ts:11-18 | with no parameters the listing is page 1 of 10 of the owner's records, newest first |
| Listing.FilterMeaning | backend/src/controllers/transactionController.ts:27-49 | a record with a real date matches when category and type agree, and it lies in the month or year named by the truthy numbers (the month counts only together with a year) |
| Listing.PagesArePrefix | backend/src/controllers/transactionController.ts:20 | pages 1..n, concatenated, are the first n · limit matches |
| Listing.PagesCoverAll | backend/src/controllers/transactionController.ts:72 | reading pages 1 to `totalPages` returns every match once, in order |
| Records.FindById | backend/src/controllers/transactionController.ts:85-87 | a lookup finds a stored record with that id exactly when one exists |
| Records.FindByIdUnique | backend/src/controllers/transactionController.ts:85-87 | with unique ids the record found is the one with that id |
| Records.Guard | backend/src/controllers/transactionController.ts:89-95 | a record passes exactly when it exists and belongs to the default user; otherwise the error is "not found" |
| Records.GetTransactionById | backend/src/controllers/transactionController.ts:81-104 | a record is returned only if it exists, has the id and is the default user's; otherwise "not found" |
| Records.Without | backend/src/controllers/transactionController.ts:187-189 | deletion keeps exactly the records with another id |
| Records.ForeignLooksAbsent | backend/src/controllers/transactionController.ts:89-95 | another user's record cannot be told apart from a missing one |
| Records.CreateTransaction | backend/src/controllers/transactionController.ts:106-128 | creation appends one owner record with the fresh id and both timestamps "now"; a store with unique ids keeps them, and the record can be fetched back |
| Records.AppendFresh | backend/src/controllers/transactionController.ts:110-119 | appending a fresh id keeps ids unique, and the id finds the new record |
| Records.ApplyPatch | backend/src/controllers/transactionController.ts:148-156 | an update never changes the id, the owner or the creation stamp, sets the update stamp, and takes each of type, amount, category, description and date from the patch when supplied and from the record otherwise |
| Records.Replace | backend/src/controllers/transactionController.ts:153-156 | only the record with the id is replaced |
| Records.UpdateTransaction | backend/src/controllers/transactionController.ts:130-168 | an update fails with "not found" exactly when the guard does; otherwise the record becomes the patched record, no other record changes, the store keeps its length, and with unique ids the patched record is what a later get returns |
| Records.ReplaceKeepsIds | backend/src/controllers/transactionController.ts:153-156 | replacing a record under its own id keeps ids unique |
| Records.DeleteTransaction | backend/src/controllers/transactionController.ts:170-201 | a delete fails exactly when the guard does; otherwise it removes every record with the id and keeps the rest |
| Records.WithoutRemovesOne | backend/src/controllers/transactionController.ts:187-189 | deleting an id present once shortens the store by exactly one |
| Records.WithoutAbsent | backend/src/controllers/transactionController.ts:179-181 | removing an absent id changes nothing |
| Records.GuardsAgree | backend/src/controllers/transactionController.ts:89-185 | get, update and delete fail on exactly the same ids, with the same error |
| Records.UpdateAsWritten | backend/src/controllers/transactionController.ts:130-167 | the as-written update fails with "not found" exactly when the guard does, and otherwise fails exactly when the body moves the record onto another stored id; on success the record is the body written over the stored one, nothing else changes and ids stay unique; a body of schema fields only gives the corrected update |
| Records.UpdateAsWrittenRewritesCreatedAt | backend/src/controllers/transactionController.ts:130-156 | a body with `createdAt` rewrites the record's creation stamp |
| Records.Written | backend/src/controllers/transactionController.ts:153-156 | writing a raw body sets id, owner, creation and update stamps from the body when it supplies them and keeps the stored ones (and "now") otherwise; the data fields are patched as in the corrected update |
| Records.UpdateAsWrittenHidesRecord | backend/src/controllers/transactionController.ts:144-156 | a body that sets `userId` to another user succeeds, and afterwards the record can no longer be fetched |
| Routes.DraftOf | backend/src/controllers/transactionController.ts:108-118 | a validated body yields a draft exactly when its date parses, and then with the body's own values |
| Routes.CreateRoute | backend/src/routes/transactions.ts:31 | POST fails with a validation error exactly when the create schema rejects the body; otherwise it creates the draft or fails in the store |
| Routes.CreateRoundTrip | backend/src/routes/transactions.ts:31 | sending a well-formed draft creates exactly that draft |
| Routes.PatchOf | backend/src/controllers/transactionController.ts:148-151 | an update body yields a patch exactly when its date, if present, is non-empty and parses; the patch carries the supplied fields |
| Routes.UpdateRoute | backend/src/routes/transactions.ts:32 | PUT fails with a validation error exactly when the update schema rejects the body; after that the guard decides; a success keeps id, owner and creation stamp, takes type, amount, category, description and parsed date from the body when present and keeps the stored ones otherwise, and leaves other records alone |
| Routes.TextColumn | backend/src/controllers/transactionController.ts:133 | an absent column key supplies nothing; a present one is accepted exactly when it is a string, and supplies that string |
| Routes.DateColumn | backend/src/controllers/transactionController.ts:153-156 | an absent stamp key supplies nothing; a present one reaches the store unconverted and is accepted exactly when it is a string the store's own date reader takes, supplying that reading |
| Routes.RawBodyOf | backend/src/controllers/transactionController.ts:133-151 | the raw body is readable exactly when its patch and its four record columns are; for schema fields only it is readable exactly when the patch is, and carries no column |
| Routes.WrittenColumns | backend/src/controllers/transactionController.ts:153-156 | writing a readable raw body takes id, owner and the two stamps from the body when it names them, and otherwise keeps the stored values, with "now" for the update stamp |
| Routes.WriteRawBody | backend/src/controllers/transactionController.ts:153-166 | writing the raw body fails only with "Failed to update transaction", always does for a key that is no column of the record, and on success sets each column from the body when present |
| Routes.WriteRawBodySchemaOnly | backend/src/controllers/transactionController.ts:148-156 | for schema fields only, writing the raw body is the corrected update of its patch |
| Routes.UpdateRouteAsWritten | backend/src/controllers/transactionController.ts:130-167 | the as-written route validates as the corrected one and equals it for bodies of schema fields only; a success implies the body named only schema fields and record columns, and each of id, owner, creation and update stamp is the body's value when supplied and the stored one (or "now") otherwise |
| Routes.UpdateRouteRewritesCreatedAt | backend/src/middleware/validation.ts:56-60 | the body `{ "createdAt": … }` passes validation and the as-written route rewrites the creation stamp |
| Routes.UpdateRouteForgesCreatedAt | backend/src/controllers/transactionController.ts:130-156 | for every record the guard lets through, a body holding only a `createdAt` text the store can read passes validation; as written the route writes that date as the creation stamp, and the corrected route keeps the stored one |
| Routes.UnreadableStampFails | backend/src/controllers/transactionController.ts:147-166 | a `createdAt` text the store cannot read (only `date` is converted with `new Date`) passes validation but fails the as-written update with "Failed to update transaction", while the corrected route succeeds |
| Routes.UnknownKeyFails | backend/src/controllers/transactionController.ts:153-166 | a valid body with a key that is no column passes validation, fails as written with "Failed to update transaction", and succeeds in the corrected route whenever its patch is readable |
| Routes.ListRoute | backend/src/routes/transactions.ts:29 | GET fails with a validation error exactly when the query schema rejects the query; otherwise it lists or fails in the store |
| Routes.ListRouteFailsOnNumbers | backend/src/controllers/transactionController.ts:11-20 | after validation the store fails only on a NaN page or limit or a negative offset |
| Routes.EmptyTypeRejected | backend/src/middleware/validation.ts:49 | an empty `type` is refused by the schema although the handler would read it as "no type" |
| Stats.Postings | backend/src/controllers/transactionController.ts:209-215 | one posting per record |
| Stats.OwnerRecords | backend/src/controllers/transactionController.ts:205-207 | the records the default user owns, in store order, each as often as the store holds it, and no other |
| Stats.PairKey | backend/src/controllers/transactionController.ts:223 | the key `${category}-${type}` splits at '-' into the category's and the type's names |
| Stats.PairKeySplits | backend/src/controllers/transactionController.ts:223-230 | splitting a `${category}-${type}` key at '-' gives back the category and the type |
| Stats.PairKeyInjective | backend/src/controllers/transactionController.ts:223 | distinct (category, type) pairs have distinct keys |
| Stats.Slots | backend/src/controllers/transactionController.ts:222-227 | one slot per record |
| Stats.SlotIndex | backend/src/controllers/transactionController.ts:224 | a lookup finds the first slot with the key, or reports that none has it |
| Stats.Breakdown | backend/src/controllers/transactionController.ts:229-236 | one breakdown entry per key in the map |
| Stats.GetTransactionStats | backend/src/controllers/transactionController.ts:203-236 | the balance is the signed total of the owner's records, income plus expense is their gross total, the breakdown is the grouping of the owner's records, and its amounts add up to income plus expense |
| Stats.SlotAmountsUpdate | backend/src/controllers/transactionController.ts:225-226 | updating one slot changes the sum of amounts by that slot's difference |
| Stats.KeyTotalAbsent | backend/src/controllers/transactionController.ts:224 | a key no record carries totals zero |
| Stats.TallyStepEffect | backend/src/controllers/transactionController.ts:224-226 | one step grows the record's slot by its amount, or appends a fresh slot with the record's type |
| Stats.TallyStep | backend/src/controllers/transactionController.ts:222-226 | one step either keeps the number of slots or appends exactly the record, and adds exactly its amount to the slots |
| Stats.TallyKeys | backend/src/controllers/transactionController.ts:220-227 | the map has one slot per key that occurs, and no other |
| Stats.Tally | backend/src/controllers/transactionController.ts:222-227 | the map has no more slots than records, and the slots add up to the sum of all amounts |
| Stats.TallyKinds | backend/src/controllers/transactionController.ts:224 | each slot's type is the type of some record with that key |
| Stats.TallyAmounts | backend/src/controllers/transactionController.ts:222-227 | each slot holds the sum of its key's amounts |
| Stats.SlotsAt | backend/src/controllers/transactionController.ts:222-223 | slot i is record i's key, amount and type |
| Stats.KeyTotalIsPairTotal | backend/src/controllers/transactionController.ts:223-225 | a key's total is the sum over records of that category and type |
| Stats.SlotAmountsIsGross | backend/src/controllers/transactionController.ts:222-227 | the slots' amounts sum to the gross total |
| Stats.EntryAmountsOfSlots | backend/src/controllers/transactionController.ts:229-236 | the breakdown entries carry exactly the slots' amounts |
| Stats.BreakdownEntries | backend/src/controllers/transactionController.ts:229-236 | each entry names the category and type of some record and holds the sum over that pair |
| Stats.BreakdownDistinct | backend/src/controllers/transactionController.ts:229-236 | no (category, type) pair appears twice |
| Stats.BreakdownCovers | backend/src/controllers/transactionController.ts:229-236 | every record's pair has an entry |
| Stats.BreakdownTotal | backend/src/controllers/transactionController.ts:209-236 | the breakdown entries' amounts add up to total income plus total expense |
| Stats.MonthlyInput | backend/src/controllers/transactionController.ts:265-267 | one (month, posting) item per record |
| Stats.MonthlyInputAt | backend/src/controllers/transactionController.ts:266-267 | item i carries record i's month |
| Stats.GetMonthlyStats | backend/src/controllers/transactionController.ts:252-297 | exactly the last six entries of the grouping of the date-ordered owner records, or all of them when there are fewer |
| Stats.ByDateAscending | backend/src/controllers/transactionController.ts:253-256 | the owner's records reordered, a permutation of them, with dates never decreasing |
| Stats.SortedGivesOrderedMonths | backend/src/controllers/transactionController.ts:256 | date-ascending records give month-ascending input |
| Stats.MonthlyStatsCorrect | backend/src/controllers/transactionController.ts:252-297 | the series is strictly ascending by month, ends with the latest month, and each entry holds its month's sums |
| Stats.OwnerRecordsAll | backend/src/controllers/transactionController.ts:205-207 | a store holding only the owner's records is its own selection |
| Stats.PostingsSnoc | backend/src/controllers/transactionController.ts:209-211 | the postings of a prefix grow by one posting per record |
| Stats.SeedOwned | backend/src/utils/seed.ts:34-99 | every seeded record belongs to the default user |
| Stats.SeedPostingsAgree | backend/src/utils/seed.ts:34-99 | the seeded records post the listed kinds and amounts |
| Stats.SeedPostingsPrefix | backend/src/utils/seed.ts:34-99 | every prefix of the seeded records posts the matching prefix |
| Stats.TotalsStep | backend/src/controllers/transactionController.ts:209-215 | one more record moves only its own kind's total |
| Stats.SeedTotals | backend/src/utils/seed.ts:34-99 | the seeded postings total 5500 income and 1780 expense |
| Stats.SeedStats | backend/src/utils/seed.ts:34-99 | on the seeded data the statistics are 5500 income, 1780 expense and a balance of 3720 |
| Validation.OptionsAreNames | backend/src/middleware/validation.ts:6-19 | the enum options are exactly the names of the domain's values |
| Validation.QuoteAll | backend/src/middleware/validation.ts:6 | one quoted option per option |
| Validation.CheckValue | backend/src/middleware/validation.ts:5-21 | a present value passes exactly when it meets its field's rule: an enum name, a positive number, a non-empty string, or a string or date |
| Validation.CheckField | backend/src/middleware/validation.ts:24-43 | an absent field passes exactly when it is optional; a present field is judged by its rule |
| Validation.Issues | backend/src/middleware/validation.ts:63 | at most one issue per field, and none exactly when every field passes |
| Validation.Validate | backend/src/middleware/validation.ts:56-70 | a body passes exactly when it is an object with no failing field, and then it is passed on unchanged; otherwise the error is a validation error |
| Validation.KindCheck | backend/src/middleware/validation.ts:6 | the type field passes exactly when it is good, or absent and optional |
| Validation.AmountCheck | backend/src/middleware/validation.ts:7 | the amount field passes exactly when it is a positive number, or absent and optional |
| Validation.CategoryCheck | backend/src/middleware/validation.ts:8-19 | the category field passes exactly when it is one of the ten names, or absent and optional |
| Validation.DescriptionCheck | backend/src/middleware/validation.ts:20 | the description passes exactly when it is a non-empty string, or absent and optional |
| Validation.DateCheck | backend/src/middleware/validation.ts:21 | the date passes exactly when it is a string, or absent and optional |
| Validation.FieldChecks | backend/src/middleware/validation.ts:5-43 | each schema field's check means the corresponding field condition |
| Validation.IssuesUnfold | backend/src/middleware/validation.ts:63 | a schema's issues are the first field's issue followed by the rest's |
| Validation.IssuesOfFive | backend/src/middleware/validation.ts:63 | the five fields' issues come in schema order |
| Validation.CreateAccepts | backend/src/middleware/validation.ts:5-22 | the create schema accepts an object exactly when it has a valid type, a positive amount, a known category, a non-empty description and a string date |
| Validation.UpdateAccepts | backend/src/middleware/validation.ts:24-43 | the update schema accepts an object exactly when each field it carries is valid |
| Validation.SchemasRelate | backend/src/middleware/validation.ts:5-43 | whatever creates may also update; an empty object updates; a non-object passes neither schema |
| Validation.ExtraKeysIgnored | backend/src/middleware/validation.ts:5-43 | adding a key outside the schema never changes the issues |
| Validation.NonPositiveAmount | backend/src/middleware/validation.ts:7 | a body wrong only in a non-positive amount is refused with "Amount must be positive" |
| Validation.EmptyCreateBody | backend/src/middleware/validation.ts:5-22 | an empty object is refused with "Required" for each required field, joined by ", " |
| Validation.KindOptionText | backend/src/middleware/validation.ts:6 | zod lists the type enum's options quoted, separated by a bar |
| Validation.UnknownKindMessage | backend/src/middleware/validation.ts:6 | the type "gift" is refused with zod's enum message: the quoted options joined by a bar, then `received 'gift'` |
| Validation.QueryObject | backend/src/middleware/validation.ts:77 | the parsed query object has exactly the query's keys |
| Validation.QuerySchemaFields | backend/src/middleware/validation.ts:45-54 | the query schema names the eight parameters, each optional, so the empty query passes; only type, sortBy and sortOrder are enums |
| Validation.ValidateQuery | backend/src/middleware/validation.ts:72-88 | a query that passes is handed on unchanged, and a refusal is a validation error |
| Validation.QueryAccepts | backend/src/middleware/validation.ts:45-88 | a query passes exactly when type, sortBy and sortOrder, where present, are among their options |
| Validation.QueryFieldCheck | backend/src/middleware/validation.ts:49-53 | an optional enum parameter passes exactly when it is absent or one of the options |
| Validation.ValidQuerySorts | backend/src/middleware/validation.ts:52-53 | a query that passes never names an unknown sort field or direction |
| Validation.TransformAgreesWithHandler | backend/src/middleware/validation.ts:46-51 | the schema's transforms read page, limit, month and year as the handler does; its category and type differ only for the empty string |
| Validation.Transformed | backend/src/middleware/validation.ts:46-51 | page and limit read as the handler reads them; month and year are present exactly when non-empty and then read by `parseInt`; category and type are kept whenever given, the empty string included |
| CsvExport.DoubleQuotes | backend/src/utils/export.ts:14 | doubling quotes lengthens the text by one per quote |
| CsvExport.Escape | backend/src/utils/export.ts:14 | the escaped description is wrapped in quotes, and it is free of commas and line breaks exactly when the description is |
| CsvExport.DoubleQuotesKeeps | backend/src/utils/export.ts:14 | doubling quotes adds no other character and drops none |
| CsvExport.CollapseDoubled | backend/src/utils/export.ts:14 | reading doubled quotes back as single ones undoes the doubling |
| CsvExport.EscapeRoundTrip | backend/src/utils/export.ts:14 | a CSV reader gets the exact description back from its escaped cell |
| CsvExport.DoubleQuotesAppend | backend/src/utils/export.ts:14 | doubling quotes works piece by piece |
| CsvExport.NoQuotesUnchanged | backend/src/utils/export.ts:14 | text without quotes is left as it is |
| CsvExport.EscapeExample | backend/src/utils/export.ts:14 | `He said "hi"` is exported as `"He said ""hi"""` |
| CsvExport.FractionText | backend/src/utils/export.ts:12 | `String(amount)` prints no fraction for whole amounts, and otherwise a point and one or two digits |
| CsvExport.UnsignedAmountText | backend/src/utils/export.ts:12 | a non-negative amount prints as a digit-led text without commas, line breaks or quotes |
| CsvExport.AmountText | backend/src/utils/export.ts:12 | an amount prints without commas, line breaks or quotes |
| CsvExport.FractionRoundTrip | backend/src/utils/export.ts:12 | the printed fraction reads back as the cents |
| CsvExport.ReadUnsignedRoundTrip | backend/src/utils/export.ts:12 | a printed non-negative amount reads back as itself |
| CsvExport.ReadSigned | backend/src/utils/export.ts:12 | a leading minus negates the amount read |
| CsvExport.AmountRoundTrip | backend/src/utils/export.ts:12 | reading a printed amount back gives the amount, negative or not |
| CsvExport.WholeAmount | backend/src/utils/export.ts:12 | whole amounts print as their decimal number with no fraction |
| CsvExport.DigitsArePlain | backend/src/utils/export.ts:12 | digits contain no comma, line break or quote |
| CsvExport.YearText | backend/src/utils/export.ts:15-17 | the printed year contains no comma, line break or quote |
| CsvExport.IsoText | backend/src/utils/export.ts:15-17 | `toISOString()` contains no comma, line break or quote |
| CsvExport.IsoLayout | backend/src/utils/export.ts:15-17 | each field sits at its fixed position in the `YYYY-MM-DDTHH:mm:ss.sssZ` layout |
| CsvExport.IsoReadBack | backend/src/utils/export.ts:15-17 | for years 0..9999 the timestamp has 24 characters and each field reads back as the instant's value |
| CsvExport.Cells | backend/src/utils/export.ts:9-18 | eight cells per record, in header order |
| CsvExport.Rows | backend/src/utils/export.ts:8-19 | one row per record, in order |
| CsvExport.Row | backend/src/utils/export.ts:9-18 | with a plain id and description a row has no line break and splits at its commas into exactly its eight cells |
| CsvExport.ExportToCsv | backend/src/utils/export.ts:1-22 | every document opens with the header line and a newline, and the empty export is exactly that |
| CsvExport.PlainCells | backend/src/utils/export.ts:9-18 | with a plain id and description every cell is free of commas and line breaks |
| CsvExport.RowsHaveNoBreaks | backend/src/utils/export.ts:8-19 | such rows contain no line break |
| CsvExport.HeaderIsOneLine | backend/src/utils/export.ts:3 | the header contains no line break |
| CsvExport.EmptyExportLines | backend/src/utils/export.ts:2-4 | the empty export is the header line followed by an empty last line |
| CsvExport.HeadedLines | backend/src/utils/export.ts:21 | a header, a newline and newline-joined lines split back into the header and those lines |
| CsvExport.ExportLines | backend/src/utils/export.ts:1-22 | a non-empty export splits into the header and one line per record, in order |
| ClientStore.Add | src/contexts/TransactionContext.tsx:27-34 | adding puts the new record first, with the draft's fields, the fresh id and "now", ahead of the unchanged list |
| ClientStore.Merge | src/contexts/TransactionContext.tsx:38 | the spread leaves a record unchanged exactly when every supplied field already has that value |
| ClientStore.MergeNothing | src/contexts/TransactionContext.tsx:38 | spreading no fields changes nothing |
| ClientStore.MergeIdempotent | src/contexts/TransactionContext.tsx:38 | spreading the same updates twice has no further effect |
| ClientStore.MergeThen | src/contexts/TransactionContext.tsx:38 | two spreads in a row are one spread of the combined updates, the later ones winning |
| ClientStore.MergeTouchesOnlySupplied | src/contexts/TransactionContext.tsx:38 | for each of the seven fields, one left out keeps its value and one supplied takes the new value |
| ClientStore.Update | src/contexts/TransactionContext.tsx:36-40 | the list keeps its length; records with the id are merged and every other record is unchanged |
| ClientStore.UpdateAbsent | src/contexts/TransactionContext.tsx:36-40 | updating an id no record has leaves the list as it was |
| ClientStore.UpdateNothing | src/contexts/TransactionContext.tsx:36-40 | updating with no fields leaves the list as it was |
| ClientStore.UpdateThen | src/contexts/TransactionContext.tsx:36-40 | two updates that leave the id alone are one update with the combined fields |
| ClientStore.Delete | src/contexts/TransactionContext.tsx:42-44 | no record with the id remains, and the list never grows |
| ClientStore.DeleteKeepsOthers | src/contexts/TransactionContext.tsx:42-44 | every other record survives in order and as often as before |
| ClientStore.DeleteIdempotent | src/contexts/TransactionContext.tsx:42-44 | deleting twice is deleting once |
| ClientStore.DeleteAbsent | src/contexts/TransactionContext.tsx:42-44 | deleting an id no record has changes nothing |
| ClientStore.DeleteUndoesAdd | src/contexts/TransactionContext.tsx:27-44 | deleting a just-added record whose id is new undoes the add |
| ClientStorage.Migrate | src/lib/transaction-storage.ts:21-24 | a non-object category is kept; an object becomes its name when that is truthy, else "Other", so the result is truthy |
| ClientStorage.MigrateIdempotent | src/lib/transaction-storage.ts:21-24 | migrating twice is migrating once when the name is not itself an object |
| ClientStorage.MigrateNestedName | src/lib/transaction-storage.ts:21-24 | a name that is itself an object is unwrapped one level per load |
| ClientStorage.MigrateLegacy | src/lib/transaction-storage.ts:21-24 | a legacy category object becomes its name, or "Other" when the name is empty |
| ClientStorage.LoadRecord | src/lib/transaction-storage.ts:26-31 | a loaded record keeps exactly the stored keys and their values, except a migrated category |
| ClientStorage.Spread | src/lib/transaction-storage.ts:27 | `{ ...t }` copies exactly the own keys of an object element, with their values, and nothing from a number, boolean or null |
| ClientStorage.Load | src/lib/transaction-storage.ts:13-37 | nothing stored, an empty string or unparsable text loads as an empty list |
| ClientStorage.LoadAll | src/lib/transaction-storage.ts:19-32 | one loaded record per stored element, in order |
| ClientStorage.LoadKeepsOrder | src/lib/transaction-storage.ts:13-37 | a stored array without nulls loads to one record per element, in order |
| ClientStorage.LoadRejects | src/lib/transaction-storage.ts:13-37 | anything but an array, or an array holding null, loads as an empty list |
| ClientStorage.Wrap | src/lib/transaction-storage.ts:51 | a cell is wrapped in quotes with its text unchanged inside |
| ClientStorage.UnsignedTwoDecimals | src/lib/transaction-storage.ts:46 | `toFixed(2)` of a non-negative amount is digits, a point and two digits, with no comma or line break |
| ClientStorage.TwoDecimals | src/lib/transaction-storage.ts:46 | `toFixed(2)` always ends in a point and two digits, with no comma or line break |
| ClientStorage.ClientCells | src/lib/transaction-storage.ts:41-47 | five cells per record |
| ClientStorage.WrapAll | src/lib/transaction-storage.ts:51 | each cell is wrapped |
| ClientStorage.ClientRows | src/lib/transaction-storage.ts:41-51 | one row per record, in order |
| ClientStorage.FixedTwoValue | src/lib/transaction-storage.ts:46 | the two printed fraction digits read back as the cents |
| ClientStorage.ReadTwoDecimals | src/lib/transaction-storage.ts:46 | whole units, a point and two digits read back as the cents |
| ClientStorage.UnsignedTwoDecimalsRead | src/lib/transaction-storage.ts:46 | the `toFixed(2)` text of a non-negative amount reads back as that amount |
| ClientStorage.TwoDecimalsRoundTrip | src/lib/transaction-storage.ts:46 | reading the amount cell back gives the amount, negative or not |
| ClientStorage.WrapMatchesEscape | src/lib/transaction-storage.ts:51 | the client's quoting agrees with the backend's exactly when the cell has no quote |
| ClientStorage.WrapRoundTrip | src/lib/transaction-storage.ts:51 | a CSV reader gets a quote-free cell back from its wrapping |
| ClientStorage.WrapLosesDoubledQuote | src/lib/transaction-storage.ts:51 | a cell holding two quotes is read back with one: unescaped quotes do not round-trip |
| ClientStorage.ClientHeaderIsOneLine | src/lib/transaction-storage.ts:40 | the header contains no line break |
| ClientStorage.ClientRow | src/lib/transaction-storage.ts:51 | a row of clean cells has no line break and splits at its commas into the five wrapped cells |
| ClientStorage.ClientCsv | src/lib/transaction-storage.ts:49-52 | with no records the text is the header alone; otherwise it opens with the header line and a newline |
| ClientStorage.ClientCsvLines | src/lib/transaction-storage.ts:49-52 | the text splits into the header and one line per record, in order; with no records it is the header alone |
| Dashboard.Postings | src/pages/Index.tsx:26-31 | one posting per record, carrying its type and amount |
| Dashboard.KeepKindHead | src/pages/Index.tsx:26-31 | filtering by type and summing counts the first record only when it has that type |
| Dashboard.PostingsHead | src/pages/Index.tsx:26-31 | the ledger totals count the first record only toward its own type |
| Dashboard.KindSums | src/pages/Index.tsx:26-31 | filtering by type and summing agrees with the ledger's totals |
| Dashboard.AmountSum | src/pages/Index.tsx:28-31 | the `reduce` sum of the amounts is the ledger's gross total of the same records |
| Dashboard.CardStats | src/pages/Index.tsx:25-37 | the balance card is the signed total, and income plus expense is the gross total |
| Dashboard.CardStatsAgree | src/pages/Index.tsx:25-37 | the cards show the ledger summary of the same records, which is what the backend's totals compute |
| Dashboard.FilteredTransactions | src/pages/Index.tsx:39-46 | every shown record matches the selected category and month |
| Dashboard.Shown | src/pages/Index.tsx:41-44 | a record is shown exactly when the category choice is "all" or its category, and the month choice is "all" or its month |
| Dashboard.FilterMeaning | src/pages/Index.tsx:39-46 | the shown list is, in list order, exactly the records that pass both selections, each as often as it occurs |
| Dashboard.FilterEverything | src/pages/Index.tsx:39-46 | with both selections on "all" the whole list is shown |
| Dashboard.Labels | src/pages/Index.tsx:49 | one month per record |
| Dashboard.FirstIndex | src/pages/Index.tsx:49 | the position of the first occurrence of a value |
| Dashboard.FirstIndexAppend | src/pages/Index.tsx:49 | appending values does not move a first occurrence |
| Dashboard.Distinct | src/pages/Index.tsx:49-50 | `Array.from(new Set(…))` holds each value once, exactly the values of the input, in the order of their first occurrence |
| Dashboard.AvailableMonths | src/pages/Index.tsx:48-54 | a month is offered exactly when some record falls in it, no month twice, and the months in the order of their first record in the list |
| Dashboard.Keyed | src/pages/Index.tsx:59-60 | one (month, posting) item per record |
| Dashboard.MonthlyAsWritten | src/pages/Index.tsx:56-85 | the chart as written: exactly the last six of the entries grouped in list order, or all of them when there are fewer |
| Dashboard.DateOrderIsTotalPreorder | src/pages/Index.tsx:78-83 | ordering records by date is total and transitive |
| Dashboard.Chronological | src/pages/Index.tsx:78-83 | the records oldest first: a permutation of the list, ordered by date |
| Dashboard.MonthlyStats | src/pages/Index.tsx:56-85 | the corrected chart: exactly the last six of the entries grouped oldest first, or all of them when there are fewer |
| Dashboard.ChronologicalMonthsOrdered | src/pages/Index.tsx:78-83 | records oldest first give month-ascending input |
| Dashboard.ChronologicalLast | src/pages/Index.tsx:78-83 | the last record oldest first is in the list, and no record has a later month |
| Dashboard.MonthlyStatsOrdered | src/pages/Index.tsx:56-85 | the corrected series is strictly ascending and each entry holds its month's sums |
| Dashboard.MonthlyStatsLast | src/pages/Index.tsx:84 | the corrected series ends with the latest record's month |
| Dashboard.MonthlyStatsCorrect | src/pages/Index.tsx:56-85 | the corrected series ends with the latest month that has a record, and that month is some record's |
| Dashboard.MonthlyAsWrittenFaithful | src/pages/Index.tsx:56-85 | each as-written entry still holds its month's sums, with no month twice |
| Dashboard.GroupDistinctMonths | src/pages/Index.tsx:59-76 | grouping records whose months all differ keeps one entry per record, in order |
| Dashboard.MonthlyAsWrittenDropsNewest | src/pages/Index.tsx:78-84 | with the list newest first and more than six months, the as-written chart leaves out the newest month |
| Dashboard.MonthlyStatsKeepsNewest | src/pages/Index.tsx:78-84 | on the same list the corrected chart ends with the newest month |

## Left out

- Request and response plumbing is not modelled: Express, `asyncHandler`, status codes and the JSON envelope. Each handler is a function returning its data or its error.
- `exportTransactions`: the router imports it, but its body is not part of this model. `exportToJSON` is `JSON.stringify` and is not modelled either.
- The record store is a sequence, not Prisma. These behaviours are stated as assumptions of the model:
  - a NaN `skip` or `take`, or a negative `skip`, fails the query;
  - a negative `take` reverses the order, skips, takes as many as its magnitude, and restores the order;
  - ties in the requested order are broken stably by insertion order, also when it is reversed;
  - `updatedAt` is refreshed on every write unless the data supplies it;
  - a data key that is no column of the record fails the update;
  - a date column given as text is read by the store itself, which takes only ISO-8601 date-time text; this reader is the `storeParse` parameter, separate from the `new Date` parser;
  - an update that moves a record onto an id another record holds fails on the primary key.
- A NaN page or limit: the code lets it through to the store and fails there, and the model follows the code.
- Update bodies are modelled only in part.
  - A `Partial` update carrying an explicit `undefined` is not modelled; an absent field and an undefined one are the same here.
  - Keys outside the schema are modelled for the four other columns of the record (`id`, `userId`, `createdAt`, `updatedAt`); any other key fails the write.
- Routes.UpdateRouteAsWritten: a `userId` naming no user would break the foreign key to the user table; there is no user table here, so any owner is written.
- Records.UpdateAsWritten: the same; the owner's foreign key is not checked.
- Listing.GetAllTransactions: a `sortBy` naming another column of the record is read as a failure, although the store would sort by it; the query schema refuses such a `sortBy` first.
- Date strings are read by `DateParser` parameters, and date parsing itself is not modelled. `parse` stands for `new Date(s)` in the handler; `storeParse` stands for the store's reading of the `createdAt`/`updatedAt` text the handler forwards unconverted. The model does not state how the two readers relate, only that they are distinct.
  - The client's `new Date(t.date)` on load is the `readDate` parameter.
  - `toLocaleDateString()` is the `dateText` parameter.
- Instants have whole seconds and no time zone: `toISOString` always prints `.000Z`, and the handler's local-time `new Date(y, m, d)` is read as that same zone.
- `Calendar.FullYear` models only the 0..99 → 1900..1999 rule of `new Date(y, …)`. Dates beyond JavaScript's ±8.64e15 ms range are not modelled.
- Numbers are integer cents. JSON amounts with more than two fraction digits, and floating-point rounding, are not modelled.
- CsvExport.IsoText: requires a real calendar instant, since `toISOString` throws on an invalid date.
- CsvExport.ExportLines: requires an id and a description free of commas and line breaks, because the split it is stated against ignores quoting. CsvExport.EscapeRoundTrip covers quoted descriptions.
- ClientStorage.ClientCsvLines: requires clean cells, for the same reason.
- Query values that are arrays or nested objects (`?a=1&a=2`) are not modelled; a query is a map from name to one string.
- ClientStorage.LoadRecord: spreading a string or array element (`{ ..."abc" }`) is not modelled; such elements copy no keys. A category key holding `undefined` is treated as absent.
- ClientStorage.MigrateIdempotent: requires a name that is not itself an object. ClientStorage.MigrateNestedName shows that a nested name is unwrapped one level per load.
- These client effects are not modelled: saving to local storage (`saveTransactions`), the file download, the `useTransactions` provider check, toasts, and the submit handler's UI state.
- `crypto.randomUUID()` and `new Date()` are the `id` and `now` parameters of `ClientStore.Add`.
- `availableMonths` sorts with a comparator that rearranges a label such as "October 2024" into "2024-October" and parses that as an ISO date. `parseISO` rejects it, every comparison is NaN, and so the sort keeps insertion order. `Dashboard.AvailableMonths` states that order: the months in the order of their first record.
- Month labels (`format(…, 'MMM yyyy')`, `toLocaleDateString`) are the `MonthKey(year, month)` they are formatted from; these formats are one-to-one in the key.

## Findings

| source | as written | input that shows it | evidently intended | confidence | as-written member | corrected member |
|---|---|---|---|---|---|---|
| src/pages/Index.tsx:78-84 | The chart sorts its entries by `parseISO` of labels such as "Oct 2024". That gives NaN, so the sort changes nothing. The entries stay in first-appearance order, and that order is newest first, because `addTransaction` prepends (src/contexts/TransactionContext.tsx:33). `slice(-6)` then keeps the six oldest months. | seven records in seven different months, added oldest first, so the list runs newest first: the newest month is missing from the chart | the chart shows the six most recent months, oldest to newest, like the backend's `getMonthlyStats` | not executed | Dashboard.MonthlyAsWrittenDropsNewest | Dashboard.MonthlyStatsKeepsNewest |
| backend/src/middleware/validation.ts:56-60 | `validate` checks the body against the schema but discards the parsed value. `updateTransaction` then writes the raw body (backend/src/controllers/transactionController.ts:133,153-156), including keys the schema does not name. | the update body `{ "createdAt": "2000-01-01T00:00:00.000Z" }` passes validation and rewrites the record's creation stamp; likewise `{ "userId": "someone-else" }` hands the record to another owner, after which every request reports it missing (Records.UpdateAsWrittenHidesRecord) | an update writes only the fields the update schema allows | not executed | Routes.UpdateRouteForgesCreatedAt | Routes.UpdateRoute |

=== FILE: calendar.dfy ===
/** The proleptic Gregorian calendar as JavaScript's `Date` uses it, without
    time zones and at one-second resolution. */
module Calendar {

  /** A calendar instant: year, month (1..12), day, hour, minute, second. */
  datatype DateTime = DateTime(year: int, month: int, day: int, hour: int, minute: int, second: int)

  /** A (year, month) pair: the grouping key of the monthly statistics. */
  datatype MonthKey = MonthKey(year: int, month: int)

  /** An inclusive range `[start, end]`: Prisma's `{ gte: start, lte: end }`. */
  datatype Range = Range(start: DateTime, end: DateTime)

  /** Gregorian leap years: every fourth year, except centuries not divisible by 400. */
  predicate IsLeapYear(y: int) {
    y % 4 == 0 && (y % 100 != 0 || y % 400 == 0)
  }

  /** The number of days in month `m` (1..12) of year `y`. */
  function DaysInMonth(y: int, m: int): (n: int)
    requires 1 <= m <= 12
    ensures 28 <= n <= 31
    ensures m == 2 ==> (n == 29 <==> IsLeapYear(y))
    ensures m != 2 ==> (n == 30 <==> m == 4 || m == 6 || m == 9 || m == 11)
  {
    if m == 2 then (if IsLeapYear(y) then 29 else 28)
    else if m == 4 || m == 6 || m == 9 || m == 11 then 30
    else 31
  }

  /** The months of a year add up to 365 days, or 366 in a leap year. */
  lemma DaysInYear(y: int)
    ensures DaysInMonth(y, 1) + DaysInMonth(y, 2) + DaysInMonth(y, 3) + DaysInMonth(y, 4)
          + DaysInMonth(y, 5) + DaysInMonth(y, 6) + DaysInMonth(y, 7) + DaysInMonth(y, 8)
          + DaysInMonth(y, 9) + DaysInMonth(y, 10) + DaysInMonth(y, 11) + DaysInMonth(y, 12)
          == if IsLeapYear(y) then 366 else 365
  {
  }

  /** An instant that names a real calendar second. */
  predicate Valid(d: DateTime) {
    && 1 <= d.month <= 12
    && 1 <= d.day <= DaysInMonth(d.year, d.month)
    && 0 <= d.hour < 24 && 0 <= d.minute < 60 && 0 <= d.second < 60
  }

  /** `a <= b` in time: lexicographic on the six fields. */
  predicate NotAfter(a: DateTime, b: DateTime) {
    || a.year < b.year
    || (a.year == b.year && a.month < b.month)
    || (a.year == b.year && a.month == b.month && a.day < b.day)
    || (a.year == b.year && a.month == b.month && a.day == b.day && a.hour < b.hour)
    || (a.year == b.year && a.month == b.month && a.day == b.day && a.hour == b.hour && a.minute < b.minute)
    || (a.year == b.year && a.month == b.month && a.day == b.day && a.hour == b.hour && a.minute == b.minute
        && a.second <= b.second)
  }

  /** `NotAfter` is a total order on instants. */
  lemma NotAfterTotalOrder(a: DateTime, b: DateTime, c: DateTime)
    ensures NotAfter(a, b) || NotAfter(b, a)
    ensures NotAfter(a, b) && NotAfter(b, c) ==> NotAfter(a, c)
    ensures NotAfter(a, b) && NotAfter(b, a) ==> a == b
  {
  }

  predicate InRange(d: DateTime, r: Range) {
    NotAfter(r.start, d) && NotAfter(d, r.end)
  }

  function MonthOf(d: DateTime): MonthKey {
    MonthKey(d.year, d.month)
  }

  /** Strict chronological order of months. */
  predicate MonthBefore(a: MonthKey, b: MonthKey) {
    a.year < b.year || (a.year == b.year && a.month < b.month)
  }

  /** Later instants never fall in earlier months. */
  lemma MonthOfMonotone(a: DateTime, b: DateTime)
    requires NotAfter(a, b)
    ensures MonthOf(a) == MonthOf(b) || MonthBefore(MonthOf(a), MonthOf(b))
  {
  }

  /** The year `new Date(y, …)` uses: 0..99 stand for 1900..1999. */
  function FullYear(y: int): (r: int)
    ensures 0 <= y <= 99 ==> r == 1900 + y
    ensures (y < 0 || y > 99) ==> r == y
  {
    if 0 <= y <= 99 then 1900 + y else y
  }

  /** The month `new Date(year, monthIndex, …)` lands in: a zero-based month
      index outside 0..11 carries into the year by floor division. */
  function MonthAt(year: int, monthIndex: int): (k: MonthKey)
    ensures 1 <= k.month <= 12
    ensures 0 <= monthIndex < 12 ==> k == MonthKey(year, monthIndex + 1)
  {
    MonthKey(year + monthIndex / 12, monthIndex % 12 + 1)
  }

  function PreviousMonth(k: MonthKey): MonthKey {
    if k.month == 1 then MonthKey(k.year - 1, 12) else MonthKey(k.year, k.month - 1)
  }

  /** Day 0 of a month is the last day of the month before it. */
  lemma MonthAtPredecessor(year: int, monthIndex: int)
    ensures MonthAt(year, monthIndex - 1) == PreviousMonth(MonthAt(year, monthIndex))
  {
    var q, r := monthIndex / 12, monthIndex % 12;
    assert monthIndex == 12 * q + r && 0 <= r < 12;
    if r == 0 {
      assert monthIndex - 1 == 12 * (q - 1) + 11;
    } else {
      assert monthIndex - 1 == 12 * q + (r - 1);
    }
  }

  /** `new Date(year, monthIndex, 1)`: midnight on the first of the month. */
  function FirstDay(year: int, monthIndex: int): (d: DateTime)
    ensures Valid(d) && MonthOf(d) == MonthAt(year, monthIndex)
  {
    var k := MonthAt(year, monthIndex);
    DateTime(k.year, k.month, 1, 0, 0, 0)
  }

  /** `new Date(year, monthIndex, 0, 23, 59, 59)`: the last second of the
      last day of the month before `monthIndex`. */
  function DayZeroLastSecond(year: int, monthIndex: int): (d: DateTime)
    ensures Valid(d) && MonthOf(d) == PreviousMonth(MonthAt(year, monthIndex))
  {
    var k := PreviousMonth(MonthAt(year, monthIndex));
    DateTime(k.year, k.month, DaysInMonth(k.year, k.month), 23, 59, 59)
  }

  /** The range the list query uses for a month and a year (month 1-based). */
  function MonthRange(year: int, month: int): (r: Range)
    ensures MonthOf(r.start) == MonthOf(r.end) == MonthAt(FullYear(year), month - 1)
    ensures r.start.day == 1 && r.end.day == DaysInMonth(r.end.year, r.end.month)
  {
    MonthAtPredecessor(FullYear(year), month);
    Range(FirstDay(FullYear(year), month - 1), DayZeroLastSecond(FullYear(year), month))
  }

  /** The range the list query uses for a year alone. */
  function YearRange(year: int): (r: Range)
    ensures Valid(r.start) && Valid(r.end)
    ensures r.start.year == r.end.year == FullYear(year)
  {
    Range(DateTime(FullYear(year), 1, 1, 0, 0, 0), DateTime(FullYear(year), 12, 31, 23, 59, 59))
  }

  /** A valid instant lies in the month range exactly when it lies in that
      calendar month: every second of the last day, leap days included. */
  lemma MonthRangeSelectsMonth(year: int, month: int, d: DateTime)
    requires Valid(d)
    ensures InRange(d, MonthRange(year, month)) <==> MonthOf(d) == MonthAt(FullYear(year), month - 1)
  {
  }

  /** A valid instant lies in the year range exactly when it lies in that year. */
  lemma YearRangeSelectsYear(year: int, d: DateTime)
    requires Valid(d)
    ensures InRange(d, YearRange(year)) <==> d.year == FullYear(year)
  {
  }

  /** For an ordinary month and a four-digit year the range is the month
      itself, ending on the 29th for a leap-year February. */
  lemma MonthRangeOrdinary(year: int, month: int)
    requires year >= 100 && 1 <= month <= 12
    ensures MonthRange(year, month).start == DateTime(year, month, 1, 0, 0, 0)
    ensures MonthRange(year, month).end == DateTime(year, month, DaysInMonth(year, month), 23, 59, 59)
    ensures month == 2 && IsLeapYear(year) ==> MonthRange(year, month).end.day == 29
  {
  }
}

=== FILE: client_storage.dfy ===
/** The browser's persistence helpers (`transaction-storage.ts`): the
    category migration applied to each stored record on load, the load
    itself with its fall-backs to an empty list, and the CSV download text. */
module ClientStorage {
  import opened Wrappers
  import opened Text
  import opened Calendar
  import opened Domain
  import opened Validation
  import opened CsvExport
  import opened ClientStore

  // ----- category migration -----

  /** JavaScript truthiness of a JSON value. */
  predicate Truthy(j: Json) {
    match j
    case JNull => false
    case JBool(b) => b
    case JNumber(n) => n != 0
    case JString(s) => s != ""
    case JArray(_) => true
    case JObject(_) => true
  }

  /** `typeof category === 'object' && category !== null ? category.name || 'Other' : category`.
      Arrays are objects without a `name`. */
  function Migrate(c: Json): (r: Json)
    ensures !(c.JObject? || c.JArray?) ==> r == c
    ensures (c.JObject? || c.JArray?) && (r.JObject? || r.JArray?) ==> c.JObject? && "name" in c.fields && r == c.fields["name"]
    ensures (c.JObject? || c.JArray?) ==> Truthy(r)
  {
    match c
    case JObject(f) => if "name" in f && Truthy(f["name"]) then f["name"] else JString("Other")
    case JArray(_) => JString("Other")
    case _ => c
  }

  /** The category's `name` is not itself an object (true of every legacy record). */
  predicate FlatName(c: Json) {
    c.JObject? && "name" in c.fields ==> !(c.fields["name"].JObject? || c.fields["name"].JArray?)
  }

  /** Migrating a migrated category changes nothing. */
  lemma MigrateIdempotent(c: Json)
    requires FlatName(c)
    ensures Migrate(Migrate(c)) == Migrate(c)
  {
  }

  /** Without a flat name the shim unwraps one level per load. */
  lemma MigrateNestedName(c: Json)
    requires c == JObject(map["name" := JObject(map["name" := JString("Food")])])
    ensures Migrate(c) == JObject(map["name" := JString("Food")])
    ensures Migrate(Migrate(c)) == JString("Food")
  {
    assert "name" in c.fields;
    assert Truthy(c.fields["name"]);
  }

  /** A legacy category object becomes its name; one with an empty name becomes 'Other'. */
  lemma MigrateLegacy(name: string, rest: map<string, Json>)
    ensures Migrate(JObject(rest["name" := JString(name)])) == JString(if name == "" then "Other" else name)
  {
    var f := rest["name" := JString(name)];
    assert "name" in f && f["name"] == JString(name);
  }

  // ----- loading -----

  /** A loaded record: the stored keys with the category migrated, and the
      two timestamps re-read by `new Date(…)` (`None` for an invalid date). */
  datatype Loaded = Loaded(fields: map<string, Json>, date: Option<DateTime>, createdAt: Option<DateTime>)

  /** The keys `{ ...t }` copies: an object's own fields, nothing for a
      number, boolean or null. */
  function Spread(t: Json): (r: map<string, Json>)
    ensures forall k :: k in r <==> t.JObject? && k in t.fields
    ensures forall k :: k in r ==> r[k] == t.fields[k]
  {
    if t.JObject? then t.fields else map[]
  }

  /** `{ ...t, category, date: new Date(t.date), createdAt: new Date(t.createdAt) }`,
      with `readDate` standing for `new Date` on the stored value. */
  function LoadRecord(t: Json, readDate: Option<Json> -> Option<DateTime>): (r: Loaded)
    ensures r.fields.Keys == Spread(t).Keys
    ensures forall k :: k in Spread(t) && k != "category" ==> r.fields[k] == Spread(t)[k]
    ensures "category" in Spread(t) ==> r.fields["category"] == Migrate(Spread(t)["category"])
  {
    var f := Spread(t);
    var fields := if "category" in f then f["category" := Migrate(f["category"])] else f;
    var date := if "date" in f then Some(f["date"]) else None;
    var created := if "createdAt" in f then Some(f["createdAt"]) else None;
    Loaded(fields, readDate(date), readDate(created))
  }

  /** `loadTransactions`: nothing stored or an empty string gives `[]`; so
      does anything the `try` block throws on: text `JSON.parse` rejects
      (`parse` returns `None`), a parsed value without `map` (not an array)
      and a `null` element (whose `category` cannot be read). */
  function Load(data: Option<string>, parse: string -> Option<Json>, readDate: Option<Json> -> Option<DateTime>): (r: seq<Loaded>)
    ensures data.None? || data == Some("") ==> r == []
    ensures data.Some? && data != Some("") && parse(data.value).None? ==> r == []
  {
    if data.None? || data.value == "" then []
    else match parse(data.value)
      case None => []
      case Some(JArray(items)) =>
        if exists i :: 0 <= i < |items| && items[i] == JNull then [] else LoadAll(items, readDate)
      case Some(_) => []
  }

  function LoadAll(items: seq<Json>, readDate: Option<Json> -> Option<DateTime>): (r: seq<Loaded>)
    ensures |r| == |items|
    ensures forall i :: 0 <= i < |items| ==> r[i] == LoadRecord(items[i], readDate)
  {
    if |items| == 0 then [] else [LoadRecord(items[0], readDate)] + LoadAll(items[1..], readDate)
  }

  /** A stored array without `null` elements loads to one record per element,
      in the stored order, each with its category migrated. */
  lemma LoadKeepsOrder(data: string, parse: string -> Option<Json>, readDate: Option<Json> -> Option<DateTime>, items: seq<Json>)
    requires data != "" && parse(data) == Some(JArray(items))
    requires forall i :: 0 <= i < |items| ==> items[i] != JNull
    ensures var r := Load(Some(data), parse, readDate);
      && |r| == |items|
      && forall i :: 0 <= i < |items| && "category" in Spread(items[i]) ==>
           r[i].fields["category"] == Migrate(Spread(items[i])["category"])
  {
  }

  /** Anything but an array, or an array holding `null`, loads to `[]`. */
  lemma LoadRejects(data: string, parse: string -> Option<Json>, readDate: Option<Json> -> Option<DateTime>)
    requires data != "" && parse(data).Some?
    requires !parse(data).value.JArray? || JNull in parse(data).value.items
    ensures Load(Some(data), parse, readDate) == []
  {
    if parse(data).value.JArray? {
      var items := parse(data).value.items;
      var i :| 0 <= i < |items| && items[i] == JNull;
    }
  }

  // ----- CSV download -----

  const ClientHeaderCells: seq<string> := ["Date", "Type", "Category", "Description", "Amount"]
  const ClientHeader: string := Join(ClientHeaderCells, ",")

  /** `"${cell}"`: quotes around the cell, nothing escaped inside. */
  function Wrap(cell: string): (r: string)
    ensures |r| == |cell| + 2 && r[0] == '"' && r[|r| - 1] == '"' && r[1..|r| - 1] == cell
  {
    "\"" + cell + "\""
  }

  /** `amount.toFixed(2)` for a non-negative amount held in cents. */
  function UnsignedTwoDecimals(a: nat): (r: string)
    ensures |r| >= 4 && IsDigit(r[0]) && r[|r| - 3] == '.' && AllDigits(r[|r| - 2..])
    ensures ',' !in r && '\n' !in r
  {
    var w, f := Decimal(a / 100), Fixed(a % 100, 2);
    var r := w + "." + f;
    assert r[|r| - 2..] == f;
    DigitsArePlain(w);
    DigitsArePlain(f);
    r
  }

  /** `amount.toFixed(2)` for an amount held in cents. */
  function TwoDecimals(cents: int): (r: string)
    ensures |r| >= 4 && r[|r| - 3] == '.' && AllDigits(r[|r| - 2..])
    ensures ',' !in r && '\n' !in r
  {
    if cents < 0 then
      var u := UnsignedTwoDecimals(-cents);
      assert ("-" + u)[|u| + 1 - 2..] == u[|u| - 2..];
      "-" + u
    else UnsignedTwoDecimals(cents)
  }

  /** The five cells of a record: the date as the locale prints it
      (`dateText`), type, category, description and amount. */
  function ClientCells(t: Entry, dateText: DateTime -> string): (r: seq<string>)
    ensures |r| == 5
  {
    [dateText(t.date), KindName(t.kind), t.category, t.description, TwoDecimals(t.amount)]
  }

  function WrapAll(cells: seq<string>): (r: seq<string>)
    ensures |r| == |cells|
    ensures forall i :: 0 <= i < |cells| ==> r[i] == Wrap(cells[i])
  {
    if |cells| == 0 then [] else [Wrap(cells[0])] + WrapAll(cells[1..])
  }

  /** One record's line: the wrapped cells joined by commas. With clean cells
      it is a single line that splits at its commas into the five wrapped
      cells. */
  function ClientRow(t: Entry, dateText: DateTime -> string): (r: string)
    ensures CleanCells(t, dateText) ==> '\n' !in r && Split(r, ',') == WrapAll(ClientCells(t, dateText))
  {
    var cells := WrapAll(ClientCells(t, dateText));
    var r := Join(cells, ",");
    if CleanCells(t, dateText) then
      assert ',' !in KindName(t.kind) && '\n' !in KindName(t.kind);
      assert forall i :: 0 <= i < 5 ==> ',' !in cells[i] && '\n' !in cells[i] by {
        forall i | 0 <= i < 5
          ensures ',' !in cells[i] && '\n' !in cells[i]
        {
          var c := ClientCells(t, dateText)[i];
          assert ',' !in c && '\n' !in c;
          assert forall ch :: ch in cells[i] ==> ch == '"' || ch in c;
        }
      }
      SplitJoin(cells, ',');
      JoinAvoids(cells, ",", '\n');
      r
    else r
  }

  function ClientRows(ts: seq<Entry>, dateText: DateTime -> string): (r: seq<string>)
    ensures |r| == |ts|
    ensures forall i :: 0 <= i < |ts| ==> r[i] == ClientRow(ts[i], dateText)
  {
    if |ts| == 0 then [] else [ClientRow(ts[0], dateText)] + ClientRows(ts[1..], dateText)
  }

  /** `exportToCSV`'s text: the header and the rows joined by newlines. */
  function ClientCsv(ts: seq<Entry>, dateText: DateTime -> string): (r: string)
    ensures |ts| == 0 ==> r == ClientHeader
    ensures |ts| > 0 ==> |r| > |ClientHeader| && r[..|ClientHeader| + 1] == ClientHeader + "\n"
  {
    var lines := [ClientHeader] + ClientRows(ts, dateText);
    assert lines[0] == ClientHeader && lines[1..] == ClientRows(ts, dateText);
    Join(lines, "\n")
  }

  // ----- what the CSV text promises -----

  lemma FixedTwoValue(f: nat)
    requires f < 100
    ensures FractionValue(Fixed(f, 2)) == f
  {
    assert Fixed(f, 2) == Fixed(f / 10, 1) + [DigitChar(f % 10)];
    assert Fixed(f / 10, 1) == [DigitChar(f / 10 % 10)];
  }

  /** The unsigned part: whole units, a point, two digits. */
  lemma ReadTwoDecimals(whole: nat, f: nat)
    requires f < 100
    ensures ReadUnsigned(Decimal(whole) + "." + Fixed(f, 2)) == Some(whole * 100 + f)
  {
    var w, t := Decimal(whole), "." + Fixed(f, 2);
    var u := w + t;
    assert Decimal(whole) + "." + Fixed(f, 2) == u;
    assert '.' !in w;
    IndexAfterPrefix(w, t, '.');
    assert u[..|w|] == w && u[|w| + 1..] == Fixed(f, 2);
    DecimalRoundTrip(whole);
    FixedTwoValue(f);
  }

  /** Reading the amount cell back gives the cents. */
  lemma TwoDecimalsRoundTrip(cents: int)
    ensures ReadAmount(TwoDecimals(cents)) == Some(cents)
  {
    var a: nat := if cents < 0 then -cents else cents;
    var u := UnsignedTwoDecimals(a);
    UnsignedTwoDecimalsRead(a);
    ReadSigned(u, a);
    assert TwoDecimals(cents) == if cents < 0 then "-" + u else u;
  }

  /** `toFixed(2)` of a non-negative amount reads back as that amount: the
      unsigned half of the amount cell's round trip. */
  lemma UnsignedTwoDecimalsRead(a: nat)
    ensures ReadUnsigned(UnsignedTwoDecimals(a)) == Some(a)
  {
    ReadTwoDecimals(a / 100, a % 100);
  }

  /** The client's quoting agrees with the backend's exactly when the cell
      has no quote character. */
  lemma WrapMatchesEscape(cell: string)
    ensures Wrap(cell) == Escape(cell) <==> '"' !in cell
  {
    CountPositive(cell, '"');
    if '"' !in cell {
      NoQuotesUnchanged(cell);
    } else {
      assert |Wrap(cell)| != |Escape(cell)|;
    }
  }

  /** A CSV reader recovers a quote-free cell from its wrapping. */
  lemma WrapRoundTrip(cell: string)
    requires '"' !in cell
    ensures Unescape(Wrap(cell)) == Some(cell)
  {
    WrapMatchesEscape(cell);
    EscapeRoundTrip(cell);
  }

  /** A cell holding a doubled quote is read back with a single one. */
  lemma WrapLosesDoubledQuote(cell: string)
    requires cell == "\"\""
    ensures Unescape(Wrap(cell)) == Some("\"")
  {
    var w := Wrap(cell);
    assert w[1..|w| - 1] == cell;
    assert cell[0] == '"' && cell[1] == '"' && cell[2..] == "";
    assert Collapse(cell) == "\"" + Collapse(cell[2..]);
    assert |w| == 4 && w[0] == '"' && w[3] == '"';
    assert Collapse(cell[2..]) == "";
    assert Unescape(w) == Some(Collapse(cell));
    assert Collapse(cell) == "\"";
    assert w == Wrap(cell);
  }

  lemma {:induction false} ClientHeaderIsOneLine()
    ensures '\n' !in ClientHeader
  {
    forall i | 0 <= i < |ClientHeaderCells|
      ensures '\n' !in ClientHeaderCells[i]
    {
    }
    JoinAvoids(ClientHeaderCells, ",", '\n');
  }

  /** Cells the locale date, category and description leave free of commas
      and newlines; type and amount always are. */
  predicate CleanCells(t: Entry, dateText: DateTime -> string) {
    Plain(dateText(t.date)) && Plain(t.category) && Plain(t.description)
  }

  /** The text splits into the header and one line per record, in order;
      with no records it is the header alone, with no newline. */
  lemma {:induction false} ClientCsvLines(ts: seq<Entry>, dateText: DateTime -> string)
    requires forall i :: 0 <= i < |ts| ==> CleanCells(ts[i], dateText)
    ensures Split(ClientCsv(ts, dateText), '\n') == [ClientHeader] + ClientRows(ts, dateText)
    ensures |ts| == 0 ==> ClientCsv(ts, dateText) == ClientHeader
  {
    var lines := [ClientHeader] + ClientRows(ts, dateText);
    ClientHeaderIsOneLine();
    forall i | 0 <= i < |lines|
      ensures '\n' !in lines[i]
    {
      if i > 0 {
        assert lines[i] == ClientRow(ts[i - 1], dateText);
      }
    }
    SplitJoin(lines, '\n');
  }
}

=== FILE: client_store.dfy ===
/** The browser's in-memory transaction list (`TransactionContext`): adding
    prepends, updating merges fields into the records with the id, deleting
    filters the id out. Each operation is the pure list transformer passed to
    the state setter; the fresh id and the clock are parameters. */
module ClientStore {
  import opened Wrappers
  import opened Calendar
  import opened Domain
  import opened Filtering

  /** A client-side record: no owner and no update stamp, and a free-text
      category, since loading older data may produce any name. */
  datatype Entry = Entry(
    id: string,
    kind: Kind,
    amount: int,
    category: string,
    description: string,
    date: DateTime,
    createdAt: DateTime)

  /** `Omit<Transaction, 'id' | 'createdAt'>`: what the form supplies. */
  datatype Draft = Draft(kind: Kind, amount: int, category: string, description: string, date: DateTime)

  /** `Partial<Transaction>`: each field either supplied or left out. */
  datatype Changes = Changes(
    id: Option<string>,
    kind: Option<Kind>,
    amount: Option<int>,
    category: Option<string>,
    description: Option<string>,
    date: Option<DateTime>,
    createdAt: Option<DateTime>)

  const NoChanges := Changes(None, None, None, None, None, None, None)

  /** The user-supplied part of a record. */
  function DraftOf(t: Entry): Draft {
    Draft(t.kind, t.amount, t.category, t.description, t.date)
  }

  /** `addTransaction`: `[{ ...transaction, id, createdAt }, ...prev]`. */
  function Add(prev: seq<Entry>, d: Draft, id: string, now: DateTime): (r: seq<Entry>)
    ensures |r| == |prev| + 1 && r[1..] == prev
    ensures DraftOf(r[0]) == d && r[0].id == id && r[0].createdAt == now
  {
    [Entry(id, d.kind, d.amount, d.category, d.description, d.date, now)] + prev
  }

  /** Every field the changes supply already holds that value in `t`. */
  predicate Agrees(t: Entry, c: Changes) {
    && (c.id.Some? ==> c.id.value == t.id)
    && (c.kind.Some? ==> c.kind.value == t.kind)
    && (c.amount.Some? ==> c.amount.value == t.amount)
    && (c.category.Some? ==> c.category.value == t.category)
    && (c.description.Some? ==> c.description.value == t.description)
    && (c.date.Some? ==> c.date.value == t.date)
    && (c.createdAt.Some? ==> c.createdAt.value == t.createdAt)
  }

  /** `{ ...t, ...updates }`: the record changes exactly when some supplied
      value differs from the current one. */
  function Merge(t: Entry, c: Changes): (r: Entry)
    ensures r == t <==> Agrees(t, c)
  {
    Entry(
      c.id.GetOr(t.id),
      c.kind.GetOr(t.kind),
      c.amount.GetOr(t.amount),
      c.category.GetOr(t.category),
      c.description.GetOr(t.description),
      c.date.GetOr(t.date),
      c.createdAt.GetOr(t.createdAt))
  }

  /** `{ ...a, ...b }` on two partial records. */
  function Then(a: Changes, b: Changes): Changes {
    Changes(
      if b.id.Some? then b.id else a.id,
      if b.kind.Some? then b.kind else a.kind,
      if b.amount.Some? then b.amount else a.amount,
      if b.category.Some? then b.category else a.category,
      if b.description.Some? then b.description else a.description,
      if b.date.Some? then b.date else a.date,
      if b.createdAt.Some? then b.createdAt else a.createdAt)
  }

  /** Merging nothing changes nothing. */
  lemma MergeNothing(t: Entry)
    ensures Merge(t, NoChanges) == t
  {
  }

  /** Merging the same changes again has no further effect. */
  lemma MergeIdempotent(t: Entry, c: Changes)
    ensures Merge(Merge(t, c), c) == Merge(t, c)
  {
  }

  /** Two merges in a row are one merge of the combined changes, later ones winning. */
  lemma MergeThen(t: Entry, a: Changes, b: Changes)
    ensures Merge(Merge(t, a), b) == Merge(t, Then(a, b))
  {
  }

  /** A field the changes leave out keeps its value; a supplied one takes the new value. */
  lemma MergeTouchesOnlySupplied(t: Entry, c: Changes)
    ensures (c.id.None? ==> Merge(t, c).id == t.id) && (c.id.Some? ==> Merge(t, c).id == c.id.value)
    ensures (c.kind.None? ==> Merge(t, c).kind == t.kind) && (c.kind.Some? ==> Merge(t, c).kind == c.kind.value)
    ensures c.amount.None? ==> Merge(t, c).amount == t.amount
    ensures c.amount.Some? ==> Merge(t, c).amount == c.amount.value
    ensures c.category.None? ==> Merge(t, c).category == t.category
    ensures c.category.Some? ==> Merge(t, c).category == c.category.value
    ensures c.description.None? ==> Merge(t, c).description == t.description
    ensures c.description.Some? ==> Merge(t, c).description == c.description.value
    ensures (c.date.None? ==> Merge(t, c).date == t.date) && (c.date.Some? ==> Merge(t, c).date == c.date.value)
    ensures c.createdAt.None? ==> Merge(t, c).createdAt == t.createdAt
    ensures c.createdAt.Some? ==> Merge(t, c).createdAt == c.createdAt.value
  {
  }

  /** `updateTransaction`: `prev.map(t => t.id === id ? { ...t, ...updates } : t)`. */
  function Update(prev: seq<Entry>, id: string, c: Changes): (r: seq<Entry>)
    ensures |r| == |prev|
    ensures forall i :: 0 <= i < |prev| && prev[i].id != id ==> r[i] == prev[i]
    ensures forall i :: 0 <= i < |prev| && prev[i].id == id ==> r[i] == Merge(prev[i], c)
  {
    if |prev| == 0 then []
    else [if prev[0].id == id then Merge(prev[0], c) else prev[0]] + Update(prev[1..], id, c)
  }

  /** Updating an id no record carries leaves the list as it was. */
  lemma UpdateAbsent(prev: seq<Entry>, id: string, c: Changes)
    requires forall i :: 0 <= i < |prev| ==> prev[i].id != id
    ensures Update(prev, id, c) == prev
  {
  }

  /** Updating with no fields leaves the list as it was. */
  lemma UpdateNothing(prev: seq<Entry>, id: string)
    ensures Update(prev, id, NoChanges) == prev
  {
    var r := Update(prev, id, NoChanges);
    forall i | 0 <= i < |prev|
      ensures r[i] == prev[i]
    {
      MergeNothing(prev[i]);
    }
  }

  /** Changes that leave the id out keep every id in place, so updating
      twice is updating once with the combined changes. */
  lemma UpdateThen(prev: seq<Entry>, id: string, a: Changes, b: Changes)
    requires a.id.None?
    ensures Update(Update(prev, id, a), id, b) == Update(prev, id, Then(a, b))
  {
    var once := Update(prev, id, a);
    forall i | 0 <= i < |prev|
      ensures once[i].id == prev[i].id
    {
    }
    forall i | 0 <= i < |prev| && prev[i].id == id
      ensures Update(once, id, b)[i] == Update(prev, id, Then(a, b))[i]
    {
      MergeThen(prev[i], a, b);
    }
  }

  function Unlike(id: string): Entry -> bool {
    (t: Entry) => t.id != id
  }

  /** `deleteTransaction`: `prev.filter(t => t.id !== id)`. */
  function Delete(prev: seq<Entry>, id: string): (r: seq<Entry>)
    ensures forall i :: 0 <= i < |r| ==> r[i].id != id
    ensures |r| <= |prev|
  {
    Keep(prev, Unlike(id))
  }

  /** Every other record survives, in its order and as often as before. */
  lemma DeleteKeepsOthers(prev: seq<Entry>, id: string, t: Entry)
    ensures SubsequenceOf(Delete(prev, id), prev)
    ensures multiset(Delete(prev, id))[t] == if t.id == id then 0 else multiset(prev)[t]
  {
    KeepIsSubsequence(prev, Unlike(id));
    KeepCounts(prev, Unlike(id), t);
  }

  lemma DeleteIdempotent(prev: seq<Entry>, id: string)
    ensures Delete(Delete(prev, id), id) == Delete(prev, id)
  {
    KeepTwice(prev, Unlike(id));
  }

  lemma DeleteAbsent(prev: seq<Entry>, id: string)
    requires forall i :: 0 <= i < |prev| ==> prev[i].id != id
    ensures Delete(prev, id) == prev
  {
    KeepEverything(prev, Unlike(id));
  }

  /** Deleting a record just added, under an id nobody else has, undoes the add. */
  lemma DeleteUndoesAdd(prev: seq<Entry>, d: Draft, id: string, now: DateTime)
    requires forall i :: 0 <= i < |prev| ==> prev[i].id != id
    ensures Delete(Add(prev, d, id, now), id) == prev
  {
    var added := Add(prev, d, id, now);
    assert added[1..] == prev;
    DeleteAbsent(prev, id);
  }
}

=== FILE: csv_export.dfy ===
/** The backend CSV exporter (`exportToCSV`): a fixed header line, then one
    comma-joined row per record; only the description is quoted, with
    inner quotes doubled as section 2 rule 7 of RFC 4180 prescribes. */
module CsvExport {
  import opened Wrappers
  import opened Text
  import opened Calendar
  import opened Domain

  const HeaderCells: seq<string> :=
    ["id", "type", "amount", "category", "description", "date", "createdAt", "updatedAt"]
  const Header: string := Join(HeaderCells, ",")

  /** Text a naive comma/line split leaves intact. */
  predicate Plain(s: string) {
    ',' !in s && '\n' !in s
  }

  // ----- quoting -----

  /** `s.replace(/"/g, '""')` */
  function DoubleQuotes(s: string): (r: string)
    ensures |r| == |s| + Count(s, '"')
  {
    if |s| == 0 then ""
    else
      var r := (if s[0] == '"' then "\"\"" else [s[0]]) + DoubleQuotes(s[1..]);
      assert s == [s[0]] + s[1..];
      r
  }

  /** `"${description.replace(/"/g, '""')}"` */
  function Escape(s: string): (r: string)
    ensures |r| == |s| + Count(s, '"') + 2
    ensures |r| >= 2 && r[0] == '"' && r[|r| - 1] == '"'
    ensures Plain(r) <==> Plain(s)
  {
    DoubleQuotesKeeps(s, ',');
    DoubleQuotesKeeps(s, '\n');
    "\"" + DoubleQuotes(s) + "\""
  }

  /** Doubling quotes adds no other character and drops none. */
  lemma {:induction false} DoubleQuotesKeeps(s: string, ch: char)
    requires ch != '"'
    ensures ch in DoubleQuotes(s) <==> ch in s
  {
    if |s| > 0 {
      DoubleQuotesKeeps(s[1..], ch);
      assert s == [s[0]] + s[1..];
    }
  }

  /** Reading a doubled quote back as one quote. */
  function Collapse(e: string): string {
    if |e| == 0 then ""
    else if |e| >= 2 && e[0] == '"' && e[1] == '"' then "\"" + Collapse(e[2..])
    else [e[0]] + Collapse(e[1..])
  }

  /** A CSV reader's view of a quoted field: strip the outer quotes and
      collapse doubled quotes; `None` when the field is not quoted. */
  function Unescape(e: string): Option<string> {
    if |e| >= 2 && e[0] == '"' && e[|e| - 1] == '"' then Some(Collapse(e[1..|e| - 1])) else None
  }

  lemma {:induction false} CollapseDoubled(s: string)
    ensures Collapse(DoubleQuotes(s)) == s
  {
    if |s| > 0 {
      CollapseDoubled(s[1..]);
      var rest := DoubleQuotes(s[1..]);
      if s[0] == '"' {
        assert DoubleQuotes(s) == "\"\"" + rest;
        assert (DoubleQuotes(s))[2..] == rest;
      } else {
        assert DoubleQuotes(s) == [s[0]] + rest;
        assert (DoubleQuotes(s))[1..] == rest;
      }
      assert s == [s[0]] + s[1..];
    }
  }

  /** Unquoting an escaped description gives the description back. */
  lemma EscapeRoundTrip(s: string)
    ensures Unescape(Escape(s)) == Some(s)
  {
    var e := Escape(s);
    assert e[1..|e| - 1] == DoubleQuotes(s);
    CollapseDoubled(s);
  }

  lemma {:induction false} DoubleQuotesAppend(a: string, b: string)
    ensures DoubleQuotes(a + b) == DoubleQuotes(a) + DoubleQuotes(b)
  {
    if |a| > 0 {
      assert (a + b)[1..] == a[1..] + b;
      DoubleQuotesAppend(a[1..], b);
    } else {
      assert a + b == b;
    }
  }

  lemma {:induction false} NoQuotesUnchanged(s: string)
    requires '"' !in s
    ensures DoubleQuotes(s) == s
  {
    if |s| > 0 {
      NoQuotesUnchanged(s[1..]);
      assert s == [s[0]] + s[1..];
    }
  }

  /** `He said "hi"` is exported as `"He said ""hi"""`. */
  lemma EscapeExample(s: string)
    requires s == "He said \"hi\""
    ensures Escape(s) == "\"He said \"\"hi\"\"\""
  {
    var a, q, b := s[..8], s[8..9], s[9..11];
    assert a == "He said " && q == "\"" && b == "hi";
    assert s == a + q + b + q;
    DoubleQuotesAppend(a + q + b, q);
    DoubleQuotesAppend(a + q, b);
    DoubleQuotesAppend(a, q);
    NoQuotesUnchanged(a);
    NoQuotesUnchanged(b);
    assert DoubleQuotes(q) == q + q;
    var inner := a + (q + q) + b + (q + q);
    assert DoubleQuotes(s) == inner;
    EscapeText(a, b, q, inner);
  }

  lemma EscapeText(a: string, b: string, q: string, inner: string)
    requires a == "He said " && q == "\"" && b == "hi" && inner == a + (q + q) + b + (q + q)
    ensures "\"" + inner + "\"" == "\"He said \"\"hi\"\"\""
  {
  }

  // ----- amounts -----

  /** The fraction of a number of cents as JavaScript prints it: nothing for
      whole amounts, otherwise a point and at most two digits, no trailing zero. */
  function FractionText(f: nat): (r: string)
    requires f < 100
    ensures r == "" <==> f == 0
    ensures r != "" ==> r[0] == '.' && 2 <= |r| <= 3 && forall i :: 1 <= i < |r| ==> IsDigit(r[i])
  {
    if f == 0 then ""
    else if f % 10 == 0 then "." + [DigitChar(f / 10)]
    else "." + [DigitChar(f / 10), DigitChar(f % 10)]
  }

  /** `String(amount)` for a non-negative amount held in cents. */
  function UnsignedAmountText(a: nat): (r: string)
    ensures |r| > 0 && IsDigit(r[0]) && Plain(r) && '"' !in r
  {
    Decimal(a / 100) + FractionText(a % 100)
  }

  /** `String(amount)` for an amount held in cents. */
  function AmountText(cents: int): (r: string)
    ensures Plain(r) && '"' !in r
  {
    if cents < 0 then "-" + UnsignedAmountText(-cents) else UnsignedAmountText(cents)
  }

  /** Reference reader: the cents a decimal text with at most two fraction
      digits denotes; `None` for anything else. */
  function ReadAmount(s: string): Option<int> {
    if |s| > 0 && s[0] == '-' then
      match ReadUnsigned(s[1..]) case Some(n) => Some(-(n as int)) case None => None
    else ReadUnsigned(s)
  }

  function IndexOf(s: string, c: char): (i: nat)
    ensures i <= |s| && (i < |s| ==> s[i] == c) && forall j :: 0 <= j < i ==> s[j] != c
  {
    if |s| == 0 || s[0] == c then 0 else 1 + IndexOf(s[1..], c)
  }

  function ReadUnsigned(u: string): Option<nat> {
    var i := IndexOf(u, '.');
    var whole := u[..i];
    var frac := if i < |u| then u[i + 1..] else "";
    if |whole| == 0 || !AllDigits(whole) || !AllDigits(frac) || |frac| > 2 || (i < |u| && |frac| == 0) then None
    else Some(DecimalValue(whole) * 100 + FractionValue(frac))
  }

  function FractionValue(frac: string): nat
    requires AllDigits(frac) && |frac| <= 2
  {
    if |frac| == 0 then 0
    else if |frac| == 1 then (frac[0] as int - '0' as int) * 10
    else (frac[0] as int - '0' as int) * 10 + (frac[1] as int - '0' as int)
  }

  lemma FractionRoundTrip(f: nat)
    requires f < 100
    ensures var t := FractionText(f); t == "" || (AllDigits(t[1..]) && |t[1..]| <= 2 && FractionValue(t[1..]) == f)
  {
  }

  lemma {:induction false} IndexAfterPrefix(d: string, t: string, c: char)
    requires c !in d
    requires t == "" || t[0] == c
    ensures IndexOf(d + t, c) == |d|
  {
    if |d| > 0 {
      assert (d + t)[1..] == d[1..] + t;
      IndexAfterPrefix(d[1..], t, c);
    } else {
      assert d + t == t;
    }
  }

  lemma ReadUnsignedRoundTrip(a: nat)
    ensures ReadUnsigned(UnsignedAmountText(a)) == Some(a)
  {
    var d, t := Decimal(a / 100), FractionText(a % 100);
    var u := d + t;
    assert '.' !in d;
    IndexAfterPrefix(d, t, '.');
    assert u[..|d|] == d;
    DecimalRoundTrip(a / 100);
    FractionRoundTrip(a % 100);
    if t != "" {
      assert u[|d| + 1..] == t[1..];
    }
  }

  /** A leading minus sign negates what the rest reads as. */
  lemma ReadSigned(u: string, a: nat)
    requires ReadUnsigned(u) == Some(a) && |u| > 0 && u[0] != '-'
    ensures ReadAmount(u) == Some(a) && ReadAmount("-" + u) == Some(-(a as int))
  {
    assert ("-" + u)[0] == '-' && ("-" + u)[1..] == u;
  }

  /** Reading a printed amount back gives the amount. */
  lemma AmountRoundTrip(cents: int)
    ensures ReadAmount(AmountText(cents)) == Some(cents)
  {
    var a: nat := if cents < 0 then -cents else cents;
    ReadUnsignedRoundTrip(a);
    ReadSigned(UnsignedAmountText(a), a);
  }

  /** Whole amounts print without a fraction. */
  lemma WholeAmount(dollars: nat)
    ensures AmountText(dollars * 100) == Decimal(dollars)
  {
    var a := dollars * 100;
    assert a / 100 == dollars && a % 100 == 0;
  }

  // ----- timestamps -----

  lemma DigitsArePlain(s: string)
    requires AllDigits(s)
    ensures Plain(s) && '"' !in s
  {
    assert forall ch :: ch in s ==> IsDigit(ch);
  }

  /** The year as `toISOString` writes it: four digits for 0..9999,
      otherwise a sign and six digits. */
  function YearText(y: int): (r: string)
    ensures Plain(r) && '"' !in r
  {
    var digits := if 0 <= y <= 9999 then Fixed(y, 4) else if y > 9999 then Fixed(y, 6) else Fixed(-y, 6);
    DigitsArePlain(digits);
    if 0 <= y <= 9999 then digits else if y > 9999 then "+" + digits else "-" + digits
  }

  /** `toISOString()`: `YYYY-MM-DDTHH:mm:ss.sssZ`. Instants carry whole
      seconds, so the milliseconds are `000`. */
  function IsoText(d: DateTime): (r: string)
    requires Valid(d)
    ensures Plain(r) && '"' !in r
  {
    var mo, da, ho, mi, se := Fixed(d.month, 2), Fixed(d.day, 2), Fixed(d.hour, 2), Fixed(d.minute, 2), Fixed(d.second, 2);
    DigitsArePlain(mo);
    DigitsArePlain(da);
    DigitsArePlain(ho);
    DigitsArePlain(mi);
    DigitsArePlain(se);
    YearText(d.year) + "-" + mo + "-" + da + "T" + ho + ":" + mi + ":" + se + ".000Z"
  }

  /** Where each field sits in the concatenation. */
  lemma IsoLayout(y: string, mo: string, da: string, ho: string, mi: string, se: string)
    requires |y| == 4 && |mo| == 2 && |da| == 2 && |ho| == 2 && |mi| == 2 && |se| == 2
    ensures var s := y + "-" + mo + "-" + da + "T" + ho + ":" + mi + ":" + se + ".000Z";
      && |s| == 24 && s[0..4] == y && s[5..7] == mo && s[8..10] == da
      && s[11..13] == ho && s[14..16] == mi && s[17..19] == se
      && s[4] == '-' && s[7] == '-' && s[10] == 'T' && s[13] == ':' && s[16] == ':' && s[19..] == ".000Z"
  {
    var s := y + "-" + mo + "-" + da + "T" + ho + ":" + mi + ":" + se + ".000Z";
    var t := se + ".000Z";
    assert s == y + "-" + mo + "-" + da + "T" + ho + ":" + mi + ":" + t;
    assert s[19..] == t[2..];
  }

  /** For years 0..9999 the timestamp has 24 characters and each field
      reads back from its fixed position. */
  lemma IsoReadBack(d: DateTime)
    requires Valid(d) && 0 <= d.year <= 9999
    ensures var s := IsoText(d);
      && |s| == 24
      && AllDigits(s[0..4]) && DecimalValue(s[0..4]) == d.year
      && AllDigits(s[5..7]) && DecimalValue(s[5..7]) == d.month
      && AllDigits(s[8..10]) && DecimalValue(s[8..10]) == d.day
      && AllDigits(s[11..13]) && DecimalValue(s[11..13]) == d.hour
      && AllDigits(s[14..16]) && DecimalValue(s[14..16]) == d.minute
      && AllDigits(s[17..19]) && DecimalValue(s[17..19]) == d.second
      && s[4] == '-' && s[7] == '-' && s[10] == 'T' && s[13] == ':' && s[16] == ':' && s[19..] == ".000Z"
  {
    var s := IsoText(d);
    var y, mo, da, ho, mi, se := Fixed(d.year, 4), Fixed(d.month, 2), Fixed(d.day, 2), Fixed(d.hour, 2), Fixed(d.minute, 2), Fixed(d.second, 2);
    IsoLayout(y, mo, da, ho, mi, se);
    assert Pow10(4) == 10000 && Pow10(2) == 100;
    FixedRoundTrip(d.year, 4);
    FixedRoundTrip(d.month, 2);
    FixedRoundTrip(d.day, 2);
    FixedRoundTrip(d.hour, 2);
    FixedRoundTrip(d.minute, 2);
    FixedRoundTrip(d.second, 2);
  }

  // ----- the document -----

  predicate Stamped(t: Transaction) {
    Valid(t.date) && Valid(t.createdAt) && Valid(t.updatedAt)
  }

  /** The eight cells of a record's row, in header order. */
  function Cells(t: Transaction): (r: seq<string>)
    requires Stamped(t)
    ensures |r| == 8
  {
    [t.id, KindName(t.kind), AmountText(t.amount), CategoryName(t.category), Escape(t.description),
     IsoText(t.date), IsoText(t.createdAt), IsoText(t.updatedAt)]
  }

  /** One record's line: its cells joined by commas. A record without commas
      or line breaks in its id and description gives a single line that
      splits back into its eight cells. */
  function Row(t: Transaction): (r: string)
    requires Stamped(t)
    ensures Plain(t.id) && Plain(t.description) ==> '\n' !in r && Split(r, ',') == Cells(t)
  {
    var r := Join(Cells(t), ",");
    if Plain(t.id) && Plain(t.description) then
      PlainCells(t);
      SplitJoin(Cells(t), ',');
      JoinAvoids(Cells(t), ",", '\n');
      r
    else r
  }

  function Rows(ts: seq<Transaction>): (r: seq<string>)
    requires forall i :: 0 <= i < |ts| ==> Stamped(ts[i])
    ensures |r| == |ts|
    ensures forall i :: 0 <= i < |ts| ==> r[i] == Row(ts[i])
  {
    seq(|ts|, i requires 0 <= i < |ts| => Row(ts[i]))
  }

  /** `exportToCSV`: the header and a newline, then the rows joined by
      newlines, with no newline after the last. */
  function ExportToCsv(ts: seq<Transaction>): (r: string)
    requires forall i :: 0 <= i < |ts| ==> Stamped(ts[i])
    ensures |r| > |Header| && r[..|Header| + 1] == Header + "\n"
    ensures |ts| == 0 ==> r == Header + "\n"
  {
    if |ts| == 0 then Header + "\n"
    else Header + "\n" + Join(Rows(ts), "\n")
  }

  lemma PlainCells(t: Transaction)
    requires Stamped(t) && Plain(t.id) && Plain(t.description)
    ensures forall i :: 0 <= i < 8 ==> Plain(Cells(t)[i])
  {
    var c := Cells(t);
    assert Plain(c[0]) && Plain(c[1]) && Plain(c[2]) && Plain(c[3]);
    assert Plain(c[4]) && Plain(c[5]) && Plain(c[6]) && Plain(c[7]);
  }

  lemma RowsHaveNoBreaks(ts: seq<Transaction>)
    requires forall i :: 0 <= i < |ts| ==> Stamped(ts[i]) && Plain(ts[i].id) && Plain(ts[i].description)
    ensures forall i :: 0 <= i < |ts| ==> '\n' !in Rows(ts)[i]
  {
    forall i | 0 <= i < |ts| ensures '\n' !in Rows(ts)[i] {
      assert Rows(ts)[i] == Row(ts[i]);
    }
  }

  lemma HeaderIsOneLine()
    ensures '\n' !in Header
  {
    forall i | 0 <= i < |HeaderCells|
      ensures '\n' !in HeaderCells[i]
    {
    }
    JoinAvoids(HeaderCells, ",", '\n');
  }

  /** The empty export is the header and an empty last line. */
  lemma EmptyExportLines()
    ensures Split(ExportToCsv([]), '\n') == [Header, ""]
  {
    HeaderIsOneLine();
    assert Join([Header, ""], "\n") == Header + "\n";
    SplitJoin([Header, ""], '\n');
  }

  /** A header line followed by newline-joined lines splits back into them. */
  lemma {:induction false} HeadedLines(doc: string, h: string, lines: seq<string>)
    requires |lines| > 0 && '\n' !in h
    requires forall i :: 0 <= i < |lines| ==> '\n' !in lines[i]
    requires doc == h + "\n" + Join(lines, "\n")
    ensures Split(doc, '\n') == [h] + lines
  {
    var all := [h] + lines;
    assert all[0] == h && all[1..] == lines;
    assert Join(all, "\n") == h + "\n" + Join(lines, "\n");
    SplitJoin(all, '\n');
  }

  /** Otherwise the lines are the header and one line per record, in order. */
  lemma {:induction false} ExportLines(ts: seq<Transaction>)
    requires |ts| > 0
    requires forall i :: 0 <= i < |ts| ==> Stamped(ts[i]) && Plain(ts[i].id) && Plain(ts[i].description)
    ensures Split(ExportToCsv(ts), '\n') == [Header] + Rows(ts)
  {
    var rows := Rows(ts);
    assert ExportToCsv(ts) == Header + "\n" + Join(rows, "\n");
    HeaderIsOneLine();
    RowsHaveNoBreaks(ts);
    HeadedLines(ExportToCsv(ts), Header, rows);
  }
}

=== FILE: dashboard.dfy ===
/** The dashboard's derived views (`Index.tsx`): the income/expense/balance
    cards, the category-and-month list filter, the months offered by the
    filter, and the six-month chart series. Month labels (`'MMMM yyyy'`,
    `'MMM yyyy'`) are represented by the month they name. */
module Dashboard {
  import opened Calendar
  import opened Domain
  import opened Sorting
  import opened Filtering
  import opened Ledger
  import opened ClientStore

  function PostingOf(t: Entry): Posting {
    Posting(t.kind, t.amount)
  }

  function Postings(ts: seq<Entry>): (ps: seq<Posting>)
    ensures |ps| == |ts|
    ensures forall i :: 0 <= i < |ts| ==> ps[i] == PostingOf(ts[i])
  {
    if |ts| == 0 then [] else [PostingOf(ts[0])] + Postings(ts[1..])
  }

  // ----- the cards -----

  /** `.reduce((sum, t) => sum + t.amount, 0)`: the ledger's gross total of
      the same records. */
  function AmountSum(ts: seq<Entry>): (r: int)
    ensures r == GrossTotal(Postings(ts))
  {
    if |ts| == 0 then 0
    else
      assert Postings(ts)[1..] == Postings(ts[1..]);
      ts[0].amount + AmountSum(ts[1..])
  }

  function OfKind(k: Kind): Entry -> bool {
    (t: Entry) => t.kind == k
  }

  lemma KeepKindHead(ts: seq<Entry>, k: Kind)
    requires |ts| > 0
    ensures AmountSum(Keep(ts, OfKind(k))) == (if ts[0].kind == k then ts[0].amount else 0) + AmountSum(Keep(ts[1..], OfKind(k)))
  {
    var rest := Keep(ts[1..], OfKind(k));
    if ts[0].kind == k {
      assert Keep(ts, OfKind(k)) == [ts[0]] + rest;
      assert ([ts[0]] + rest)[1..] == rest;
    } else {
      assert Keep(ts, OfKind(k)) == rest;
    }
  }

  lemma PostingsHead(ts: seq<Entry>)
    requires |ts| > 0
    ensures IncomeTotal(Postings(ts)) == (if ts[0].kind == Income then ts[0].amount else 0) + IncomeTotal(Postings(ts[1..]))
    ensures ExpenseTotal(Postings(ts)) == (if ts[0].kind == Expense then ts[0].amount else 0) + ExpenseTotal(Postings(ts[1..]))
  {
    var head := [PostingOf(ts[0])];
    assert Postings(ts) == head + Postings(ts[1..]);
    TotalsAppend(head, Postings(ts[1..]));
    assert Front(head) == [];
  }

  /** Filtering one kind and adding up agrees with the ledger's running totals. */
  lemma {:induction false} KindSums(ts: seq<Entry>)
    ensures AmountSum(Keep(ts, OfKind(Income))) == IncomeTotal(Postings(ts))
    ensures AmountSum(Keep(ts, OfKind(Expense))) == ExpenseTotal(Postings(ts))
  {
    if |ts| > 0 {
      KindSums(ts[1..]);
      PostingsHead(ts);
      KeepKindHead(ts, Income);
      KeepKindHead(ts, Expense);
    }
  }

  /** The `stats` memo: income and expense each filtered by type and summed. */
  function CardStats(ts: seq<Entry>): (s: Summary)
    ensures s.balance == SignedTotal(Postings(ts))
    ensures s.income + s.expense == GrossTotal(Postings(ts))
  {
    var income := AmountSum(Keep(ts, OfKind(Income)));
    var expense := AmountSum(Keep(ts, OfKind(Expense)));
    KindSums(ts);
    BalanceIsSignedTotal(Postings(ts));
    IncomePlusExpenseIsGross(Postings(ts));
    Summary(income, expense, income - expense)
  }

  /** The cards show what the ledger summary of the same records shows. */
  lemma CardStatsAgree(ts: seq<Entry>)
    ensures CardStats(ts) == Summarize(Postings(ts))
  {
    KindSums(ts);
  }

  // ----- the list filter -----

  /** A filter selection: `'all'`, or one value. */
  datatype Choice<T> = Every | Only(value: T)

  predicate Admits<T(==)>(c: Choice<T>, x: T) {
    c.Every? || c.value == x
  }

  /** The two selections: `'all'` admits every record, a chosen value only
      the records carrying it. */
  function Shown(category: Choice<string>, month: Choice<MonthKey>): (r: Entry -> bool)
    ensures forall t :: r(t) <==>
      (category.Every? || t.category == category.value) && (month.Every? || MonthOf(t.date) == month.value)
  {
    (t: Entry) => Admits(category, t.category) && Admits(month, MonthOf(t.date))
  }

  /** The `filteredTransactions` memo. */
  function FilteredTransactions(ts: seq<Entry>, category: Choice<string>, month: Choice<MonthKey>): (r: seq<Entry>)
    ensures forall i :: 0 <= i < |r| ==> Admits(category, r[i].category) && Admits(month, MonthOf(r[i].date))
  {
    Keep(ts, Shown(category, month))
  }

  /** The filtered list is the records passing both selections, in list
      order, each as often as in the list. */
  lemma FilterMeaning(ts: seq<Entry>, category: Choice<string>, month: Choice<MonthKey>, t: Entry)
    ensures SubsequenceOf(FilteredTransactions(ts, category, month), ts)
    ensures multiset(FilteredTransactions(ts, category, month))[t] ==
      if Admits(category, t.category) && Admits(month, MonthOf(t.date)) then multiset(ts)[t] else 0
  {
    KeepIsSubsequence(ts, Shown(category, month));
    KeepCounts(ts, Shown(category, month), t);
  }

  /** With both selections on `'all'` the list is shown whole. */
  lemma FilterEverything(ts: seq<Entry>)
    ensures FilteredTransactions(ts, Every, Every) == ts
  {
    KeepEverything(ts, Shown(Every, Every));
  }

  // ----- the months offered -----

  function Labels(ts: seq<Entry>): (ks: seq<MonthKey>)
    ensures |ks| == |ts|
    ensures forall i :: 0 <= i < |ts| ==> ks[i] == MonthOf(ts[i].date)
  {
    if |ts| == 0 then [] else [MonthOf(ts[0].date)] + Labels(ts[1..])
  }

  /** The position where `k` first occurs in `xs`. */
  function FirstIndex(xs: seq<MonthKey>, k: MonthKey): (i: nat)
    requires k in xs
    ensures i < |xs| && xs[i] == k
    ensures forall j :: 0 <= j < i ==> xs[j] != k
  {
    if xs[0] == k then 0 else 1 + FirstIndex(xs[1..], k)
  }

  /** A first occurrence is the first occurrence. */
  lemma FirstIndexUnique(xs: seq<MonthKey>, k: MonthKey, i: nat)
    requires i < |xs| && xs[i] == k && forall j :: 0 <= j < i ==> xs[j] != k
    ensures FirstIndex(xs, k) == i
  {
  }

  /** Appending values does not move a first occurrence. */
  lemma FirstIndexAppend(xs: seq<MonthKey>, ys: seq<MonthKey>, k: MonthKey)
    requires k in xs
    ensures k in xs + ys && FirstIndex(xs + ys, k) == FirstIndex(xs, k)
  {
    var i := FirstIndex(xs, k);
    assert (xs + ys)[i] == k;
    FirstIndexUnique(xs + ys, k, i);
  }

  /** `Array.from(new Set(xs))`: each value once, at its first appearance, so
      the values come in the order in which they first occur. */
  function Distinct(xs: seq<MonthKey>): (r: seq<MonthKey>)
    ensures forall i, j :: 0 <= i < j < |r| ==> r[i] != r[j]
    ensures forall k :: k in r <==> k in xs
    ensures forall i, j :: 0 <= i < j < |r| ==> FirstIndex(xs, r[i]) < FirstIndex(xs, r[j])
  {
    if |xs| == 0 then []
    else
      var front, last := Front(xs), Last(xs);
      var d := Distinct(front);
      assert xs == front + [last];
      forall k | k in front
        ensures FirstIndex(xs, k) == FirstIndex(front, k)
      {
        FirstIndexAppend(front, [last], k);
      }
      if last in d then d
      else
        FirstIndexUnique(xs, last, |xs| - 1);
        d + [last]
  }

  /** The `availableMonths` memo. Its comparator parses labels such as
      `2024-October`, which `parseISO` rejects, so every comparison is `NaN`
      and the sort keeps the set's order: the months of the list, each once,
      in the order of their first record. */
  function AvailableMonths(ts: seq<Entry>): (r: seq<MonthKey>)
    ensures forall k :: k in r <==> exists i :: 0 <= i < |ts| && MonthOf(ts[i].date) == k
    ensures forall i, j :: 0 <= i < j < |r| ==> r[i] != r[j]
    ensures forall k :: k in r <==> k in Labels(ts)
    ensures forall i, j :: 0 <= i < j < |r| ==> FirstIndex(Labels(ts), r[i]) < FirstIndex(Labels(ts), r[j])
  {
    var ks := Labels(ts);
    assert forall k :: k in ks ==> exists i :: 0 <= i < |ks| && ks[i] == k;
    Distinct(ks)
  }

  // ----- the chart series -----

  function Keyed(ts: seq<Entry>): (xs: seq<(MonthKey, Posting)>)
    ensures |xs| == |ts|
    ensures forall i :: 0 <= i < |ts| ==> xs[i] == (MonthOf(ts[i].date), PostingOf(ts[i]))
  {
    if |ts| == 0 then [] else [(MonthOf(ts[0].date), PostingOf(ts[0]))] + Keyed(ts[1..])
  }

  /** The `monthlyStats` memo as written: group in list order, then keep the
      last six groups. Its comparator calls `parseISO` on labels such as
      `Oct 2024`, which yields `NaN`, so the sort keeps insertion order. */
  function MonthlyAsWritten(ts: seq<Entry>): (r: seq<Bucket>)
    ensures var all := GroupByMonth(Keyed(ts));
      && |r| <= 6 && |r| <= |all| && r == all[|all| - |r|..]
      && (|all| <= 6 ==> r == all) && (6 <= |all| ==> |r| == 6)
  {
    var all := GroupByMonth(Keyed(ts));
    TakeLast(all, 6)
  }

  function DateOrder(): (Entry, Entry) -> bool {
    (a: Entry, b: Entry) => NotAfter(a.date, b.date)
  }

  lemma DateOrderIsTotalPreorder()
    ensures TotalPreorder(DateOrder())
  {
    forall a: Entry, b: Entry, c: Entry
      ensures NotAfter(a.date, b.date) || NotAfter(b.date, a.date)
      ensures NotAfter(a.date, b.date) && NotAfter(b.date, c.date) ==> NotAfter(a.date, c.date)
    {
      NotAfterTotalOrder(a.date, b.date, c.date);
    }
  }

  /** The records oldest first. */
  function Chronological(ts: seq<Entry>): (r: seq<Entry>)
    ensures multiset(r) == multiset(ts)
    ensures forall i, j :: 0 <= i < j < |r| ==> NotAfter(r[i].date, r[j].date)
  {
    DateOrderIsTotalPreorder();
    SortSorted(ts, DateOrder());
    Sort(ts, DateOrder())
  }

  /** The series as evidently intended: group the records oldest first, so
      that the last six groups are the six latest months, ascending. */
  function MonthlyStats(ts: seq<Entry>): (r: seq<Bucket>)
    ensures var all := GroupByMonth(Keyed(Chronological(ts)));
      && |r| <= 6 && |r| <= |all| && r == all[|all| - |r|..]
      && (|all| <= 6 ==> r == all) && (6 <= |all| ==> |r| == 6)
  {
    var all := GroupByMonth(Keyed(Chronological(ts)));
    TakeLast(all, 6)
  }

  /** Oldest-first records give month-ordered chart input. */
  lemma ChronologicalMonthsOrdered(ts: seq<Entry>)
    ensures MonthsNonDecreasing(Keyed(Chronological(ts)))
  {
    var s := Chronological(ts);
    var xs := Keyed(s);
    forall i, j | 0 <= i < j < |xs|
      ensures xs[i].0 == xs[j].0 || MonthBefore(xs[i].0, xs[j].0)
    {
      MonthOfMonotone(s[i].date, s[j].date);
    }
  }

  /** The last record oldest-first is a record of the list, and no record
      of the list falls in a later month. */
  lemma ChronologicalLast(ts: seq<Entry>)
    requires |ts| > 0
    ensures var top := Last(Chronological(ts));
      && (exists i :: 0 <= i < |ts| && ts[i] == top)
      && forall i :: 0 <= i < |ts| ==>
           MonthOf(ts[i].date) == MonthOf(top.date) || MonthBefore(MonthOf(ts[i].date), MonthOf(top.date))
  {
    var s := Chronological(ts);
    var top := s[|s| - 1];
    forall i | 0 <= i < |ts|
      ensures MonthOf(ts[i].date) == MonthOf(top.date) || MonthBefore(MonthOf(ts[i].date), MonthOf(top.date))
    {
      assert ts[i] in multiset(s);
      var j :| 0 <= j < |s| && s[j] == ts[i];
      if j < |s| - 1 {
        assert NotAfter(s[j].date, top.date);
      }
      NotAfterTotalOrder(ts[i].date, top.date, top.date);
      MonthOfMonotone(ts[i].date, top.date);
    }
    assert top in multiset(ts);
  }

  /** The corrected series is strictly ascending and each entry carries its
      month's sums. */
  lemma MonthlyStatsOrdered(ts: seq<Entry>)
    ensures StrictlyAscending(MonthlyStats(ts))
    ensures Faithful(MonthlyStats(ts), Keyed(Chronological(ts)))
  {
    var xs := Keyed(Chronological(ts));
    ChronologicalMonthsOrdered(ts);
    GroupByMonthAscending(xs);
    GroupByMonthCorrect(xs);
    TakeLastKeepsOrder(GroupByMonth(xs), 6);
    TakeLastFaithful(GroupByMonth(xs), 6, xs);
  }

  lemma MonthlyStatsLast(ts: seq<Entry>)
    requires |ts| > 0
    ensures |MonthlyStats(ts)| > 0 && Last(MonthlyStats(ts)).month == MonthOf(Last(Chronological(ts)).date)
  {
    var s := Chronological(ts);
    var xs := Keyed(s);
    ChronologicalMonthsOrdered(ts);
    GroupByMonthAscending(xs);
    TakeLastKeepsOrder(GroupByMonth(xs), 6);
    assert Last(xs) == xs[|s| - 1];
  }

  /** The corrected series ends with the latest month that has a record. */
  lemma MonthlyStatsCorrect(ts: seq<Entry>)
    requires |ts| > 0
    ensures |MonthlyStats(ts)| > 0
    ensures forall i :: 0 <= i < |ts| ==>
      MonthOf(ts[i].date) == Last(MonthlyStats(ts)).month || MonthBefore(MonthOf(ts[i].date), Last(MonthlyStats(ts)).month)
    ensures exists i :: 0 <= i < |ts| && MonthOf(ts[i].date) == Last(MonthlyStats(ts)).month
  {
    MonthlyStatsLast(ts);
    ChronologicalLast(ts);
  }

  /** Each as-written entry still carries its month's sums. */
  lemma MonthlyAsWrittenFaithful(ts: seq<Entry>)
    ensures Faithful(MonthlyAsWritten(ts), Keyed(ts))
    ensures DistinctMonths(MonthlyAsWritten(ts))
  {
    var all := GroupByMonth(Keyed(ts));
    GroupByMonthCorrect(Keyed(ts));
    assert MonthlyAsWritten(ts) == TakeLast(all, 6);
    TakeLastFaithful(all, 6, Keyed(ts));
    TakeLastDistinct(all, 6);
  }

  /** Grouping input whose months are all different keeps one entry per
      input element, in input order. */
  lemma {:induction false} GroupDistinctMonths(xs: seq<(MonthKey, Posting)>)
    requires forall i, j :: 0 <= i < j < |xs| ==> xs[i].0 != xs[j].0
    ensures |GroupByMonth(xs)| == |xs|
    ensures forall i :: 0 <= i < |xs| ==> GroupByMonth(xs)[i].month == xs[i].0
  {
    if |xs| > 0 {
      var front, k := Front(xs), Last(xs).0;
      assert forall i :: 0 <= i < |front| ==> front[i] == xs[i];
      GroupDistinctMonths(front);
      var g := GroupByMonth(front);
      assert IndexOfMonth(g, k) == |g|;
    }
  }

  /** Months strictly newest first: the order `addTransaction` builds when
      records are entered as they happen, one month after another. */
  predicate NewestFirst(ts: seq<Entry>) {
    forall i, j :: 0 <= i < j < |ts| ==> MonthBefore(MonthOf(ts[j].date), MonthOf(ts[i].date))
  }

  /** The as-written series drops the newest month: with the list newest
      first and more than six months, the six kept groups are the six oldest. */
  lemma MonthlyAsWrittenDropsNewest(ts: seq<Entry>)
    requires |ts| > 6 && NewestFirst(ts)
    ensures forall i :: 0 <= i < |MonthlyAsWritten(ts)| ==> MonthlyAsWritten(ts)[i].month != MonthOf(ts[0].date)
  {
    var xs := Keyed(ts);
    GroupDistinctMonths(xs);
    var all := GroupByMonth(xs);
    assert MonthlyAsWritten(ts) == TakeLast(all, 6);
    forall k | 0 <= k < |all|
      ensures all[k].month == MonthOf(ts[k].date)
    {
      assert xs[k].0 == MonthOf(ts[k].date);
    }
    forall i | 0 <= i < |TakeLast(all, 6)|
      ensures TakeLast(all, 6)[i].month != MonthOf(ts[0].date)
    {
      OldestSixAt(ts, all, i);
    }
  }

  /** Entry `i` of the last six groups is a month older than the newest. */
  lemma OldestSixAt(ts: seq<Entry>, all: seq<Bucket>, i: nat)
    requires |ts| > 6 && NewestFirst(ts) && |all| == |ts|
    requires forall k :: 0 <= k < |all| ==> all[k].month == MonthOf(ts[k].date)
    requires i < 6
    ensures i < |TakeLast(all, 6)| && TakeLast(all, 6)[i].month != MonthOf(ts[0].date)
  {
    var k := |ts| - 6 + i;
    assert TakeLast(all, 6)[i] == all[k];
    assert MonthBefore(MonthOf(ts[k].date), MonthOf(ts[0].date));
  }

  /** On the same list the corrected series ends with the newest month. */
  lemma MonthlyStatsKeepsNewest(ts: seq<Entry>)
    requires |ts| > 0 && NewestFirst(ts)
    ensures Last(MonthlyStats(ts)).month == MonthOf(ts[0].date)
  {
    MonthlyStatsCorrect(ts);
    var top := Last(MonthlyStats(ts)).month;
    var m :| 0 <= m < |ts| && MonthOf(ts[m].date) == top;
    assert m == 0 || MonthBefore(top, MonthOf(ts[0].date));
    assert MonthOf(ts[0].date) == top || MonthBefore(MonthOf(ts[0].date), top);
  }
}

=== FILE: domain.dfy ===
/** The transaction record and its closed vocabularies, as the backend
    declares them. Amounts are integer cents. */
module Domain {
  import opened Wrappers
  import opened Calendar

  /** The type tag that decides the sign of a record in every total. */
  datatype Kind = Income | Expense

  datatype Category =
    | Food | Travel | Bills | Shopping | Entertainment
    | Healthcare | Salary | Freelance | Investment | Other

  /** The stored record (backend `Transaction` interface). */
  datatype Transaction = Transaction(
    id: string,
    userId: string,
    kind: Kind,
    amount: int,
    category: Category,
    description: string,
    date: DateTime,
    createdAt: DateTime,
    updatedAt: DateTime)

  /** The three error kinds the handlers raise, each with its message. */
  datatype Error =
    | NotFound(message: string)
    | Invalid(message: string)
    | DatabaseFailure(message: string)

  /** The owner of every record in this single-user system. */
  const DefaultUserId: string := "default-user"

  /** The enum's values in declaration order. */
  const AllKinds: seq<Kind> := [Income, Expense]
  const AllCategories: seq<Category> :=
    [Food, Travel, Bills, Shopping, Entertainment, Healthcare, Salary, Freelance, Investment, Other]

  function KindName(k: Kind): (r: string)
    ensures |r| > 0 && '-' !in r && ',' !in r && '"' !in r && '\n' !in r
  {
    match k
    case Income => "income"
    case Expense => "expense"
  }

  function CategoryName(c: Category): (r: string)
    ensures |r| > 0 && '-' !in r && ',' !in r && '"' !in r && '\n' !in r
  {
    match c
    case Food => "Food"
    case Travel => "Travel"
    case Bills => "Bills"
    case Shopping => "Shopping"
    case Entertainment => "Entertainment"
    case Healthcare => "Healthcare"
    case Salary => "Salary"
    case Freelance => "Freelance"
    case Investment => "Investment"
    case Other => "Other"
  }

  /** The kind a string names, if any: membership in `z.enum(['income', 'expense'])`. */
  function KindNamed(s: string): (r: Option<Kind>)
    ensures r.Some? ==> KindName(r.value) == s
    ensures r.None? <==> forall k: Kind :: KindName(k) != s
  {
    if s == "income" then Some(Income)
    else if s == "expense" then Some(Expense)
    else None
  }

  /** The category a string names, if any: membership in the ten-value enum. */
  function CategoryNamed(s: string): (r: Option<Category>)
    ensures r.Some? ==> CategoryName(r.value) == s
    ensures r.None? <==> forall c: Category :: CategoryName(c) != s
  {
    if s == "Food" then Some(Food)
    else if s == "Travel" then Some(Travel)
    else if s == "Bills" then Some(Bills)
    else if s == "Shopping" then Some(Shopping)
    else if s == "Entertainment" then Some(Entertainment)
    else if s == "Healthcare" then Some(Healthcare)
    else if s == "Salary" then Some(Salary)
    else if s == "Freelance" then Some(Freelance)
    else if s == "Investment" then Some(Investment)
    else if s == "Other" then Some(Other)
    else None
  }

  /** Names identify their values: parsing a name gives the value back. */
  lemma NamesRoundTrip(k: Kind, c: Category)
    ensures KindNamed(KindName(k)) == Some(k)
    ensures CategoryNamed(CategoryName(c)) == Some(c)
  {
  }

  lemma NamesInjective(k1: Kind, k2: Kind, c1: Category, c2: Category)
    ensures KindName(k1) == KindName(k2) ==> k1 == k2
    ensures CategoryName(c1) == CategoryName(c2) ==> c1 == c2
  {
    NamesRoundTrip(k1, c1);
    NamesRoundTrip(k2, c2);
  }
}

=== FILE: filtering.dfy ===
/** `Array.prototype.filter`, and what it promises: the kept elements are an
    order-preserving subsequence of the input holding every element that
    passes, as often as it occurs there. */
module Filtering {

  /** `s.filter(p)` */
  function Keep<T>(s: seq<T>, p: T -> bool): (r: seq<T>)
    ensures |r| <= |s|
    ensures forall i :: 0 <= i < |r| ==> p(r[i])
  {
    if |s| == 0 then []
    else (if p(s[0]) then [s[0]] else []) + Keep(s[1..], p)
  }

  /** `a` is `b` with some elements removed and the rest in their order. */
  predicate SubsequenceOf<T(==)>(a: seq<T>, b: seq<T>)
    decreases |b|
  {
    if |a| == 0 then true
    else if |b| == 0 then false
    else if a[0] == b[0] then SubsequenceOf(a[1..], b[1..])
    else SubsequenceOf(a, b[1..])
  }

  lemma {:induction false} KeepIsSubsequence<T>(s: seq<T>, p: T -> bool)
    ensures SubsequenceOf(Keep(s, p), s)
  {
    if |s| > 0 {
      KeepIsSubsequence(s[1..], p);
      var rest := Keep(s[1..], p);
      if p(s[0]) {
        assert Keep(s, p) == [s[0]] + rest;
        assert (Keep(s, p))[1..] == rest;
      } else {
        assert Keep(s, p) == rest;
        assert |rest| > 0 ==> rest[0] != s[0];
      }
    }
  }

  /** Each passing element is kept as often as it occurs; no other is kept. */
  lemma {:induction false} KeepCounts<T>(s: seq<T>, p: T -> bool, x: T)
    ensures multiset(Keep(s, p))[x] == if p(x) then multiset(s)[x] else 0
  {
    if |s| > 0 {
      KeepCounts(s[1..], p, x);
      assert s == [s[0]] + s[1..];
      assert multiset(s) == multiset{s[0]} + multiset(s[1..]);
      var head := if p(s[0]) then [s[0]] else [];
      assert multiset(Keep(s, p)) == multiset(head) + multiset(Keep(s[1..], p));
    }
  }

  lemma KeepMembers<T>(s: seq<T>, p: T -> bool, x: T)
    ensures x in Keep(s, p) <==> x in s && p(x)
  {
    KeepCounts(s, p, x);
    assert x in Keep(s, p) <==> x in multiset(Keep(s, p));
    assert x in s <==> x in multiset(s);
  }

  /** When every element passes, nothing is removed. */
  lemma {:induction false} KeepEverything<T>(s: seq<T>, p: T -> bool)
    requires forall i :: 0 <= i < |s| ==> p(s[i])
    ensures Keep(s, p) == s
  {
    if |s| > 0 {
      KeepEverything(s[1..], p);
      assert s == [s[0]] + s[1..];
    }
  }

  /** Filtering twice by the same test is filtering once. */
  lemma KeepTwice<T>(s: seq<T>, p: T -> bool)
    ensures Keep(Keep(s, p), p) == Keep(s, p)
  {
    KeepEverything(Keep(s, p), p);
  }
}

=== FILE: jsnumber.dfy ===
/** JavaScript's `parseInt(string)` with no radix, which the list handler
    applies to its page, limit, month and year parameters. */
module JsNumber {
  import opened Text

  /** A `parseInt` result: an integer, or `NaN` when no digits were found. */
  datatype Num = Int(value: int) | NaN

  /** JavaScript truthiness of a number: `0` and `NaN` are falsy. */
  predicate Truthy(n: Num) {
    n.Int? && n.value != 0
  }

  /** The characters `parseInt` skips before the number: white space
      (including every Unicode space separator and the byte-order mark) and
      line terminators. */
  predicate IsSpace(c: char) {
    || c == '\t' || c == '\n' || c == '\U{000B}' || c == '\U{000C}' || c == '\r' || c == ' '
    || c == '\U{00A0}' || c == '\U{1680}' || ('\U{2000}' <= c <= '\U{200A}')
    || c == '\U{2028}' || c == '\U{2029}' || c == '\U{202F}' || c == '\U{205F}'
    || c == '\U{3000}' || c == '\U{FEFF}'
  }

  function TrimStart(s: string): (r: string)
    ensures |r| <= |s| && r == s[|s| - |r|..]
    ensures |r| > 0 ==> !IsSpace(r[0])
  {
    if |s| > 0 && IsSpace(s[0]) then TrimStart(s[1..]) else s
  }

  /** The value of a digit character in bases up to 16; 16 for anything else. */
  function DigitOf(c: char): (d: nat)
    ensures d <= 16
    ensures d < 10 <==> IsDigit(c)
  {
    if '0' <= c <= '9' then c as int - '0' as int
    else if 'a' <= c <= 'f' then c as int - 'a' as int + 10
    else if 'A' <= c <= 'F' then c as int - 'A' as int + 10
    else 16
  }

  /** The length of the longest prefix of `s` made of digits below `radix`. */
  function DigitRun(s: string, radix: nat): (n: nat)
    ensures n <= |s|
    ensures forall i :: 0 <= i < n ==> DigitOf(s[i]) < radix
    ensures n < |s| ==> DigitOf(s[n]) >= radix
  {
    if |s| == 0 || DigitOf(s[0]) >= radix then 0 else 1 + DigitRun(s[1..], radix)
  }

  /** The number a run of digits denotes in base `radix`. */
  function RunValue(ds: string, radix: nat): nat
    requires forall i :: 0 <= i < |ds| ==> DigitOf(ds[i]) < radix
  {
    if |ds| == 0 then 0
    else
      var front := ds[..|ds| - 1];
      assert forall i :: 0 <= i < |front| ==> front[i] == ds[i];
      var high: nat := RunValue(front, radix);
      high * radix + DigitOf(ds[|ds| - 1])
  }

  /** The unsigned part of `parseInt`: a `0x`/`0X` prefix selects base 16,
      otherwise base 10, then the longest run of digits is read; `NaN` when
      that run is empty. Trailing characters are ignored. */
  function ParseMagnitude(u: string): (r: Num)
    ensures r.Int? ==> r.value >= 0
  {
    var hex := |u| >= 2 && u[0] == '0' && (u[1] == 'x' || u[1] == 'X');
    var radix := if hex then 16 else 10;
    var v := if hex then u[2..] else u;
    var n := DigitRun(v, radix);
    if n == 0 then NaN else Int(RunValue(v[..n], radix))
  }

  function Negate(n: Num): Num {
    match n
    case Int(m) => Int(-m)
    case NaN => NaN
  }

  /** Some character of `s` is a decimal digit. */
  predicate HasDigit(s: string) {
    exists i :: 0 <= i < |s| && IsDigit(s[i])
  }

  /** A magnitude is found only when the text starts with a digit. */
  lemma MagnitudeLeadsWithDigit(u: string)
    ensures ParseMagnitude(u).Int? ==> |u| > 0 && IsDigit(u[0])
  {
  }

  /** `parseInt(s)`: skip leading white space, read an optional sign, then
      the magnitude. A number comes only from a digit in the text, and a
      negative one only after a leading minus. */
  function ParseInt(s: string): (r: Num)
    ensures r.Int? ==> HasDigit(s)
    ensures r.Int? && r.value < 0 ==> |TrimStart(s)| > 0 && TrimStart(s)[0] == '-'
  {
    var t := TrimStart(s);
    var signed := |t| > 0 && (t[0] == '-' || t[0] == '+');
    var u := if signed then t[1..] else t;
    MagnitudeLeadsWithDigit(u);
    assert u == s[|s| - |u|..];
    assert ParseMagnitude(u).Int? ==> IsDigit(s[|s| - |u|]);
    if signed && t[0] == '-' then Negate(ParseMagnitude(u)) else ParseMagnitude(u)
  }

  lemma {:induction false} RunValueIsDecimal(ds: string)
    requires forall i :: 0 <= i < |ds| ==> IsDigit(ds[i])
    ensures RunValue(ds, 10) == DecimalValue(ds)
  {
    if |ds| > 0 {
      RunValueIsDecimal(ds[..|ds| - 1]);
    }
  }

  lemma {:induction false} DigitRunAllDigits(ds: string, rest: string)
    requires forall i :: 0 <= i < |ds| ==> IsDigit(ds[i])
    requires rest == [] || !IsDigit(rest[0])
    ensures DigitRun(ds + rest, 10) == |ds|
  {
    if |ds| > 0 {
      assert (ds + rest)[1..] == ds[1..] + rest;
      DigitRunAllDigits(ds[1..], rest);
    } else {
      assert ds + rest == rest;
    }
  }

  lemma MagnitudeOfDecimal(n: nat, rest: string)
    requires rest == [] || (!IsDigit(rest[0]) && rest[0] != 'x' && rest[0] != 'X')
    ensures ParseMagnitude(Decimal(n) + rest) == Int(n)
  {
    var d := Decimal(n);
    var u := d + rest;
    DigitRunAllDigits(d, rest);
    assert u[..|d|] == d;
    RunValueIsDecimal(d);
    DecimalRoundTrip(n);
    if |d| >= 2 {
      assert u[1] == d[1];
    }
  }

  lemma TrimStartKeeps(s: string)
    requires |s| > 0 && !IsSpace(s[0])
    ensures TrimStart(s) == s
  {
  }

  /** A digit-led string is read as an unsigned magnitude. */
  lemma ParseIntDigitLed(u: string)
    requires |u| > 0 && IsDigit(u[0])
    ensures ParseInt(u) == ParseMagnitude(u)
  {
    TrimStartKeeps(u);
  }

  /** A minus sign before a digit-led string negates its magnitude. */
  lemma ParseIntMinus(u: string)
    requires |u| > 0 && IsDigit(u[0])
    ensures ParseInt("-" + u) == Negate(ParseMagnitude(u))
  {
    var w := "-" + u;
    assert w[0] == '-' && w[1..] == u;
    TrimStartKeeps(w);
  }

  /** `parseInt` reads back the decimal rendering of any natural number,
      and stops at the first non-digit after it. */
  lemma ParseIntDecimal(n: nat, rest: string)
    requires rest == [] || (!IsDigit(rest[0]) && rest[0] != 'x' && rest[0] != 'X')
    ensures ParseInt(Decimal(n) + rest) == Int(n)
  {
    var u := Decimal(n) + rest;
    MagnitudeOfDecimal(n, rest);
    assert u[0] == Decimal(n)[0];
    ParseIntDigitLed(u);
  }

  /** `parseInt` reads back the decimal rendering of any negative whole number. */
  lemma ParseIntNegative(n: nat)
    ensures ParseInt("-" + Decimal(n)) == Int(-(n as int))
  {
    MagnitudeOfDecimal(n, []);
    assert Decimal(n) + [] == Decimal(n);
    ParseIntMinus(Decimal(n));
  }

  /** A string whose first character is neither space, sign nor digit is `NaN`. */
  lemma ParseIntNoDigits(s: string)
    requires |s| > 0 && !IsSpace(s[0]) && s[0] != '-' && s[0] != '+' && !IsDigit(s[0])
    ensures ParseInt(s) == NaN
  {
  }
}

=== FILE: ledger.dfy ===
/** Folds over (kind, amount) postings: the totals and the per-month series
    that both the backend statistics and the dashboard compute. */
module Ledger {
  import opened Domain
  import opened Calendar

  /** What a record contributes to a total. */
  datatype Posting = Posting(kind: Kind, amount: int)

  /** Income, expense and their difference (`{ income, expense, balance }`). */
  datatype Summary = Summary(income: int, expense: int, balance: int)

  /** One entry of a monthly series: the month and its sums. */
  datatype Bucket = Bucket(month: MonthKey, income: int, expense: int, balance: int)

  function Last<T>(s: seq<T>): T
    requires |s| > 0
  {
    s[|s| - 1]
  }

  function Front<T>(s: seq<T>): seq<T>
    requires |s| > 0
  {
    s[..|s| - 1]
  }

  /** No posting has kind `k`. */
  predicate NoneOfKind(ps: seq<Posting>, k: Kind) {
    forall i :: 0 <= i < |ps| ==> ps[i].kind != k
  }

  /** No posting of kind `k` has a negative amount. */
  predicate NoNegativeOfKind(ps: seq<Posting>, k: Kind) {
    forall i :: 0 <= i < |ps| && ps[i].kind == k ==> ps[i].amount >= 0
  }

  /** `.filter(t => t.type === 'income').reduce((sum, t) => sum + t.amount, 0)` */
  function IncomeTotal(ps: seq<Posting>): (r: int)
    ensures NoneOfKind(ps, Income) ==> r == 0
    ensures NoNegativeOfKind(ps, Income) ==> r >= 0
  {
    if |ps| == 0 then 0
    else IncomeTotal(Front(ps)) + (if Last(ps).kind == Income then Last(ps).amount else 0)
  }

  /** `.filter(t => t.type === 'expense').reduce((sum, t) => sum + t.amount, 0)` */
  function ExpenseTotal(ps: seq<Posting>): (r: int)
    ensures NoneOfKind(ps, Expense) ==> r == 0
    ensures NoNegativeOfKind(ps, Expense) ==> r >= 0
  {
    if |ps| == 0 then 0
    else ExpenseTotal(Front(ps)) + (if Last(ps).kind == Expense then Last(ps).amount else 0)
  }

  /** Reference: the sum of all amounts, income counted positive and expense
      negative, accumulated from the front. */
  function SignedTotal(ps: seq<Posting>): int
  {
    if |ps| == 0 then 0
    else (if ps[0].kind == Income then ps[0].amount else -ps[0].amount) + SignedTotal(ps[1..])
  }

  /** Reference: the sum of all amounts whatever their kind. */
  function GrossTotal(ps: seq<Posting>): int
  {
    if |ps| == 0 then 0 else ps[0].amount + GrossTotal(ps[1..])
  }

  lemma {:induction false} SignedTotalSnoc(ps: seq<Posting>, p: Posting)
    ensures SignedTotal(ps + [p]) == SignedTotal(ps) + (if p.kind == Income then p.amount else -p.amount)
  {
    if |ps| > 0 {
      assert (ps + [p])[1..] == ps[1..] + [p];
      SignedTotalSnoc(ps[1..], p);
    } else {
      assert ps + [p] == [p];
    }
  }

  lemma {:induction false} GrossTotalSnoc(ps: seq<Posting>, p: Posting)
    ensures GrossTotal(ps + [p]) == GrossTotal(ps) + p.amount
  {
    if |ps| > 0 {
      assert (ps + [p])[1..] == ps[1..] + [p];
      GrossTotalSnoc(ps[1..], p);
    } else {
      assert ps + [p] == [p];
    }
  }

  /** The balance `income - expense` is the signed sum of all postings. */
  lemma {:induction false} BalanceIsSignedTotal(ps: seq<Posting>)
    ensures IncomeTotal(ps) - ExpenseTotal(ps) == SignedTotal(ps)
  {
    if |ps| > 0 {
      BalanceIsSignedTotal(Front(ps));
      assert Front(ps) + [Last(ps)] == ps;
      SignedTotalSnoc(Front(ps), Last(ps));
    }
  }

  /** Income plus expense is the sum of all amounts: every posting is one or the other. */
  lemma {:induction false} IncomePlusExpenseIsGross(ps: seq<Posting>)
    ensures IncomeTotal(ps) + ExpenseTotal(ps) == GrossTotal(ps)
  {
    if |ps| > 0 {
      IncomePlusExpenseIsGross(Front(ps));
      assert Front(ps) + [Last(ps)] == ps;
      GrossTotalSnoc(Front(ps), Last(ps));
    }
  }

  /** Totals split over concatenation: summing in two parts loses nothing. */
  lemma {:induction false} TotalsAppend(a: seq<Posting>, b: seq<Posting>)
    ensures IncomeTotal(a + b) == IncomeTotal(a) + IncomeTotal(b)
    ensures ExpenseTotal(a + b) == ExpenseTotal(a) + ExpenseTotal(b)
  {
    if |b| == 0 {
      assert a + b == a;
    } else {
      assert Front(a + b) == a + Front(b);
      assert Last(a + b) == Last(b);
      TotalsAppend(a, Front(b));
    }
  }

  /** The `{ income, expense, balance }` triple of the statistics. */
  function Summarize(ps: seq<Posting>): (s: Summary)
    ensures s.balance == SignedTotal(ps)
    ensures s.income + s.expense == GrossTotal(ps)
  {
    BalanceIsSignedTotal(ps);
    IncomePlusExpenseIsGross(ps);
    Summary(IncomeTotal(ps), ExpenseTotal(ps), IncomeTotal(ps) - ExpenseTotal(ps))
  }

  // ----- grouping by month -----

  /** Adds one record to its month's entry: income to income, anything else
      to expense, then recomputes the balance. */
  function Credit(b: Bucket, p: Posting): (r: Bucket)
    ensures r.month == b.month
    ensures r.income + r.expense == b.income + b.expense + p.amount
    ensures p.kind == Income ==> r.expense == b.expense
    ensures p.kind != Income ==> r.income == b.income
    ensures r.balance == r.income - r.expense
  {
    var income := if p.kind == Income then b.income + p.amount else b.income;
    var expense := if p.kind == Income then b.expense else b.expense + p.amount;
    Bucket(b.month, income, expense, income - expense)
  }

  /** The position of month `k` in `bs`, or `|bs|` when it has no entry yet
      (the `Map.get` of the source). */
  function IndexOfMonth(bs: seq<Bucket>, k: MonthKey): (i: nat)
    ensures i <= |bs|
    ensures i < |bs| ==> bs[i].month == k
    ensures forall j :: 0 <= j < i ==> bs[j].month != k
  {
    if |bs| == 0 then 0
    else if bs[0].month == k then 0
    else 1 + IndexOfMonth(bs[1..], k)
  }

  /** One `forEach` step: update the month's entry in place, or append a fresh
      one (a JavaScript `Map` keeps keys in first-insertion order). */
  function Absorb(bs: seq<Bucket>, k: MonthKey, p: Posting): (r: seq<Bucket>)
    ensures |bs| <= |r| <= |bs| + 1
    ensures (forall i :: 0 <= i < |bs| ==> bs[i].balance == bs[i].income - bs[i].expense)
      ==> forall i :: 0 <= i < |r| ==> r[i].balance == r[i].income - r[i].expense
  {
    var i := IndexOfMonth(bs, k);
    if i < |bs| then bs[i := Credit(bs[i], p)]
    else bs + [Credit(Bucket(k, 0, 0, 0), p)]
  }

  /** `Array.from(map.values())` after the `forEach` over `xs`: one entry per
      month, in order of each month's first record. */
  function GroupByMonth(xs: seq<(MonthKey, Posting)>): (r: seq<Bucket>)
    ensures |r| <= |xs|
    ensures |xs| > 0 ==> |r| > 0
    ensures forall i :: 0 <= i < |r| ==> r[i].balance == r[i].income - r[i].expense
  {
    if |xs| == 0 then [] else Absorb(GroupByMonth(Front(xs)), Last(xs).0, Last(xs).1)
  }

  /** Reference: the postings of month `k`, in input order. */
  function PostingsIn(xs: seq<(MonthKey, Posting)>, k: MonthKey): seq<Posting>
  {
    if |xs| == 0 then []
    else PostingsIn(Front(xs), k) + (if Last(xs).0 == k then [Last(xs).1] else [])
  }

  function AllPostings(xs: seq<(MonthKey, Posting)>): seq<Posting>
  {
    if |xs| == 0 then [] else AllPostings(Front(xs)) + [Last(xs).1]
  }

  function MonthsOf(bs: seq<Bucket>): set<MonthKey> {
    set b | b in bs :: b.month
  }

  function KeysOf(xs: seq<(MonthKey, Posting)>): set<MonthKey> {
    set x | x in xs :: x.0
  }

  predicate DistinctMonths(bs: seq<Bucket>) {
    forall i, j :: 0 <= i < j < |bs| ==> bs[i].month != bs[j].month
  }

  /** Each entry carries exactly its month's sums. */
  predicate Faithful(bs: seq<Bucket>, xs: seq<(MonthKey, Posting)>) {
    forall i :: 0 <= i < |bs| ==>
      && bs[i].income == IncomeTotal(PostingsIn(xs, bs[i].month))
      && bs[i].expense == ExpenseTotal(PostingsIn(xs, bs[i].month))
      && bs[i].balance == bs[i].income - bs[i].expense
  }

  lemma KeysOfSnoc(xs: seq<(MonthKey, Posting)>)
    requires |xs| > 0
    ensures KeysOf(xs) == KeysOf(Front(xs)) + {Last(xs).0}
  {
    assert xs == Front(xs) + [Last(xs)];
    forall k | k in KeysOf(xs) ensures k in KeysOf(Front(xs)) + {Last(xs).0} {
      var x :| x in xs && x.0 == k;
      var j :| 0 <= j < |xs| && xs[j] == x;
      if j < |xs| - 1 { assert Front(xs)[j] == x; }
    }
  }

  /** A month without an entry has no postings. */
  lemma {:induction false} AbsentMonthHasNoPostings(xs: seq<(MonthKey, Posting)>, k: MonthKey)
    requires k !in KeysOf(xs)
    ensures PostingsIn(xs, k) == []
  {
    if |xs| > 0 {
      KeysOfSnoc(xs);
      AbsentMonthHasNoPostings(Front(xs), k);
    }
  }

  /** What one `Absorb` step does to the entries: the month's entry is
      credited in place, or a fresh entry is appended; nothing else moves. */
  lemma AbsorbEffect(g: seq<Bucket>, k: MonthKey, p: Posting)
    requires DistinctMonths(g)
    ensures var r := Absorb(g, k, p);
      && DistinctMonths(r)
      && MonthsOf(r) == MonthsOf(g) + {k}
      && |g| <= |r| <= |g| + 1
      && (forall j :: 0 <= j < |g| ==> r[j] == if g[j].month == k then Credit(g[j], p) else g[j])
      && (|r| == |g| + 1 ==> k !in MonthsOf(g) && r[|g|] == Credit(Bucket(k, 0, 0, 0), p))
  {
    var r := Absorb(g, k, p);
    var i := IndexOfMonth(g, k);
    if i < |g| {
      forall j | 0 <= j < |g| ensures r[j] == if g[j].month == k then Credit(g[j], p) else g[j] {
        if j != i && g[j].month == k {
          assert false;
        }
      }
      assert MonthsOf(r) == MonthsOf(g) by {
        forall b | b in r ensures b.month in MonthsOf(g) {
          var j :| 0 <= j < |r| && r[j] == b;
          assert r[j].month == g[j].month;
        }
        forall b | b in g ensures b.month in MonthsOf(r) {
          var j :| 0 <= j < |g| && g[j] == b;
          assert r[j].month == g[j].month;
        }
      }
    } else {
      forall b | b in g ensures b.month != k {
        var j :| 0 <= j < |g| && g[j] == b;
      }
      assert MonthsOf(r) == MonthsOf(g) + {k} by {
        forall b | b in r ensures b.month in MonthsOf(g) + {k} {
          var j :| 0 <= j < |r| && r[j] == b;
          if j < |g| { assert r[j] == g[j]; }
        }
        forall b | b in g ensures b in r {
          var j :| 0 <= j < |g| && g[j] == b;
          assert r[j] == g[j];
        }
        assert r[|g|] in r;
      }
    }
  }

  /** The entries name each month that occurs, and no month twice. */
  lemma {:induction false} GroupByMonthKeys(xs: seq<(MonthKey, Posting)>)
    ensures DistinctMonths(GroupByMonth(xs))
    ensures MonthsOf(GroupByMonth(xs)) == KeysOf(xs)
  {
    if |xs| > 0 {
      GroupByMonthKeys(Front(xs));
      KeysOfSnoc(xs);
      AbsorbEffect(GroupByMonth(Front(xs)), Last(xs).0, Last(xs).1);
    }
  }

  lemma CreditSums(ps: seq<Posting>, b: Bucket, p: Posting)
    requires b.income == IncomeTotal(ps) && b.expense == ExpenseTotal(ps)
    ensures Credit(b, p).income == IncomeTotal(ps + [p])
    ensures Credit(b, p).expense == ExpenseTotal(ps + [p])
    ensures Credit(b, p).balance == Credit(b, p).income - Credit(b, p).expense
  {
    assert Front(ps + [p]) == ps;
  }

  /** Each entry holds exactly its month's income and expense sums. */
  lemma {:induction false} GroupByMonthFaithful(xs: seq<(MonthKey, Posting)>)
    ensures Faithful(GroupByMonth(xs), xs)
  {
    if |xs| > 0 {
      var front, k, p := Front(xs), Last(xs).0, Last(xs).1;
      var g := GroupByMonth(front);
      var r := GroupByMonth(xs);
      GroupByMonthFaithful(front);
      GroupByMonthKeys(front);
      AbsorbEffect(g, k, p);
      forall j | 0 <= j < |r|
        ensures r[j].income == IncomeTotal(PostingsIn(xs, r[j].month))
        ensures r[j].expense == ExpenseTotal(PostingsIn(xs, r[j].month))
        ensures r[j].balance == r[j].income - r[j].expense
      {
        var m := r[j].month;
        assert PostingsIn(xs, m) == PostingsIn(front, m) + (if m == k then [p] else []);
        if j < |g| {
          if g[j].month == k {
            CreditSums(PostingsIn(front, k), g[j], p);
          } else {
            assert PostingsIn(front, m) + [] == PostingsIn(front, m);
          }
        } else {
          AbsentMonthHasNoPostings(front, k);
          CreditSums([], Bucket(k, 0, 0, 0), p);
        }
      }
    }
  }

  /** The grouping is correct: one entry per month that occurs, no month
      twice, each entry holding that month's income and expense sums. */
  lemma GroupByMonthCorrect(xs: seq<(MonthKey, Posting)>)
    ensures DistinctMonths(GroupByMonth(xs))
    ensures MonthsOf(GroupByMonth(xs)) == KeysOf(xs)
    ensures Faithful(GroupByMonth(xs), xs)
  {
    GroupByMonthKeys(xs);
    GroupByMonthFaithful(xs);
  }

  // ----- grouping preserves sums -----

  function BucketIncome(bs: seq<Bucket>): int
  {
    if |bs| == 0 then 0 else BucketIncome(Front(bs)) + Last(bs).income
  }

  function BucketExpense(bs: seq<Bucket>): int
  {
    if |bs| == 0 then 0 else BucketExpense(Front(bs)) + Last(bs).expense
  }

  lemma {:induction false} BucketSumsUpdate(bs: seq<Bucket>, i: nat, b: Bucket)
    requires i < |bs|
    ensures BucketIncome(bs[i := b]) == BucketIncome(bs) - bs[i].income + b.income
    ensures BucketExpense(bs[i := b]) == BucketExpense(bs) - bs[i].expense + b.expense
  {
    if i < |bs| - 1 {
      assert Front(bs[i := b]) == Front(bs)[i := b];
      BucketSumsUpdate(Front(bs), i, b);
    } else {
      assert Front(bs[i := b]) == Front(bs);
    }
  }

  /** Grouping preserves sums: the entries' income and expense add up to the
      totals over all records. */
  lemma {:induction false} GroupByMonthPreservesSums(xs: seq<(MonthKey, Posting)>)
    ensures BucketIncome(GroupByMonth(xs)) == IncomeTotal(AllPostings(xs))
    ensures BucketExpense(GroupByMonth(xs)) == ExpenseTotal(AllPostings(xs))
  {
    if |xs| > 0 {
      var front, k, p := Front(xs), Last(xs).0, Last(xs).1;
      var g := GroupByMonth(front);
      GroupByMonthPreservesSums(front);
      assert Front(AllPostings(xs)) == AllPostings(front);
      var i := IndexOfMonth(g, k);
      if i < |g| {
        BucketSumsUpdate(g, i, Credit(g[i], p));
      } else {
        assert Front(g + [Credit(Bucket(k, 0, 0, 0), p)]) == g;
      }
    }
  }

  // ----- chronological order -----

  /** Months of `xs` never go backwards (records fetched date-ascending). */
  predicate MonthsNonDecreasing(xs: seq<(MonthKey, Posting)>) {
    forall i, j :: 0 <= i < j < |xs| ==> xs[i].0 == xs[j].0 || MonthBefore(xs[i].0, xs[j].0)
  }

  predicate StrictlyAscending(bs: seq<Bucket>) {
    forall i, j :: 0 <= i < j < |bs| ==> MonthBefore(bs[i].month, bs[j].month)
  }

  /** On month-ordered input the entries come out strictly ascending, the
      latest month last. */
  lemma {:induction false} GroupByMonthAscending(xs: seq<(MonthKey, Posting)>)
    requires MonthsNonDecreasing(xs)
    ensures StrictlyAscending(GroupByMonth(xs))
    ensures |xs| > 0 ==> |GroupByMonth(xs)| > 0 && Last(GroupByMonth(xs)).month == Last(xs).0
  {
    if |xs| > 0 {
      var front := Front(xs);
      assert MonthsNonDecreasing(front) by {
        forall i, j | 0 <= i < j < |front| ensures front[i].0 == front[j].0 || MonthBefore(front[i].0, front[j].0) {
          assert front[i] == xs[i] && front[j] == xs[j];
        }
      }
      GroupByMonthAscending(front);
      if |front| > 0 {
        assert Last(front) == xs[|xs| - 2];
      }
      AbsorbAscending(GroupByMonth(front), Last(xs).0, Last(xs).1);
    }
  }

  /** Absorbing a month no earlier than the last entry's keeps the entries
      strictly ascending, with that month last. */
  lemma AbsorbAscending(g: seq<Bucket>, k: MonthKey, p: Posting)
    requires StrictlyAscending(g)
    requires |g| > 0 ==> Last(g).month == k || MonthBefore(Last(g).month, k)
    ensures StrictlyAscending(Absorb(g, k, p))
    ensures |Absorb(g, k, p)| > 0 && Last(Absorb(g, k, p)).month == k
  {
    var i := IndexOfMonth(g, k);
    if |g| > 0 {
      var top := Last(g).month;
      if top == k {
        assert i == |g| - 1 by {
          forall j | 0 <= j < |g| - 1 ensures g[j].month != k {
            assert MonthBefore(g[j].month, g[|g| - 1].month);
          }
        }
      } else {
        assert i == |g| by {
          forall j | 0 <= j < |g| ensures g[j].month != k {
            if j < |g| - 1 { assert MonthBefore(g[j].month, g[|g| - 1].month); }
          }
        }
      }
    }
  }


  // ----- keeping the last six -----

  /** `s.slice(-n)`: the last `n` elements, or all of them when fewer. */
  function TakeLast<T>(s: seq<T>, n: nat): (r: seq<T>)
    ensures |r| == if |s| < n then |s| else n
    ensures r == s[|s| - |r|..]
  {
    if |s| <= n then s else s[|s| - n..]
  }

  /** Keeping a suffix keeps strict ascent and the latest entry. */
  lemma {:induction false} TakeLastKeepsOrder(bs: seq<Bucket>, n: nat)
    requires StrictlyAscending(bs)
    ensures StrictlyAscending(TakeLast(bs, n))
    ensures n > 0 && |bs| > 0 ==> Last(TakeLast(bs, n)) == Last(bs)
  {
    var r := TakeLast(bs, n);
    AscendingSuffix(bs, |bs| - |r|);
    if n > 0 && |bs| > 0 {
      assert r[|r| - 1] == bs[|bs| - 1];
    }
  }

  lemma AscendingSuffix(bs: seq<Bucket>, k: nat)
    requires StrictlyAscending(bs) && k <= |bs|
    ensures StrictlyAscending(bs[k..])
  {
    var r := bs[k..];
    forall i, j | 0 <= i < j < |r|
      ensures MonthBefore(r[i].month, r[j].month)
    {
      assert r[i] == bs[k + i] && r[j] == bs[k + j];
    }
  }


  /** Keeping a suffix keeps each entry's sums. */
  /** A suffix keeps the months distinct. */
  lemma TakeLastDistinct(bs: seq<Bucket>, n: nat)
    requires DistinctMonths(bs)
    ensures DistinctMonths(TakeLast(bs, n))
  {
    var r := TakeLast(bs, n);
    forall i | 0 <= i < |r|
      ensures r[i] == bs[|bs| - |r| + i]
    {
    }
  }

  lemma TakeLastFaithful(bs: seq<Bucket>, n: nat, xs: seq<(MonthKey, Posting)>)
    requires Faithful(bs, xs)
    ensures Faithful(TakeLast(bs, n), xs)
  {
    var r := TakeLast(bs, n);
    forall i | 0 <= i < |r|
      ensures r[i] == bs[|bs| - |r| + i]
    {
    }
  }
}

=== FILE: listing.dfy ===
/** The list endpoint (`getAllTransactions`): query parameters become a
    filter, an order and a page; the record store is a sequence that is
    filtered, sorted and sliced. */
module Listing {
  import opened Wrappers
  import opened Calendar
  import opened Domain
  import opened JsNumber
  import opened Sorting
  import opened Filtering
  import Text

  /** The query string: parameter name to its (single) value. */
  type Query = map<string, string>

  datatype SortField = ByDate | ByAmount
  datatype Direction = Ascending | Descending

  /** The `where` object handed to the store. */
  datatype Filter = Filter(owner: string, category: Option<string>, kind: Option<string>, range: Option<Range>)

  datatype Pagination = Pagination(page: int, limit: int, total: nat, totalPages: Option<int>)

  /** The `data` of a successful response. */
  datatype Listing = Listing(transactions: seq<Transaction>, pagination: Pagination)

  const FetchFailed: Error := DatabaseFailure("Failed to fetch transactions")

  /** A parameter whose value is present and not the empty string (truthy). */
  function Param(q: Query, name: string): Option<string> {
    if name in q && q[name] != "" then Some(q[name]) else None
  }

  /** `req.query.x ? parseInt(req.query.x) : fallback` */
  function NumberParam(q: Query, name: string, fallback: int): (r: Num)
    ensures name !in q || q[name] == "" ==> r == Int(fallback)
    ensures name in q && q[name] != "" ==> r == ParseInt(q[name])
  {
    match Param(q, name)
    case Some(s) => ParseInt(s)
    case None => Int(fallback)
  }

  /** `req.query.x ? parseInt(req.query.x) : undefined`, with `undefined`
      folded into the falsy `NaN`: both fail every later truthiness test. */
  function OptionalNumberParam(q: Query, name: string): (r: Num)
    ensures name !in q || q[name] == "" ==> r == NaN && !Truthy(r)
    ensures name in q && q[name] != "" ==> r == ParseInt(q[name])
  {
    match Param(q, name)
    case Some(s) => ParseInt(s)
    case None => NaN
  }

  /** `if (month && year) … else if (year) …`: a month range needs both to be
      truthy; a truthy year alone gives the year; otherwise no date filter. */
  function DateRangeOf(month: Num, year: Num): (r: Option<Range>)
    ensures r.Some? <==> Truthy(year)
    ensures Truthy(month) && Truthy(year) ==> forall d :: Valid(d) ==>
      (InRange(d, r.value) <==> MonthOf(d) == MonthAt(FullYear(year.value), month.value - 1))
    ensures !Truthy(month) && Truthy(year) ==> forall d :: Valid(d) ==>
      (InRange(d, r.value) <==> d.year == FullYear(year.value))
  {
    if Truthy(month) && Truthy(year) then Some(MonthRange(year.value, month.value))
    else if Truthy(year) then Some(YearRange(year.value))
    else None
  }

  /** The `where` object: always the owner; category and type only when
      their parameters are non-empty; a date range only for a truthy year. */
  function BuildFilter(q: Query): (f: Filter)
    ensures f.owner == DefaultUserId
    ensures f.category.Some? <==> "category" in q && q["category"] != ""
    ensures f.category.Some? ==> f.category.value == q["category"]
    ensures f.kind.Some? <==> "type" in q && q["type"] != ""
    ensures f.kind.Some? ==> f.kind.value == q["type"]
    ensures f.range.Some? <==> Truthy(OptionalNumberParam(q, "year"))
  {
    Filter(DefaultUserId, Param(q, "category"), Param(q, "type"),
           DateRangeOf(OptionalNumberParam(q, "month"), OptionalNumberParam(q, "year")))
  }

  predicate Matches(f: Filter, t: Transaction) {
    && t.userId == f.owner
    && (f.category.Some? ==> CategoryName(t.category) == f.category.value)
    && (f.kind.Some? ==> KindName(t.kind) == f.kind.value)
    && (f.range.Some? ==> InRange(t.date, f.range.value))
  }

  /** The store's `findMany({ where })` before ordering: the matching records,
      in store order, each as often as the store holds it. Its length is the
      store's `count({ where })`. */
  function Select(store: seq<Transaction>, f: Filter): (r: seq<Transaction>)
    ensures |r| <= |store|
    ensures forall t :: t in r <==> t in store && Matches(f, t)
    ensures forall t :: multiset(r)[t] == if Matches(f, t) then multiset(store)[t] else 0
    ensures SubsequenceOf(r, store)
  {
    var r := Keep(store, Matcher(f));
    KeepIsSubsequence(store, Matcher(f));
    SelectCounts(store, f);
    r
  }

  /** The filter as a test on one record. */
  function Matcher(f: Filter): Transaction -> bool {
    t => Matches(f, t)
  }

  lemma SelectCounts(store: seq<Transaction>, f: Filter)
    ensures forall t :: t in Keep(store, Matcher(f)) <==> t in store && Matches(f, t)
    ensures forall t :: multiset(Keep(store, Matcher(f)))[t] == if Matches(f, t) then multiset(store)[t] else 0
  {
    forall t
      ensures t in Keep(store, Matcher(f)) <==> t in store && Matches(f, t)
      ensures multiset(Keep(store, Matcher(f)))[t] == if Matches(f, t) then multiset(store)[t] else 0
    {
      KeepMembers(store, Matcher(f), t);
      KeepCounts(store, Matcher(f), t);
    }
  }


  predicate InOrder(field: SortField, dir: Direction, a: Transaction, b: Transaction) {
    match (field, dir)
    case (ByDate, Ascending) => NotAfter(a.date, b.date)
    case (ByDate, Descending) => NotAfter(b.date, a.date)
    case (ByAmount, Ascending) => a.amount <= b.amount
    case (ByAmount, Descending) => b.amount <= a.amount
  }

  /** `orderBy: { [sortBy]: sortOrder }` as a comparison. */
  function Order(field: SortField, dir: Direction): (Transaction, Transaction) -> bool {
    (a: Transaction, b: Transaction) => InOrder(field, dir, a, b)
  }

  lemma OrderIsTotalPreorder(field: SortField, dir: Direction)
    ensures TotalPreorder(Order(field, dir))
  {
    forall a: Transaction, b: Transaction, c: Transaction
      ensures InOrder(field, dir, a, b) || InOrder(field, dir, b, a)
      ensures InOrder(field, dir, a, b) && InOrder(field, dir, b, c) ==> InOrder(field, dir, a, c)
    {
      NotAfterTotalOrder(a.date, b.date, c.date);
      NotAfterTotalOrder(c.date, b.date, a.date);
    }
  }

  /** `(req.query.sortBy as string) || 'date'`, for the two fields the query
      schema admits; `None` for any other name. */
  function SortFieldOf(q: Query): (r: Option<SortField>)
    ensures r == Some(ByDate) <==> "sortBy" !in q || (q["sortBy"] == "" || q["sortBy"] == "date")
    ensures r == Some(ByAmount) <==> "sortBy" in q && q["sortBy"] == "amount"
    ensures r.None? <==> "sortBy" in q && q["sortBy"] != "" && q["sortBy"] != "date" && q["sortBy"] != "amount"
  {
    match Param(q, "sortBy")
    case None => Some(ByDate)
    case Some(s) => if s == "date" then Some(ByDate) else if s == "amount" then Some(ByAmount) else None
  }

  /** `(req.query.sortOrder) || 'desc'`. */
  function DirectionOf(q: Query): (r: Option<Direction>)
    ensures r == Some(Descending) <==> "sortOrder" !in q || (q["sortOrder"] == "" || q["sortOrder"] == "desc")
    ensures r == Some(Ascending) <==> "sortOrder" in q && q["sortOrder"] == "asc"
    ensures r.None? <==> "sortOrder" in q && q["sortOrder"] != "" && q["sortOrder"] != "desc" && q["sortOrder"] != "asc"
  {
    match Param(q, "sortOrder")
    case None => Some(Descending)
    case Some(s) => if s == "asc" then Some(Ascending) else if s == "desc" then Some(Descending) else None
  }

  /** `skip`/`take` on a sequence: at most `take` elements starting at `skip`. */
  function Slice<T>(s: seq<T>, skip: nat, take: nat): (r: seq<T>)
    ensures |r| <= take
    ensures skip <= |s| ==> r == s[skip..if skip + take <= |s| then skip + take else |s|]
    ensures skip >= |s| ==> r == []
  {
    if skip >= |s| then [] else if skip + take <= |s| then s[skip..skip + take] else s[skip..]
  }

  /** A negative `take` reads from the end: the store reverses the order,
      skips `skip`, takes `take` and restores the order, so the result is the
      `take` elements just before the last `skip`. */
  function SliceFromEnd<T>(s: seq<T>, skip: nat, take: nat): (r: seq<T>)
    ensures |r| <= take
    ensures skip >= |s| ==> r == []
    ensures skip < |s| ==>
      && |r| == (if take <= |s| - skip then take else |s| - skip)
      && r == s[|s| - skip - |r|..|s| - skip]
  {
    if skip >= |s| then []
    else if take <= |s| - skip then s[|s| - skip - take..|s| - skip]
    else s[..|s| - skip]
  }

  function Abs(n: int): nat {
    if n < 0 then -n else n
  }

  /** `Math.ceil(total / limit)`; `None` for a zero limit, where JavaScript
      yields `Infinity` (or `NaN` when there is nothing to count). */
  function TotalPages(total: nat, limit: int): (r: Option<int>)
    ensures limit == 0 <==> r.None?
    ensures limit > 0 ==> r.value >= 0 && (r.value - 1) * limit < total <= r.value * limit
    ensures limit < 0 ==> r.value <= 0 && r.value * limit <= total < (r.value - 1) * limit
  {
    if limit == 0 then None
    else if limit > 0 then Some((total + limit - 1) / limit)
    else Some(-(total / -limit))
  }

  /** `findMany({ where, skip, take, orderBy })` on the matches. */
  function FetchPage(matches: seq<Transaction>, field: SortField, dir: Direction, skip: nat, take: int)
    : (r: seq<Transaction>)
    ensures |r| <= Abs(take)
    ensures forall t :: t in r ==> t in matches
  {
    var sorted := Sort(matches, Order(field, dir));
    var items := if take >= 0 then Slice(sorted, skip, take) else SliceFromEnd(sorted, skip, -take);
    forall t | t in items ensures t in matches {
      assert t in sorted;
      assert t in multiset(sorted);
    }
    items
  }

  /** The handler: page and limit default to 1 and 10, `skip = (page - 1) * limit`,
      `take = limit`; the count covers every match, the page only its slice.
      The store rejects a `NaN` `skip` or `take` and a negative `skip`, which
      the handler reports as a database failure; a negative `take` counts from
      the end. Only the two sort fields the query schema admits are ordered
      here; any other `sortBy` is read as a failure, although the store would
      sort by any column of the record. */
  function GetAllTransactions(store: seq<Transaction>, q: Query): (r: Result<Listing, Error>)
    ensures r.Failure? ==> r.error == FetchFailed
    ensures r.Success? ==>
      && NumberParam(q, "page", 1) == Int(r.value.pagination.page)
      && NumberParam(q, "limit", 10) == Int(r.value.pagination.limit)
      && |r.value.transactions| <= Abs(r.value.pagination.limit)
      && r.value.pagination.total == |Select(store, BuildFilter(q))|
      && r.value.pagination.totalPages == TotalPages(r.value.pagination.total, r.value.pagination.limit)
      && (forall t :: t in r.value.transactions ==> t in store && Matches(BuildFilter(q), t))
  {
    var page := NumberParam(q, "page", 1);
    var limit := NumberParam(q, "limit", 10);
    var matches := Select(store, BuildFilter(q));
    var field := SortFieldOf(q);
    var dir := DirectionOf(q);
    if page.NaN? || limit.NaN? || field.None? || dir.None? then Failure(FetchFailed)
    else
      var skip := (page.value - 1) * limit.value;
      if skip < 0 then Failure(FetchFailed)
      else
        var items := FetchPage(matches, field.value, dir.value, skip, limit.value);
        Success(Listing(items, Pagination(page.value, limit.value, |matches|, TotalPages(|matches|, limit.value))))
  }

  /** A fetched page is a slice of the matches in the requested order: the
      ordered sequence is sorted and is a permutation of the matches. */
  lemma FetchPageIsOrderedSlice(matches: seq<Transaction>, field: SortField, dir: Direction, skip: nat, take: nat)
    ensures SortedBy(Sort(matches, Order(field, dir)), Order(field, dir))
    ensures multiset(Sort(matches, Order(field, dir))) == multiset(matches)
    ensures FetchPage(matches, field, dir, skip, take) == Slice(Sort(matches, Order(field, dir)), skip, take)
  {
    OrderIsTotalPreorder(field, dir);
    SortSorted(matches, Order(field, dir));
  }

  /** The listed page is page `page` of the ordered matches. */
  lemma ListedPage(store: seq<Transaction>, q: Query)
    requires GetAllTransactions(store, q).Success?
    ensures var p := GetAllTransactions(store, q).value.pagination;
      && SortFieldOf(q).Some? && DirectionOf(q).Some? && (p.page - 1) * p.limit >= 0
      && GetAllTransactions(store, q).value.transactions
         == FetchPage(Select(store, BuildFilter(q)), SortFieldOf(q).value, DirectionOf(q).value,
                      (p.page - 1) * p.limit, p.limit)
  {
  }

  /** `xs` is the last `n` elements of `sorted`, or all of it when it is
      shorter. */
  predicate LastOf<T(==)>(xs: seq<T>, sorted: seq<T>, n: nat) {
    && |xs| == (if n <= |sorted| then n else |sorted|)
    && xs == sorted[|sorted| - |xs|..]
  }

  /** With a negative `take` and nothing skipped, the page is the last
      matches in the requested order. */
  lemma FetchPageFromEnd(matches: seq<Transaction>, field: SortField, dir: Direction, take: int)
    requires take < 0
    ensures LastOf(FetchPage(matches, field, dir, 0, take), Sort(matches, Order(field, dir)), -take)
  {
  }

  /** A negative limit on the first page lists the last matches in the
      requested order, as many as the limit's magnitude allows. */
  lemma NegativeLimitListsLast(store: seq<Transaction>, q: Query)
    requires GetAllTransactions(store, q).Success?
    requires GetAllTransactions(store, q).value.pagination.page == 1
    requires GetAllTransactions(store, q).value.pagination.limit < 0
    ensures SortFieldOf(q).Some? && DirectionOf(q).Some?
    ensures LastOf(GetAllTransactions(store, q).value.transactions,
                   Sort(Select(store, BuildFilter(q)), Order(SortFieldOf(q).value, DirectionOf(q).value)),
                   -GetAllTransactions(store, q).value.pagination.limit)
  {
    FirstPageListed(store, q);
    var r := GetAllTransactions(store, q).value;
    FetchPageFromEnd(Select(store, BuildFilter(q)), SortFieldOf(q).value, DirectionOf(q).value, r.pagination.limit);
  }

  /** The first page skips nothing. */
  lemma FirstPageListed(store: seq<Transaction>, q: Query)
    requires GetAllTransactions(store, q).Success?
    requires GetAllTransactions(store, q).value.pagination.page == 1
    ensures SortFieldOf(q).Some? && DirectionOf(q).Some?
    ensures var r := GetAllTransactions(store, q).value;
      r.transactions == FetchPage(Select(store, BuildFilter(q)), SortFieldOf(q).value, DirectionOf(q).value,
                                  0, r.pagination.limit)
  {
    ListedPage(store, q);
    var p := GetAllTransactions(store, q).value.pagination;
    assert (p.page - 1) * p.limit == 0 by {
      assert p.page - 1 == 0;
    }
  }

  /** A negative limit on the default page and order is not refused: such a
      query lists the last matches (`?limit=-5` the last five, since
      `parseInt("-5")` is -5 by `ParseIntNegative`). */
  lemma NegativeLimitAccepted(store: seq<Transaction>, q: Query, n: int)
    requires "page" !in q && "sortBy" !in q && "sortOrder" !in q
    requires "limit" in q && q["limit"] != "" && ParseInt(q["limit"]) == Int(n) && n < 0
    ensures var r := GetAllTransactions(store, q);
      && r.Success? && r.value.pagination.page == 1 && r.value.pagination.limit == n
  {
    assert NumberParam(q, "page", 1) == Int(1);
    assert NumberParam(q, "limit", 10) == Int(n);
    assert SortFieldOf(q).Some? && DirectionOf(q).Some?;
    assert (1 - 1) * n == 0;
  }

  /** With no parameters: page 1 of 10, the owner's records, newest first. */
  lemma DefaultQuery(store: seq<Transaction>)
    ensures var r := GetAllTransactions(store, map[]);
      && r.Success?
      && r.value.pagination.page == 1 && r.value.pagination.limit == 10
      && BuildFilter(map[]) == Filter(DefaultUserId, None, None, None)
      && r.value.transactions
         == Slice(Sort(Select(store, Filter(DefaultUserId, None, None, None)), Order(ByDate, Descending)), 0, 10)
  {
    var q: Query := map[];
    assert NumberParam(q, "page", 1) == Int(1) && NumberParam(q, "limit", 10) == Int(10);
    assert SortFieldOf(q) == Some(ByDate) && DirectionOf(q) == Some(Descending);
    assert BuildFilter(q) == Filter(DefaultUserId, None, None, None);
  }

  /** What the filter means for a record with a real calendar date: the
      owner always, category and type by exact name when supplied, and the
      calendar month (or year) the month and year parameters name. */
  lemma FilterMeaning(q: Query, t: Transaction)
    requires Valid(t.date)
    ensures var month, year := OptionalNumberParam(q, "month"), OptionalNumberParam(q, "year");
      Matches(BuildFilter(q), t) <==>
        && t.userId == DefaultUserId
        && (Param(q, "category").Some? ==> CategoryName(t.category) == Param(q, "category").value)
        && (Param(q, "type").Some? ==> KindName(t.kind) == Param(q, "type").value)
        && (Truthy(month) && Truthy(year) ==> MonthOf(t.date) == MonthAt(FullYear(year.value), month.value - 1))
        && (!Truthy(month) && Truthy(year) ==> t.date.year == FullYear(year.value))
  {
    var month, year := OptionalNumberParam(q, "month"), OptionalNumberParam(q, "year");
    if Truthy(month) && Truthy(year) {
      MonthRangeSelectsMonth(year.value, month.value, t.date);
    } else if Truthy(year) {
      YearRangeSelectsYear(year.value, t.date);
    }
  }

  // ----- pagination covers every match -----

  /** Pages 1..n of size `limit`, concatenated. */
  function Pages<T>(s: seq<T>, limit: nat, n: nat): seq<T>
  {
    if n == 0 then [] else Pages(s, limit, n - 1) + Slice(s, (n - 1) * limit, limit)
  }

  lemma NextMultiple(n: nat, limit: nat)
    requires n > 0
    ensures n * limit == (n - 1) * limit + limit
  {
  }

  lemma {:induction false} PagesArePrefix<T>(s: seq<T>, limit: nat, n: nat)
    ensures Pages(s, limit, n) == s[..if n * limit <= |s| then n * limit else |s|]
  {
    if n > 0 {
      PagesArePrefix(s, limit, n - 1);
      var a := (n - 1) * limit;
      NextMultiple(n, limit);
      if a >= |s| {
        assert Slice(s, a, limit) == [];
      } else if a + limit <= |s| {
        assert Slice(s, a, limit) == s[a..a + limit];
        assert s[..a] + s[a..a + limit] == s[..a + limit];
      } else {
        assert Slice(s, a, limit) == s[a..];
        assert s[..a] + s[a..] == s;
      }
    }
  }

  /** Reading pages 1 to `totalPages` returns every match exactly once, in order. */
  lemma PagesCoverAll<T>(s: seq<T>, limit: nat)
    requires limit > 0
    ensures Pages(s, limit, TotalPages(|s|, limit).value) == s
  {
    PagesArePrefix(s, limit, TotalPages(|s|, limit).value);
  }
}

=== FILE: records.dfy ===
/** Single-record handlers: fetch, create, partial update and delete by id,
    with the owner guard that makes a foreign record look absent. */
module Records {
  import opened Wrappers
  import opened Calendar
  import opened Domain

  /** The one error both "no such id" and "someone else's record" raise. */
  const Missing: Error := NotFound("Transaction not found")

  /** A validated create body, its date already parsed. */
  datatype Draft = Draft(kind: Kind, amount: int, category: Category, description: string, date: DateTime)

  /** A validated update body: each field present or absent. */
  datatype Patch = Patch(
    kind: Option<Kind>,
    amount: Option<int>,
    category: Option<Category>,
    description: Option<string>,
    date: Option<DateTime>)

  /** The store keeps ids unique (its primary key). */
  predicate UniqueIds(store: seq<Transaction>) {
    forall i, j :: 0 <= i < j < |store| ==> store[i].id != store[j].id
  }

  predicate HasId(store: seq<Transaction>, id: string) {
    exists t :: t in store && t.id == id
  }

  /** `findUnique({ where: { id } })`. */
  function FindById(store: seq<Transaction>, id: string): (r: Option<Transaction>)
    ensures r.Some? ==> r.value in store && r.value.id == id
    ensures r.None? <==> !HasId(store, id)
  {
    if |store| == 0 then None
    else if store[0].id == id then Some(store[0])
    else
      var r := FindById(store[1..], id);
      assert forall t :: t in store[1..] ==> t in store;
      assert HasId(store, id) ==> HasId(store[1..], id) by {
        if HasId(store, id) {
          var t :| t in store && t.id == id;
          var i :| 0 <= i < |store| && store[i] == t;
          assert i > 0 && store[1..][i - 1] == t;
        }
      }
      r
  }

  /** In a store with unique ids, the record found is the one with that id. */
  lemma FindByIdUnique(store: seq<Transaction>, t: Transaction)
    requires UniqueIds(store) && t in store
    ensures FindById(store, t.id) == Some(t)
  {
    var i :| 0 <= i < |store| && store[i] == t;
    if i > 0 {
      assert store[0].id != t.id;
      assert UniqueIds(store[1..]) by {
        forall a, b | 0 <= a < b < |store[1..]| ensures store[1..][a].id != store[1..][b].id {
          assert store[1..][a] == store[a + 1] && store[1..][b] == store[b + 1];
        }
      }
      assert store[1..][i - 1] == t;
      FindByIdUnique(store[1..], t);
    }
  }

  /** The guard of `getTransactionById`, `updateTransaction` and
      `deleteTransaction`: absent and foreign records fail alike. */
  function Guard(store: seq<Transaction>, id: string): (r: Result<Transaction, Error>)
    ensures r.Failure? ==> r.error == Missing
    ensures r.Success? ==> r.value in store && r.value.id == id && r.value.userId == DefaultUserId
    ensures r.Failure? <==> FindById(store, id).None? || FindById(store, id).value.userId != DefaultUserId
  {
    match FindById(store, id)
    case None => Failure(Missing)
    case Some(t) => if t.userId != DefaultUserId then Failure(Missing) else Success(t)
  }

  function GetTransactionById(store: seq<Transaction>, id: string): (r: Result<Transaction, Error>)
    ensures r.Failure? ==> r.error == Missing
    ensures r.Success? ==> r.value in store && r.value.id == id && r.value.userId == DefaultUserId
  {
    Guard(store, id)
  }

  /** The store without the record `id`. */
  function Without(store: seq<Transaction>, id: string): (r: seq<Transaction>)
    ensures |r| <= |store|
    ensures forall t :: t in r <==> t in store && t.id != id
  {
    if |store| == 0 then []
    else (if store[0].id == id then [] else [store[0]]) + Without(store[1..], id)
  }

  /** A record owned by someone else is indistinguishable from no record:
      fetching it gives the same answer as fetching from a store without it. */
  lemma ForeignLooksAbsent(store: seq<Transaction>, t: Transaction)
    requires UniqueIds(store) && t in store && t.userId != DefaultUserId
    ensures GetTransactionById(store, t.id) == GetTransactionById(Without(store, t.id), t.id)
    ensures GetTransactionById(store, t.id) == Failure(Missing)
  {
    FindByIdUnique(store, t);
    assert !HasId(Without(store, t.id), t.id);
  }

  /** `createTransaction`: the store stamps a fresh id and both timestamps;
      the owner is always the default user. */
  function CreateTransaction(store: seq<Transaction>, d: Draft, id: string, now: DateTime)
    : (r: (seq<Transaction>, Transaction))
    requires !HasId(store, id)
    ensures r.0 == store + [r.1]
    ensures r.1.userId == DefaultUserId && r.1.id == id && r.1.createdAt == now && r.1.updatedAt == now
    ensures UniqueIds(store) ==> UniqueIds(r.0) && GetTransactionById(r.0, id) == Success(r.1)
  {
    var t := Transaction(id, DefaultUserId, d.kind, d.amount, d.category, d.description, d.date, now, now);
    AppendFresh(store, t);
    (store + [t], t)
  }

  lemma AppendFresh(store: seq<Transaction>, t: Transaction)
    requires !HasId(store, t.id)
    ensures UniqueIds(store) ==> UniqueIds(store + [t]) && FindById(store + [t], t.id) == Some(t)
  {
    var s := store + [t];
    if UniqueIds(store) {
      assert UniqueIds(s) by {
        forall i, j | 0 <= i < j < |s| ensures s[i].id != s[j].id {
          if j == |store| { assert s[i] in store; }
        }
      }
      FindByIdUnique(s, t);
    }
  }

  /** Writes the supplied fields; the store refreshes `updatedAt`. */
  function ApplyPatch(t: Transaction, p: Patch, now: DateTime): (r: Transaction)
    ensures r.id == t.id && r.userId == t.userId && r.createdAt == t.createdAt && r.updatedAt == now
    ensures (p.kind.None? ==> r.kind == t.kind) && (p.kind.Some? ==> r.kind == p.kind.value)
    ensures (p.amount.None? ==> r.amount == t.amount) && (p.amount.Some? ==> r.amount == p.amount.value)
    ensures (p.category.None? ==> r.category == t.category) && (p.category.Some? ==> r.category == p.category.value)
    ensures (p.description.None? ==> r.description == t.description)
    ensures p.description.Some? ==> r.description == p.description.value
    ensures (p.date.None? ==> r.date == t.date) && (p.date.Some? ==> r.date == p.date.value)
  {
    t.(kind := p.kind.GetOr(t.kind),
       amount := p.amount.GetOr(t.amount),
       category := p.category.GetOr(t.category),
       description := p.description.GetOr(t.description),
       date := p.date.GetOr(t.date),
       updatedAt := now)
  }

  /** The store with record `id` replaced by `u`. */
  function Replace(store: seq<Transaction>, id: string, u: Transaction): (r: seq<Transaction>)
    ensures |r| == |store|
    ensures forall i :: 0 <= i < |r| ==> r[i] == if store[i].id == id then u else store[i]
  {
    if |store| == 0 then []
    else [if store[0].id == id then u else store[0]] + Replace(store[1..], id, u)
  }

  /** `updateTransaction`: guard, then write only the supplied fields. Every
      other record keeps its place and contents; ids stay unique. */
  function UpdateTransaction(store: seq<Transaction>, id: string, p: Patch, now: DateTime)
    : (r: Result<(seq<Transaction>, Transaction), Error>)
    ensures r.Failure? <==> Guard(store, id).Failure?
    ensures r.Failure? ==> r.error == Missing
    ensures r.Success? ==>
      && r.value.1 == ApplyPatch(Guard(store, id).value, p, now)
      && |r.value.0| == |store|
      && (forall i :: 0 <= i < |store| && store[i].id != id ==> r.value.0[i] == store[i])
      && (UniqueIds(store) ==> UniqueIds(r.value.0) && GetTransactionById(r.value.0, id) == Success(r.value.1))
  {
    match Guard(store, id)
    case Failure(e) => Failure(e)
    case Success(t) =>
      var u := ApplyPatch(t, p, now);
      ReplaceKeepsIds(store, t, u);
      Success((Replace(store, id, u), u))
  }

  /** Replacing a record keeps ids unique as long as the new id is the old
      one or one no record holds. */
  lemma ReplaceKeepsIds(store: seq<Transaction>, t: Transaction, u: Transaction)
    requires t in store && (u.id == t.id || !HasId(store, u.id))
    ensures UniqueIds(store) ==> UniqueIds(Replace(store, t.id, u)) && FindById(Replace(store, t.id, u), u.id) == Some(u)
  {
    var s := Replace(store, t.id, u);
    if UniqueIds(store) {
      assert UniqueIds(s) by {
        forall a, b | 0 <= a < b < |s| ensures s[a].id != s[b].id {
          assert store[a] in store && store[b] in store;
        }
      }
      var i :| 0 <= i < |store| && store[i] == t;
      assert s[i] == u;
      FindByIdUnique(s, u);
    }
  }

  /** `deleteTransaction`: guard, then remove the record; the rest keep order. */
  function DeleteTransaction(store: seq<Transaction>, id: string): (r: Result<seq<Transaction>, Error>)
    ensures r.Failure? <==> Guard(store, id).Failure?
    ensures r.Failure? ==> r.error == Missing
    ensures r.Success? ==> r.value == Without(store, id) && !HasId(r.value, id)
  {
    match Guard(store, id)
    case Failure(e) => Failure(e)
    case Success(_) => Success(Without(store, id))
  }

  /** Removing an id present once shortens the store by exactly one. */
  lemma {:induction false} WithoutRemovesOne(store: seq<Transaction>, i: nat)
    requires UniqueIds(store) && i < |store|
    ensures |Without(store, store[i].id)| == |store| - 1
  {
    var id := store[i].id;
    var tail := store[1..];
    assert UniqueIds(tail) by {
      forall a, b | 0 <= a < b < |tail| ensures tail[a].id != tail[b].id {
        assert tail[a] == store[a + 1] && tail[b] == store[b + 1];
      }
    }
    if i == 0 {
      assert !HasId(tail, id) by {
        forall t | t in tail ensures t.id != id {
          var k :| 0 <= k < |tail| && tail[k] == t;
          assert tail[k] == store[k + 1];
        }
      }
      WithoutAbsent(tail, id);
    } else {
      assert tail[i - 1] == store[i];
      WithoutRemovesOne(tail, i - 1);
    }
  }

  lemma {:induction false} WithoutAbsent(store: seq<Transaction>, id: string)
    requires !HasId(store, id)
    ensures Without(store, id) == store
  {
    if |store| > 0 {
      assert store[0] in store;
      assert !HasId(store[1..], id) by {
        forall t | t in store[1..] ensures t.id != id { assert t in store; }
      }
      WithoutAbsent(store[1..], id);
    }
  }

  /** The three guarded handlers fail on exactly the same ids, with the same
      error, whatever the update body. */
  lemma GuardsAgree(store: seq<Transaction>, id: string, p: Patch, now: DateTime)
    ensures GetTransactionById(store, id).Failure? <==> UpdateTransaction(store, id, p, now).Failure?
    ensures GetTransactionById(store, id).Failure? <==> DeleteTransaction(store, id).Failure?
    ensures GetTransactionById(store, id).Failure? ==>
      && GetTransactionById(store, id) == Failure(Missing)
      && UpdateTransaction(store, id, p, now) == Failure(Missing)
      && DeleteTransaction(store, id) == Failure(Missing)
  {
  }

  // ----- the update body as the handler receives it -----

  /** Any error the store raises while updating; the handler's `catch` turns
      it into this one. */
  const UpdateFailed: Error := DatabaseFailure("Failed to update transaction")

  /** The body `updateTransaction` receives: `validate` checks the schema but
      hands on the original body, so the columns the schema does not declare
      (`id`, `userId`, `createdAt`, `updatedAt`) reach
      `prisma.transaction.update` as well. */
  datatype Body = Body(
    patch: Patch,
    id: Option<string>,
    userId: Option<string>,
    createdAt: Option<DateTime>,
    updatedAt: Option<DateTime>)

  /** A body that writes no column outside the schema. */
  predicate SchemaOnly(b: Body) {
    b.id.None? && b.userId.None? && b.createdAt.None? && b.updatedAt.None?
  }

  /** The record the as-written update stores: every supplied column. */
  function Written(t: Transaction, b: Body, now: DateTime): (r: Transaction)
    ensures r.id == b.id.GetOr(t.id) && r.userId == b.userId.GetOr(t.userId)
    ensures r.createdAt == b.createdAt.GetOr(t.createdAt) && r.updatedAt == b.updatedAt.GetOr(now)
    ensures (r.kind, r.amount, r.category, r.description, r.date) == (var a := ApplyPatch(t, b.patch, now);
      (a.kind, a.amount, a.category, a.description, a.date))
    ensures SchemaOnly(b) ==> r == ApplyPatch(t, b.patch, now)
  {
    ApplyPatch(t, b.patch, now).(
      id := b.id.GetOr(t.id),
      userId := b.userId.GetOr(t.userId),
      createdAt := b.createdAt.GetOr(t.createdAt),
      updatedAt := b.updatedAt.GetOr(now))
  }

  /** `updateTransaction` as written: the whole body is the update data. A new
      `id` that another record already holds breaks the primary key. */
  function UpdateAsWritten(store: seq<Transaction>, id: string, b: Body, now: DateTime)
    : (r: Result<(seq<Transaction>, Transaction), Error>)
    ensures Guard(store, id).Failure? ==> r == Failure(Missing)
    ensures Guard(store, id).Success? ==>
      (r.Failure? <==> b.id.Some? && b.id.value != id && HasId(store, b.id.value))
    ensures r.Failure? ==> r.error == Missing || r.error == UpdateFailed
    ensures SchemaOnly(b) ==> r == UpdateTransaction(store, id, b.patch, now)
    ensures r.Success? ==>
      && r.value.1 == Written(Guard(store, id).value, b, now)
      && |r.value.0| == |store|
      && (forall i :: 0 <= i < |store| && store[i].id != id ==> r.value.0[i] == store[i])
      && (UniqueIds(store) ==> UniqueIds(r.value.0) && FindById(r.value.0, r.value.1.id) == Some(r.value.1))
  {
    match Guard(store, id)
    case Failure(e) => Failure(e)
    case Success(t) =>
      var u := Written(t, b, now);
      if u.id != id && HasId(store, u.id) then Failure(UpdateFailed)
      else
        ReplaceKeepsIds(store, t, u);
        Success((Replace(store, id, u), u))
  }

  /** The body `{ "createdAt": "2000-01-01T00:00:00.000Z" }` rewrites the
      creation stamp the store set, which the corrected update never does. */
  lemma UpdateAsWrittenRewritesCreatedAt()
    ensures var stamp := DateTime(2024, 10, 1, 0, 0, 0);
      var forged := DateTime(2000, 1, 1, 0, 0, 0);
      var t := Transaction("t1", DefaultUserId, Expense, 15000, Food, "Groceries", stamp, stamp, stamp);
      var empty := Patch(None, None, None, None, None);
      && UpdateAsWritten([t], "t1", Body(empty, None, None, Some(forged), None), stamp).value.1.createdAt == forged
      && UpdateTransaction([t], "t1", empty, stamp).value.1.createdAt == stamp
  {
  }

  /** Handing a record to another owner through the as-written update makes
      it vanish for the default user: every later fetch, update or delete of
      it answers "not found". */
  lemma UpdateAsWrittenHidesRecord(store: seq<Transaction>, id: string, p: Patch, owner: string, now: DateTime)
    requires UniqueIds(store) && Guard(store, id).Success? && owner != DefaultUserId
    ensures var r := UpdateAsWritten(store, id, Body(p, None, Some(owner), None, None), now);
      && r.Success? && r.value.1.userId == owner
      && GetTransactionById(r.value.0, id) == Failure(Missing)
  {
  }
}

=== FILE: routes.dfy ===
/** The router: each write endpoint validates its body before the handler
    runs, and the list endpoint validates its query. */
module Routes {
  import opened Wrappers
  import opened Calendar
  import opened Domain
  import opened JsNumber
  import opened Records
  import opened Listing
  import opened Validation

  const CreateFailed: Error := DatabaseFailure("Failed to create transaction")

  /** `new Date(s)` on a date string; `None` for an invalid date, which the
      store refuses. String date parsing itself is not modelled. */
  type DateParser = string -> Option<DateTime>

  /* The handler converts only `date` with `new Date`; any other date column
     of the body reaches the store as text, which the store reads itself (it
     takes ISO-8601 date-time text only). Members that forward such columns
     therefore take a second `DateParser`, `storeParse`, for the store's
     reading, distinct from `parse` for `new Date`. */

  /** The fields `createTransaction` hands to the store, with the date parsed. */
  function DraftOf(f: map<string, Json>, parse: DateParser): (r: Option<Draft>)
    requires CreateBody(f)
    ensures r.Some? <==> parse(f["date"].s).Some?
    ensures r.Some? ==>
      && KindName(r.value.kind) == f["type"].s && CategoryName(r.value.category) == f["category"].s
      && r.value.amount == f["amount"].hundredths && r.value.description == f["description"].s
      && Some(r.value.date) == parse(f["date"].s)
  {
    match parse(f["date"].s)
    case None => None
    case Some(d) =>
      Some(Draft(KindNamed(f["type"].s).value, f["amount"].hundredths, CategoryNamed(f["category"].s).value,
                 f["description"].s, d))
  }

  /** `POST /`: validate, then create; an unparsable date fails in the store. */
  function CreateRoute(store: seq<Transaction>, body: Json, parse: DateParser, id: string, now: DateTime)
    : (r: Result<(seq<Transaction>, Transaction), Error>)
    requires !HasId(store, id)
    ensures r.Failure? ==> r.error.Invalid? || r.error == CreateFailed
    ensures r.Failure? && r.error.Invalid? <==> Validate(CreateSchema, body).Failure?
    ensures r.Success? ==>
      && body.JObject? && CreateBody(body.fields)
      && r.value.0 == store + [r.value.1]
      && r.value.1.id == id && r.value.1.userId == DefaultUserId
      && KindName(r.value.1.kind) == body.fields["type"].s
      && r.value.1.amount == body.fields["amount"].hundredths
      && CategoryName(r.value.1.category) == body.fields["category"].s
      && r.value.1.description == body.fields["description"].s
      && Some(r.value.1.date) == parse(body.fields["date"].s)
  {
    match Validate(CreateSchema, body)
    case Failure(e) => Failure(e)
    case Success(_) =>
      CreateAccepts(body.fields);
      match DraftOf(body.fields, parse)
      case None => Failure(CreateFailed)
      case Some(d) => Success(CreateTransaction(store, d, id, now))
  }

  /** The JSON body a client sends for a draft, its date as text. */
  function BodyOf(d: Draft, dateText: string): Json {
    JObject(map[
      "type" := JString(KindName(d.kind)),
      "amount" := JNumber(d.amount),
      "category" := JString(CategoryName(d.category)),
      "description" := JString(d.description),
      "date" := JString(dateText)])
  }

  /** Sending a well-formed draft creates exactly that draft. */
  lemma CreateRoundTrip(store: seq<Transaction>, d: Draft, dateText: string, parse: DateParser, id: string, now: DateTime)
    requires !HasId(store, id)
    requires d.amount > 0 && |d.description| >= 1 && parse(dateText) == Some(d.date)
    ensures CreateRoute(store, BodyOf(d, dateText), parse, id, now) == Success(CreateTransaction(store, d, id, now))
  {
    var f := BodyOf(d, dateText).fields;
    NamesRoundTrip(d.kind, d.category);
    assert CreateBody(f);
    CreateAccepts(f);
  }

  // ----- update -----

  /** The update body's fields as the store receives them:
      `if (updateData.date) updateData.date = new Date(updateData.date)`.
      An empty date string is falsy and is left as a string, which the store
      refuses just as it refuses an invalid date; `None` is that refusal. */
  function PatchOf(f: map<string, Json>, parse: DateParser): (r: Option<Patch>)
    requires UpdateBody(f)
    ensures r.Some? <==> ("date" in f ==> f["date"].s != "" && parse(f["date"].s).Some?)
    ensures r.Some? ==>
      && (r.value.kind.Some? <==> "type" in f) && (r.value.kind.Some? ==> KindName(r.value.kind.value) == f["type"].s)
      && (r.value.amount.Some? <==> "amount" in f) && (r.value.amount.Some? ==> r.value.amount.value == f["amount"].hundredths)
      && (r.value.category.Some? <==> "category" in f)
      && (r.value.category.Some? ==> CategoryName(r.value.category.value) == f["category"].s)
      && (r.value.description.Some? <==> "description" in f)
      && (r.value.description.Some? ==> r.value.description.value == f["description"].s)
      && (r.value.date.Some? <==> "date" in f) && (r.value.date.Some? ==> r.value.date == parse(f["date"].s))
  {
    var date: Option<Option<DateTime>> :=
      if "date" !in f then Some(None)
      else if f["date"].s == "" then None
      else match parse(f["date"].s) case None => None case Some(d) => Some(Some(d));
    if date.None? then None
    else
      Some(Patch(
        if "type" in f then KindNamed(f["type"].s) else None,
        if "amount" in f then Some(f["amount"].hundredths) else None,
        if "category" in f then CategoryNamed(f["category"].s) else None,
        if "description" in f then Some(f["description"].s) else None,
        date.value))
  }

  /** `PUT /:id`: validate, guard, convert the date, write the supplied
      fields. Only the schema's fields are written. */
  function UpdateRoute(store: seq<Transaction>, id: string, body: Json, parse: DateParser, now: DateTime)
    : (r: Result<(seq<Transaction>, Transaction), Error>)
    ensures r.Failure? && r.error.Invalid? <==> Validate(UpdateSchema, body).Failure?
    ensures Validate(UpdateSchema, body).Success? ==>
      (r.Failure? && r.error == Missing <==> Guard(store, id).Failure?)
    ensures r.Failure? ==> r.error.Invalid? || r.error == Missing || r.error == UpdateFailed
    ensures r.Success? ==>
      var prior := Guard(store, id).value;
      && body.JObject? && UpdateBody(body.fields)
      && r.value.1.id == prior.id && r.value.1.userId == prior.userId
      && r.value.1.createdAt == prior.createdAt && r.value.1.updatedAt == now
      && r.value.1.kind == (if "type" in body.fields then KindNamed(body.fields["type"].s).value else prior.kind)
      && r.value.1.amount == (if "amount" in body.fields then body.fields["amount"].hundredths else prior.amount)
      && r.value.1.category ==
           (if "category" in body.fields then CategoryNamed(body.fields["category"].s).value else prior.category)
      && r.value.1.description == (if "description" in body.fields then body.fields["description"].s else prior.description)
      && Some(r.value.1.date) == (if "date" in body.fields then parse(body.fields["date"].s) else Some(prior.date))
      && |r.value.0| == |store|
      && (forall i :: 0 <= i < |store| && store[i].id != id ==> r.value.0[i] == store[i])
  {
    match Validate(UpdateSchema, body)
    case Failure(e) => Failure(e)
    case Success(_) =>
      UpdateAccepts(body.fields);
      if Guard(store, id).Failure? then Failure(Missing)
      else
        match PatchOf(body.fields, parse)
        case None => Failure(UpdateFailed)
        case Some(p) => UpdateTransaction(store, id, p, now)
  }

  /** The keys the update schema declares. */
  const SchemaKeys: set<string> := {"type", "amount", "category", "description", "date"}

  /** The record's other columns, which the store also accepts as update data. */
  const ColumnKeys: set<string> := {"id", "userId", "createdAt", "updatedAt"}

  /** A text column of the raw body: `Some(None)` when absent, `None` when the
      store would refuse the value. */
  function TextColumn(f: map<string, Json>, key: string): (r: Option<Option<string>>)
    ensures key !in f ==> r == Some(None)
    ensures key in f ==> (r.Some? <==> f[key].JString?)
    ensures r.Some? && r.value.Some? ==> key in f && r.value.value == f[key].s
  {
    if key !in f then Some(None)
    else if !f[key].JString? then None
    else Some(Some(f[key].s))
  }

  /** A date column of the raw body, which the handler does not convert: the
      store reads the text with its own reader `storeParse`. */
  function DateColumn(f: map<string, Json>, key: string, storeParse: DateParser): (r: Option<Option<DateTime>>)
    ensures key !in f ==> r == Some(None)
    ensures key in f ==> (r.Some? <==> f[key].JString? && storeParse(f[key].s).Some?)
    ensures r.Some? && r.value.Some? ==> key in f && Some(r.value.value) == storeParse(f[key].s)
  {
    if key !in f then Some(None)
    else if !f[key].JString? then None
    else match storeParse(f[key].s) case None => None case Some(d) => Some(Some(d))
  }

  /** The raw body as the store receives it; `None` when the store refuses
      some column's value. */
  function RawBodyOf(f: map<string, Json>, parse: DateParser, storeParse: DateParser): (r: Option<Body>)
    requires UpdateBody(f)
    ensures r.Some? <==>
      && PatchOf(f, parse).Some? && TextColumn(f, "id").Some? && TextColumn(f, "userId").Some?
      && DateColumn(f, "createdAt", storeParse).Some? && DateColumn(f, "updatedAt", storeParse).Some?
    ensures r.Some? ==>
      && r.value.patch == PatchOf(f, parse).value
      && r.value.id == TextColumn(f, "id").value && r.value.userId == TextColumn(f, "userId").value
      && r.value.createdAt == DateColumn(f, "createdAt", storeParse).value
      && r.value.updatedAt == DateColumn(f, "updatedAt", storeParse).value
    ensures f.Keys <= SchemaKeys ==> (r.Some? <==> PatchOf(f, parse).Some?) && (r.Some? ==> SchemaOnly(r.value))
  {
    match (PatchOf(f, parse), TextColumn(f, "id"), TextColumn(f, "userId"),
           DateColumn(f, "createdAt", storeParse), DateColumn(f, "updatedAt", storeParse))
    case (Some(p), Some(i), Some(o), Some(c), Some(u)) => Some(Body(p, i, o, c, u))
    case _ => None
  }

  /** The as-written handler after the guard: every key of the body reaches
      the store. A column outside the schema is written; a key that names no
      column makes the store throw. */
  function WriteRawBody(store: seq<Transaction>, id: string, f: map<string, Json>, parse: DateParser,
                        storeParse: DateParser, now: DateTime)
    : (r: Result<(seq<Transaction>, Transaction), Error>)
    requires UpdateBody(f) && Guard(store, id).Success?
    ensures r.Failure? ==> r.error == UpdateFailed
    ensures !(f.Keys <= SchemaKeys + ColumnKeys) ==> r.Failure?
    ensures r.Success? ==>
      var prior := Guard(store, id).value;
      && (if "id" in f then f["id"] == JString(r.value.1.id) else r.value.1.id == id)
      && (if "userId" in f then f["userId"] == JString(r.value.1.userId) else r.value.1.userId == prior.userId)
      && (if "createdAt" in f then f["createdAt"].JString? && storeParse(f["createdAt"].s) == Some(r.value.1.createdAt)
          else r.value.1.createdAt == prior.createdAt)
      && (if "updatedAt" in f then f["updatedAt"].JString? && storeParse(f["updatedAt"].s) == Some(r.value.1.updatedAt)
          else r.value.1.updatedAt == now)
  {
    if !(f.Keys <= SchemaKeys + ColumnKeys) then Failure(UpdateFailed)
    else
      match RawBodyOf(f, parse, storeParse)
      case None => Failure(UpdateFailed)
      case Some(b) =>
        WrittenColumns(Guard(store, id).value, f, parse, storeParse, b, now);
        UpdateAsWritten(store, id, b, now)
  }

  /** What the raw body's extra columns make of the stored record. */
  lemma WrittenColumns(t: Transaction, f: map<string, Json>, parse: DateParser, storeParse: DateParser,
                       b: Body, now: DateTime)
    requires UpdateBody(f) && RawBodyOf(f, parse, storeParse) == Some(b)
    ensures var u := Written(t, b, now);
      && (if "id" in f then f["id"] == JString(u.id) else u.id == t.id)
      && (if "userId" in f then f["userId"] == JString(u.userId) else u.userId == t.userId)
      && (if "createdAt" in f then f["createdAt"].JString? && storeParse(f["createdAt"].s) == Some(u.createdAt)
          else u.createdAt == t.createdAt)
      && (if "updatedAt" in f then f["updatedAt"].JString? && storeParse(f["updatedAt"].s) == Some(u.updatedAt)
          else u.updatedAt == now)
  {
  }

  /** Without keys outside the schema the as-written handler does what the
      corrected one does. */
  lemma WriteRawBodySchemaOnly(store: seq<Transaction>, id: string, f: map<string, Json>, parse: DateParser,
                                storeParse: DateParser, now: DateTime)
    requires UpdateBody(f) && Guard(store, id).Success? && f.Keys <= SchemaKeys
    ensures WriteRawBody(store, id, f, parse, storeParse, now) ==
      match PatchOf(f, parse) case None => Failure(UpdateFailed) case Some(p) => UpdateTransaction(store, id, p, now)
  {
    assert f.Keys <= SchemaKeys + ColumnKeys;
  }

  /** `PUT /:id` as written: the validated body is the original body, so every
      key in it reaches the store. */
  function UpdateRouteAsWritten(store: seq<Transaction>, id: string, body: Json, parse: DateParser,
                                storeParse: DateParser, now: DateTime)
    : (r: Result<(seq<Transaction>, Transaction), Error>)
    ensures body.JObject? && body.fields.Keys <= SchemaKeys ==> r == UpdateRoute(store, id, body, parse, now)
    ensures r.Failure? && r.error.Invalid? <==> Validate(UpdateSchema, body).Failure?
    ensures Validate(UpdateSchema, body).Success? ==>
      (r.Failure? && r.error == Missing <==> Guard(store, id).Failure?)
    ensures r.Failure? ==> r.error.Invalid? || r.error == Missing || r.error == UpdateFailed
    ensures r.Success? ==>
      var prior := Guard(store, id).value;
      && body.JObject? && body.fields.Keys <= SchemaKeys + ColumnKeys
      && (if "id" in body.fields then body.fields["id"] == JString(r.value.1.id) else r.value.1.id == id)
      && (if "userId" in body.fields then body.fields["userId"] == JString(r.value.1.userId) else r.value.1.userId == prior.userId)
      && (if "createdAt" in body.fields
          then body.fields["createdAt"].JString? && storeParse(body.fields["createdAt"].s) == Some(r.value.1.createdAt)
          else r.value.1.createdAt == prior.createdAt)
      && (if "updatedAt" in body.fields
          then body.fields["updatedAt"].JString? && storeParse(body.fields["updatedAt"].s) == Some(r.value.1.updatedAt)
          else r.value.1.updatedAt == now)
  {
    match Validate(UpdateSchema, body)
    case Failure(e) => Failure(e)
    case Success(_) =>
      UpdateAccepts(body.fields);
      if Guard(store, id).Failure? then Failure(Missing)
      else
        var w := WriteRawBody(store, id, body.fields, parse, storeParse, now);
        if body.fields.Keys <= SchemaKeys then WriteRawBodySchemaOnly(store, id, body.fields, parse, storeParse, now); w else w
  }

  /** A key that is neither in the schema nor a column passes validation but
      makes the as-written store call fail. */
  lemma UnknownKeyFails(store: seq<Transaction>, id: string, f: map<string, Json>, key: string, parse: DateParser,
                        storeParse: DateParser, now: DateTime)
    requires UpdateBody(f) && Guard(store, id).Success?
    requires key in f && key !in SchemaKeys + ColumnKeys
    ensures Validate(UpdateSchema, JObject(f)).Success?
    ensures UpdateRouteAsWritten(store, id, JObject(f), parse, storeParse, now) == Failure(UpdateFailed)
    ensures UpdateRoute(store, id, JObject(f), parse, now).Success? <==> PatchOf(f, parse).Some?
  {
    UpdateAccepts(f);
  }

  /** The body `{ "createdAt": "2000-01-01T00:00:00.000Z" }` passes the update
      schema; as written it rewrites the record's creation stamp, while the
      corrected route leaves it alone. */
  lemma UpdateRouteRewritesCreatedAt()
    ensures var stamp := DateTime(2024, 10, 1, 0, 0, 0);
      var forged := DateTime(2000, 1, 1, 0, 0, 0);
      var text := "2000-01-01T00:00:00.000Z";
      var parse: DateParser := s => if s == text then Some(forged) else None;
      var t := Transaction("t1", DefaultUserId, Expense, 15000, Food, "Groceries", stamp, stamp, stamp);
      var body := JObject(map["createdAt" := JString(text)]);
      && Validate(UpdateSchema, body).Success?
      && UpdateRouteAsWritten([t], "t1", body, parse, parse, stamp).Success?
      && UpdateRouteAsWritten([t], "t1", body, parse, parse, stamp).value.1.createdAt == forged
      && UpdateRoute([t], "t1", body, parse, stamp).value.1.createdAt == stamp
  {
    var stamp := DateTime(2024, 10, 1, 0, 0, 0);
    var forged := DateTime(2000, 1, 1, 0, 0, 0);
    var text := "2000-01-01T00:00:00.000Z";
    var parse: DateParser := s => if s == text then Some(forged) else None;
    var t := Transaction("t1", DefaultUserId, Expense, 15000, Food, "Groceries", stamp, stamp, stamp);
    var body := JObject(map["createdAt" := JString(text)]);
    UpdateAccepts(body.fields);
    assert Guard([t], "t1") == Success(t);
    assert PatchOf(body.fields, parse) == Some(Patch(None, None, None, None, None));
    assert RawBodyOf(body.fields, parse, parse) == Some(Body(Patch(None, None, None, None, None), None, None, Some(forged), None));
  }

  /** For every record the guard lets through, a body carrying only a
      `createdAt` text the store can read passes validation; as written the
      route stamps the record with that date, while the corrected route keeps
      the stored one. */
  lemma UpdateRouteForgesCreatedAt(store: seq<Transaction>, id: string, text: string, parse: DateParser,
                                   storeParse: DateParser, now: DateTime)
    requires Guard(store, id).Success? && storeParse(text).Some?
    ensures var body := JObject(map["createdAt" := JString(text)]);
      && Validate(UpdateSchema, body).Success?
      && UpdateRouteAsWritten(store, id, body, parse, storeParse, now).Success?
      && UpdateRouteAsWritten(store, id, body, parse, storeParse, now).value.1.createdAt == storeParse(text).value
      && UpdateRoute(store, id, body, parse, now).Success?
      && UpdateRoute(store, id, body, parse, now).value.1.createdAt == Guard(store, id).value.createdAt
  {
    var body := JObject(map["createdAt" := JString(text)]);
    UpdateAccepts(body.fields);
    assert PatchOf(body.fields, parse) == Some(Patch(None, None, None, None, None));
    assert RawBodyOf(body.fields, parse, storeParse) ==
      Some(Body(Patch(None, None, None, None, None), None, None, Some(storeParse(text).value), None));
  }

  /** A `createdAt` text the store cannot read (a date without a time, say)
      passes validation, yet as written the store call fails; the corrected
      route ignores the key and succeeds. */
  lemma UnreadableStampFails(store: seq<Transaction>, id: string, text: string, parse: DateParser,
                             storeParse: DateParser, now: DateTime)
    requires Guard(store, id).Success? && storeParse(text).None?
    ensures var body := JObject(map["createdAt" := JString(text)]);
      && Validate(UpdateSchema, body).Success?
      && UpdateRouteAsWritten(store, id, body, parse, storeParse, now) == Failure(UpdateFailed)
      && UpdateRoute(store, id, body, parse, now).Success?
  {
    var body := JObject(map["createdAt" := JString(text)]);
    UpdateAccepts(body.fields);
    assert PatchOf(body.fields, parse) == Some(Patch(None, None, None, None, None));
    assert RawBodyOf(body.fields, parse, storeParse).None?;
  }

  // ----- list -----

  /** `GET /`: validate the query, then list. */
  function ListRoute(store: seq<Transaction>, q: Query): (r: Result<Listing, Error>)
    ensures r.Failure? ==> r.error.Invalid? || r.error == FetchFailed
    ensures r.Failure? && r.error.Invalid? <==> ValidateQuery(q).Failure?
  {
    match ValidateQuery(q)
    case Failure(e) => Failure(e)
    case Success(_) => GetAllTransactions(store, q)
  }

  /** After validation the store can only fail on the numbers: a `NaN` page
      or limit, or a negative offset. */
  lemma ListRouteFailsOnNumbers(store: seq<Transaction>, q: Query)
    requires ListRoute(store, q) == Failure(FetchFailed)
    ensures var page, limit := NumberParam(q, "page", 1), NumberParam(q, "limit", 10);
      page.NaN? || limit.NaN? || (page.value - 1) * limit.value < 0
  {
    ValidQuerySorts(q);
  }

  /** An empty `type` passes the handler's reading but not the query schema. */
  lemma EmptyTypeRejected(store: seq<Transaction>, q: Query)
    requires q == map["type" := ""]
    ensures ListRoute(store, q).Failure?
    ensures GetAllTransactions(store, q) == GetAllTransactions(store, map[])
  {
    QueryAccepts(q);
    assert q["type"] !in KindOptions;
    assert Param(q, "type") == None;
    assert BuildFilter(q) == BuildFilter(map[]);
    assert NumberParam(q, "page", 1) == NumberParam(map[], "page", 1);
    assert NumberParam(q, "limit", 10) == NumberParam(map[], "limit", 10);
    assert SortFieldOf(q) == SortFieldOf(map[]) && DirectionOf(q) == DirectionOf(map[]);
  }
}

=== FILE: sorting.dfy ===
/** A stable insertion sort on sequences, standing in for the record store's
    `orderBy` and for any other ordering the model needs. */
module Sorting {

  /** `le` is total and transitive: a sort key compared with `<=`. */
  ghost predicate TotalPreorder<T(!new)>(le: (T, T) -> bool) {
    && (forall a, b :: le(a, b) || le(b, a))
    && (forall a, b, c :: le(a, b) && le(b, c) ==> le(a, c))
  }

  predicate SortedBy<T>(s: seq<T>, le: (T, T) -> bool) {
    forall i, j :: 0 <= i < j < |s| ==> le(s[i], s[j])
  }

  /** Places `x` before the first element it is `le` to. */
  function Insert<T>(x: T, s: seq<T>, le: (T, T) -> bool): (r: seq<T>)
    ensures multiset(r) == multiset(s) + multiset{x}
    ensures |r| == |s| + 1
  {
    if |s| == 0 || le(x, s[0]) then [x] + s
    else
      assert s == [s[0]] + s[1..];
      [s[0]] + Insert(x, s[1..], le)
  }

  /** Sorts by repeated insertion, keeping equal elements in input order. */
  function Sort<T>(s: seq<T>, le: (T, T) -> bool): (r: seq<T>)
    ensures multiset(r) == multiset(s)
    ensures |r| == |s|
  {
    if |s| == 0 then []
    else
      assert s == [s[0]] + s[1..];
      Insert(s[0], Sort(s[1..], le), le)
  }

  lemma {:induction false} InsertSorted<T(!new)>(x: T, s: seq<T>, le: (T, T) -> bool)
    requires TotalPreorder(le)
    requires SortedBy(s, le)
    ensures SortedBy(Insert(x, s, le), le)
  {
    if |s| == 0 || le(x, s[0]) {
    } else {
      var tail := Insert(x, s[1..], le);
      InsertSorted(x, s[1..], le);
      assert le(s[0], x);
      forall j | 0 <= j < |tail|
        ensures le(s[0], tail[j])
      {
        assert tail[j] in multiset(tail);
        assert tail[j] in multiset(s[1..]) + multiset{x};
        if tail[j] != x {
          assert tail[j] in multiset(s[1..]);
          var k :| 0 <= k < |s[1..]| && s[1..][k] == tail[j];
          assert s[k + 1] == tail[j];
        }
      }
    }
  }

  /** The sort's result is ordered and is a permutation of its input. */
  lemma {:induction false} SortSorted<T(!new)>(s: seq<T>, le: (T, T) -> bool)
    requires TotalPreorder(le)
    ensures SortedBy(Sort(s, le), le)
    ensures multiset(Sort(s, le)) == multiset(s)
  {
    if |s| > 0 {
      SortSorted(s[1..], le);
      InsertSorted(s[0], Sort(s[1..], le), le);
    }
  }
}

=== FILE: stats.dfy ===
/** The statistics endpoints: totals and the (category, type) breakdown
    (`getTransactionStats`), and the last six months (`getMonthlyStats`). */
module Stats {
  import opened Wrappers
  import opened Calendar
  import opened Domain
  import opened Text
  import opened Sorting
  import opened Ledger
  import opened Listing
  import opened Filtering

  /** One entry of `categoryBreakdown`. */
  datatype BreakdownEntry = BreakdownEntry(category: string, amount: int, kind: Kind)

  /** The `data` of the statistics response. */
  datatype Stats = Stats(totalIncome: int, totalExpense: int, balance: int, categoryBreakdown: seq<BreakdownEntry>)

  /** One entry of the breakdown's `Map`: key `${category}-${type}` to `{ amount, type }`. */
  datatype Slot = Slot(key: string, amount: int, kind: Kind)

  function PostingOf(t: Transaction): Posting {
    Posting(t.kind, t.amount)
  }

  function Postings(ts: seq<Transaction>): (ps: seq<Posting>)
    ensures |ps| == |ts|
  {
    if |ts| == 0 then [] else Postings(Front(ts)) + [PostingOf(Last(ts))]
  }

  /** `findMany({ where: { userId: DEFAULT_USER_ID } })`. */
  function OwnerRecords(store: seq<Transaction>): (r: seq<Transaction>)
    ensures SubsequenceOf(r, store)
    ensures forall t :: t in r <==> t in store && t.userId == DefaultUserId
    ensures forall t :: multiset(r)[t] == if t.userId == DefaultUserId then multiset(store)[t] else 0
  {
    Select(store, Filter(DefaultUserId, None, None, None))
  }

  // ----- the breakdown -----

  /** `${t.category}-${t.type}` */
  function PairKey(c: Category, k: Kind): (r: string)
    ensures Split(r, '-') == [CategoryName(c), KindName(k)]
  {
    var r := CategoryName(c) + "-" + KindName(k);
    assert Join([CategoryName(c), KindName(k)], "-") == r;
    SplitJoin([CategoryName(c), KindName(k)], '-');
    r
  }

  /** `key.split('-')` recovers category and type: neither name contains '-'. */
  lemma PairKeySplits(c: Category, k: Kind)
    ensures Split(PairKey(c, k), '-') == [CategoryName(c), KindName(k)]
  {
    assert Join([CategoryName(c), KindName(k)], "-") == PairKey(c, k);
    SplitJoin([CategoryName(c), KindName(k)], '-');
  }

  /** Distinct (category, type) pairs get distinct keys. */
  lemma PairKeyInjective(c1: Category, k1: Kind, c2: Category, k2: Kind)
    ensures PairKey(c1, k1) == PairKey(c2, k2) <==> c1 == c2 && k1 == k2
  {
    PairKeySplits(c1, k1);
    PairKeySplits(c2, k2);
    NamesInjective(k1, k2, c1, c2);
  }

  /** The record as the breakdown sees it: its key, amount and type. */
  function SlotOf(t: Transaction): Slot {
    Slot(PairKey(t.category, t.kind), t.amount, t.kind)
  }

  function Slots(ts: seq<Transaction>): (xs: seq<Slot>)
    ensures |xs| == |ts|
  {
    if |ts| == 0 then [] else Slots(Front(ts)) + [SlotOf(Last(ts))]
  }

  function SlotIndex(slots: seq<Slot>, key: string): (i: nat)
    ensures i <= |slots|
    ensures i < |slots| ==> slots[i].key == key
    ensures forall j :: 0 <= j < i ==> slots[j].key != key
  {
    if |slots| == 0 then 0
    else if slots[0].key == key then 0
    else 1 + SlotIndex(slots[1..], key)
  }

  /** One `forEach` step: `existing = map.get(key) || { amount: 0, type: t.type }`,
      `existing.amount += t.amount`, `map.set(key, existing)`. A `Map` keeps
      its keys in first-insertion order. */
  function TallyStep(slots: seq<Slot>, x: Slot): (r: seq<Slot>)
    ensures |r| == |slots| || r == slots + [x]
    ensures SlotAmounts(r) == SlotAmounts(slots) + x.amount
  {
    var i := SlotIndex(slots, x.key);
    if i < |slots| then
      var s := slots[i].(amount := slots[i].amount + x.amount);
      SlotAmountsUpdate(slots, i, s);
      slots[i := s]
    else
      assert Front(slots + [x]) == slots;
      slots + [x]
  }

  /** The whole `forEach`: no more slots than records, and together they
      hold every record's amount. */
  function Tally(xs: seq<Slot>): (r: seq<Slot>)
    ensures |r| <= |xs|
    ensures SlotAmounts(r) == SlotAmounts(xs)
  {
    if |xs| == 0 then [] else TallyStep(Tally(Front(xs)), Last(xs))
  }

  /** `Array.from(map.entries()).map(([key, value]) => …key.split('-')[0]…)` */
  function Breakdown(ts: seq<Transaction>): (r: seq<BreakdownEntry>)
    ensures |r| == |Tally(Slots(ts))|
  {
    var slots := Tally(Slots(ts));
    seq(|slots|, i requires 0 <= i < |slots| => BreakdownEntry(Split(slots[i].key, '-')[0], slots[i].amount, slots[i].kind))
  }

  /** `getTransactionStats` over the owner's records. */
  function GetTransactionStats(store: seq<Transaction>): (r: Stats)
    ensures r.balance == SignedTotal(Postings(OwnerRecords(store)))
    ensures r.totalIncome + r.totalExpense == GrossTotal(Postings(OwnerRecords(store)))
    ensures r.categoryBreakdown == Breakdown(OwnerRecords(store))
    ensures EntryAmounts(r.categoryBreakdown) == r.totalIncome + r.totalExpense
  {
    var ts := OwnerRecords(store);
    var s := Summarize(Postings(ts));
    BreakdownTotal(ts);
    Stats(s.income, s.expense, s.balance, Breakdown(ts))
  }

  // ----- the tally over keyed amounts -----

  /** Reference: the sum of the amounts carrying key `key`. */
  function KeyTotal(xs: seq<Slot>, key: string): int {
    if |xs| == 0 then 0 else KeyTotal(Front(xs), key) + (if Last(xs).key == key then Last(xs).amount else 0)
  }

  function SlotAmounts(slots: seq<Slot>): int {
    if |slots| == 0 then 0 else SlotAmounts(Front(slots)) + Last(slots).amount
  }

  predicate DistinctKeys(slots: seq<Slot>) {
    forall i, j :: 0 <= i < j < |slots| ==> slots[i].key != slots[j].key
  }

  predicate HasKey(slots: seq<Slot>, key: string) {
    exists i :: 0 <= i < |slots| && slots[i].key == key
  }

  lemma {:induction false} SlotAmountsUpdate(slots: seq<Slot>, i: nat, s: Slot)
    requires i < |slots|
    ensures SlotAmounts(slots[i := s]) == SlotAmounts(slots) - slots[i].amount + s.amount
  {
    if i < |slots| - 1 {
      assert Front(slots[i := s]) == Front(slots)[i := s];
      SlotAmountsUpdate(Front(slots), i, s);
    } else {
      assert Front(slots[i := s]) == Front(slots);
    }
  }

  lemma {:induction false} KeyTotalAbsent(xs: seq<Slot>, key: string)
    requires !HasKey(xs, key)
    ensures KeyTotal(xs, key) == 0
  {
    if |xs| > 0 {
      assert Last(xs) == xs[|xs| - 1];
      assert !HasKey(Front(xs), key) by {
        forall j | 0 <= j < |Front(xs)| ensures Front(xs)[j].key != key {
          assert Front(xs)[j] == xs[j];
        }
      }
      KeyTotalAbsent(Front(xs), key);
    }
  }

  /** One step: the item's slot grows by its amount, or the item is
      appended as a new slot; every other slot is untouched. */
  lemma TallyStepEffect(slots: seq<Slot>, x: Slot)
    requires DistinctKeys(slots)
    ensures var r := TallyStep(slots, x);
      && DistinctKeys(r)
      && (HasKey(slots, x.key) ==> |r| == |slots|)
      && (!HasKey(slots, x.key) ==> r == slots + [x])
      && (forall j :: 0 <= j < |slots| ==>
            r[j] == if slots[j].key == x.key then slots[j].(amount := slots[j].amount + x.amount) else slots[j])
  {
  }

  lemma HasKeySnoc(xs: seq<Slot>, key: string)
    requires |xs| > 0
    ensures HasKey(xs, key) <==> HasKey(Front(xs), key) || Last(xs).key == key
  {
    if HasKey(xs, key) {
      var j :| 0 <= j < |xs| && xs[j].key == key;
      if j < |xs| - 1 {
        assert Front(xs)[j].key == key;
      }
    }
    if HasKey(Front(xs), key) {
      var j :| 0 <= j < |Front(xs)| && Front(xs)[j].key == key;
      assert xs[j].key == key;
    }
  }

  /** One step keeps every key and adds the item's. */
  lemma TallyStepKeys(g: seq<Slot>, x: Slot, key: string)
    requires DistinctKeys(g)
    ensures HasKey(TallyStep(g, x), key) <==> HasKey(g, key) || x.key == key
  {
    TallyStepKeepsKeys(g, x, key);
    TallyStepAddsNoOtherKey(g, x, key);
  }

  lemma TallyStepKeepsKeys(g: seq<Slot>, x: Slot, key: string)
    requires DistinctKeys(g)
    ensures HasKey(g, key) || x.key == key ==> HasKey(TallyStep(g, x), key)
  {
    var r := TallyStep(g, x);
    TallyStepEffect(g, x);
    if HasKey(g, key) {
      var i :| 0 <= i < |g| && g[i].key == key;
      assert r[i].key == key;
    } else if x.key == key {
      assert r[|g|].key == key;
    }
  }

  lemma TallyStepAddsNoOtherKey(g: seq<Slot>, x: Slot, key: string)
    requires DistinctKeys(g)
    ensures HasKey(TallyStep(g, x), key) ==> HasKey(g, key) || x.key == key
  {
    var r := TallyStep(g, x);
    TallyStepEffect(g, x);
    if HasKey(r, key) {
      var i :| 0 <= i < |r| && r[i].key == key;
      if i < |g| {
        assert g[i].key == key;
      }
    }
  }

  /** The tally has one slot per key that occurs, and no other. */
  lemma {:induction false} TallyKeys(xs: seq<Slot>)
    ensures DistinctKeys(Tally(xs))
    ensures forall key :: HasKey(Tally(xs), key) <==> HasKey(xs, key)
  {
    if |xs| > 0 {
      var front, x := Front(xs), Last(xs);
      var g := Tally(front);
      TallyKeys(front);
      TallyStepEffect(g, x);
      forall key ensures HasKey(Tally(xs), key) <==> HasKey(xs, key) {
        TallyStepKeys(g, x, key);
        HasKeySnoc(xs, key);
      }
    }
  }

  /** Some item carries this slot's key and type. */
  predicate Occurs(xs: seq<Slot>, s: Slot) {
    exists j :: 0 <= j < |xs| && xs[j].key == s.key && xs[j].kind == s.kind
  }

  /** One step keeps each slot's key and type, and a new slot is the item. */
  lemma TallyStepKindAt(g: seq<Slot>, x: Slot, front: seq<Slot>, i: nat)
    requires DistinctKeys(g)
    requires i < |TallyStep(g, x)|
    requires i < |g| ==> Occurs(front, g[i])
    ensures Occurs(front + [x], TallyStep(g, x)[i])
  {
    var r, ys := TallyStep(g, x), front + [x];
    TallyStepEffect(g, x);
    if i < |g| {
      var j :| 0 <= j < |front| && front[j].key == g[i].key && front[j].kind == g[i].kind;
      assert ys[j] == front[j];
    } else {
      assert ys[|front|] == r[i];
    }
  }

  lemma TallyStepKinds(g: seq<Slot>, x: Slot, front: seq<Slot>)
    requires DistinctKeys(g)
    requires forall i :: 0 <= i < |g| ==> Occurs(front, g[i])
    ensures forall i :: 0 <= i < |TallyStep(g, x)| ==> Occurs(front + [x], TallyStep(g, x)[i])
  {
    forall i | 0 <= i < |TallyStep(g, x)| ensures Occurs(front + [x], TallyStep(g, x)[i]) {
      TallyStepKindAt(g, x, front, i);
    }
  }

  /** Each slot's type is the type of some item with that key. */
  lemma {:induction false} TallyKinds(xs: seq<Slot>)
    ensures forall i :: 0 <= i < |Tally(xs)| ==> Occurs(xs, Tally(xs)[i])
  {
    if |xs| > 0 {
      var front, x := Front(xs), Last(xs);
      TallyKinds(front);
      TallyKeys(front);
      TallyStepKinds(Tally(front), x, front);
      assert xs == front + [x];
    }
  }

  /** Each slot holds the sum of its key's amounts. */
  lemma {:induction false} TallyAmounts(xs: seq<Slot>)
    ensures forall i :: 0 <= i < |Tally(xs)| ==> Tally(xs)[i].amount == KeyTotal(xs, Tally(xs)[i].key)
  {
    if |xs| > 0 {
      var front, x := Front(xs), Last(xs);
      var g, r := Tally(front), Tally(xs);
      TallyAmounts(front);
      TallyKeys(front);
      TallyStepEffect(g, x);
      forall i | 0 <= i < |r| ensures r[i].amount == KeyTotal(xs, r[i].key) {
        if i >= |g| {
          assert !HasKey(front, x.key);
          KeyTotalAbsent(front, x.key);
        }
      }
    }
  }

  // ----- from records to keyed amounts -----

  /** Reference: the sum of the amounts of records in category `c` of kind `k`. */
  function PairTotal(ts: seq<Transaction>, c: Category, k: Kind): int {
    if |ts| == 0 then 0
    else PairTotal(Front(ts), c, k) + (if Last(ts).category == c && Last(ts).kind == k then Last(ts).amount else 0)
  }

  lemma {:induction false} SlotsAt(ts: seq<Transaction>, i: nat)
    requires i < |ts|
    ensures Slots(ts)[i] == SlotOf(ts[i])
  {
    if i < |ts| - 1 {
      SlotsAt(Front(ts), i);
    }
  }

  lemma {:induction false} KeyTotalIsPairTotal(ts: seq<Transaction>, c: Category, k: Kind)
    ensures KeyTotal(Slots(ts), PairKey(c, k)) == PairTotal(ts, c, k)
  {
    if |ts| > 0 {
      KeyTotalIsPairTotal(Front(ts), c, k);
      PairKeyInjective(Last(ts).category, Last(ts).kind, c, k);
    }
  }

  lemma {:induction false} SlotAmountsIsGross(ts: seq<Transaction>)
    ensures SlotAmounts(Slots(ts)) == GrossTotal(Postings(ts))
  {
    if |ts| > 0 {
      SlotAmountsIsGross(Front(ts));
      GrossTotalSnoc(Postings(Front(ts)), PostingOf(Last(ts)));
    }
  }

  /** Each breakdown entry names the category and type of some record and
      carries the sum of the amounts of that pair's records. */
  lemma BreakdownEntries(ts: seq<Transaction>)
    ensures var b := Breakdown(ts);
      forall i :: 0 <= i < |b| ==> exists j :: (0 <= j < |ts|
        && b[i].category == CategoryName(ts[j].category) && b[i].kind == ts[j].kind
        && b[i].amount == PairTotal(ts, ts[j].category, ts[j].kind))
  {
    var xs := Slots(ts);
    var slots, b := Tally(xs), Breakdown(ts);
    TallyKinds(xs);
    TallyAmounts(xs);
    forall i | 0 <= i < |b| ensures exists j :: (0 <= j < |ts|
      && b[i].category == CategoryName(ts[j].category) && b[i].kind == ts[j].kind
      && b[i].amount == PairTotal(ts, ts[j].category, ts[j].kind))
    {
      assert Occurs(xs, slots[i]);
      var j :| 0 <= j < |xs| && xs[j].key == slots[i].key && xs[j].kind == slots[i].kind;
      SlotsAt(ts, j);
      PairKeySplits(ts[j].category, ts[j].kind);
      KeyTotalIsPairTotal(ts, ts[j].category, ts[j].kind);
    }
  }

  /** No (category, type) pair appears twice in the breakdown. */
  lemma BreakdownDistinct(ts: seq<Transaction>)
    ensures var b := Breakdown(ts);
      forall i, i' :: 0 <= i < i' < |b| ==> b[i].category != b[i'].category || b[i].kind != b[i'].kind
  {
    var xs := Slots(ts);
    var slots, b := Tally(xs), Breakdown(ts);
    TallyKeys(xs);
    TallyKinds(xs);
    forall i, i' | 0 <= i < i' < |b| ensures b[i].category != b[i'].category || b[i].kind != b[i'].kind {
      assert Occurs(xs, slots[i]) && Occurs(xs, slots[i']);
      var j :| 0 <= j < |xs| && xs[j].key == slots[i].key && xs[j].kind == slots[i].kind;
      var j' :| 0 <= j' < |xs| && xs[j'].key == slots[i'].key && xs[j'].kind == slots[i'].kind;
      SlotsAt(ts, j);
      SlotsAt(ts, j');
      PairKeySplits(ts[j].category, ts[j].kind);
      PairKeySplits(ts[j'].category, ts[j'].kind);
      NamesInjective(ts[j].kind, ts[j'].kind, ts[j].category, ts[j'].category);
    }
  }

  /** Every record's (category, type) pair has an entry in the breakdown. */
  lemma BreakdownCovers(ts: seq<Transaction>)
    ensures var b := Breakdown(ts);
      forall j :: 0 <= j < |ts| ==>
        exists i :: 0 <= i < |b| && b[i].category == CategoryName(ts[j].category) && b[i].kind == ts[j].kind
  {
    var b := Breakdown(ts);
    forall j | 0 <= j < |ts| ensures exists i :: 0 <= i < |b| && b[i].category == CategoryName(ts[j].category) && b[i].kind == ts[j].kind {
      BreakdownCoversAt(ts, j);
    }
  }

  lemma BreakdownCoversAt(ts: seq<Transaction>, j: nat)
    requires j < |ts|
    ensures var b := Breakdown(ts);
      exists i :: 0 <= i < |b| && b[i].category == CategoryName(ts[j].category) && b[i].kind == ts[j].kind
  {
    var xs := Slots(ts);
    var slots, b := Tally(xs), Breakdown(ts);
    TallyKeys(xs);
    TallyKinds(xs);
    SlotsAt(ts, j);
    assert xs[j].key == PairKey(ts[j].category, ts[j].kind);
    assert HasKey(xs, PairKey(ts[j].category, ts[j].kind));
    var i :| 0 <= i < |slots| && slots[i].key == PairKey(ts[j].category, ts[j].kind);
    assert Occurs(xs, slots[i]);
    var j' :| 0 <= j' < |xs| && xs[j'].key == slots[i].key && xs[j'].kind == slots[i].kind;
    SlotsAt(ts, j');
    PairKeyInjective(ts[j].category, ts[j].kind, ts[j'].category, ts[j'].kind);
    PairKeySplits(ts[j].category, ts[j].kind);
    assert b[i].category == CategoryName(ts[j].category) && b[i].kind == ts[j].kind;
  }


  /** The sum of the breakdown entries' amounts. */
  function EntryAmounts(b: seq<BreakdownEntry>): int {
    if |b| == 0 then 0 else EntryAmounts(Front(b)) + Last(b).amount
  }

  /** Entries carrying the slots' amounts one by one add up to the same sum. */
  lemma {:induction false} EntryAmountsOfSlots(b: seq<BreakdownEntry>, slots: seq<Slot>)
    requires |b| == |slots| && forall i :: 0 <= i < |b| ==> b[i].amount == slots[i].amount
    ensures EntryAmounts(b) == SlotAmounts(slots)
  {
    if |b| > 0 {
      EntryAmountsOfSlots(Front(b), Front(slots));
    }
  }

  /** The breakdown's amounts add up to total income plus total expense. */
  lemma BreakdownTotal(ts: seq<Transaction>)
    ensures EntryAmounts(Breakdown(ts)) == IncomeTotal(Postings(ts)) + ExpenseTotal(Postings(ts))
  {
    EntryAmountsOfSlots(Breakdown(ts), Tally(Slots(ts)));
    SlotAmountsIsGross(ts);
    IncomePlusExpenseIsGross(Postings(ts));
  }

  // ----- the monthly series -----

  function MonthlyInput(ts: seq<Transaction>): (xs: seq<(MonthKey, Posting)>)
    ensures |xs| == |ts|
  {
    if |ts| == 0 then [] else MonthlyInput(Front(ts)) + [(MonthOf(Last(ts).date), PostingOf(Last(ts)))]
  }

  lemma {:induction false} MonthlyInputAt(ts: seq<Transaction>, i: nat)
    requires i < |ts|
    ensures MonthlyInput(ts)[i] == (MonthOf(ts[i].date), PostingOf(ts[i]))
  {
    if i < |ts| - 1 {
      MonthlyInputAt(Front(ts), i);
    }
  }

  /** The owner's records in ascending date order (`orderBy: { date: 'asc' }`). */
  function ByDateAscending(store: seq<Transaction>): (r: seq<Transaction>)
    ensures multiset(r) == multiset(OwnerRecords(store))
    ensures forall i, j :: 0 <= i < j < |r| ==> NotAfter(r[i].date, r[j].date)
  {
    OrderIsTotalPreorder(ByDate, Ascending);
    SortSorted(OwnerRecords(store), Order(ByDate, Ascending));
    var r := Sort(OwnerRecords(store), Order(ByDate, Ascending));
    assert forall i, j :: 0 <= i < j < |r| ==> InOrder(ByDate, Ascending, r[i], r[j]);
    r
  }

  /** `getMonthlyStats`: group the date-ordered records by month, keep the last six. */
  function GetMonthlyStats(store: seq<Transaction>): (r: seq<Bucket>)
    ensures var all := GroupByMonth(MonthlyInput(ByDateAscending(store)));
      && |r| <= 6 && |r| <= |all| && r == all[|all| - |r|..]
      && (|all| <= 6 ==> r == all) && (6 <= |all| ==> |r| == 6)
  {
    var all := GroupByMonth(MonthlyInput(ByDateAscending(store)));
    TakeLast(all, 6)
  }

  /** Date-ordered records give month-ordered input. */
  lemma SortedGivesOrderedMonths(ts: seq<Transaction>)
    requires SortedBy(ts, Order(ByDate, Ascending))
    ensures MonthsNonDecreasing(MonthlyInput(ts))
  {
    var xs := MonthlyInput(ts);
    forall i, j | 0 <= i < j < |xs| ensures xs[i].0 == xs[j].0 || MonthBefore(xs[i].0, xs[j].0) {
      MonthlyInputAt(ts, i);
      MonthlyInputAt(ts, j);
      assert InOrder(ByDate, Ascending, ts[i], ts[j]);
      MonthOfMonotone(ts[i].date, ts[j].date);
    }
  }

  /** The monthly series is strictly ascending by month, ends with the
      latest month that has records, and each entry carries its month's sums. */
  lemma MonthlyStatsCorrect(store: seq<Transaction>)
    ensures StrictlyAscending(GetMonthlyStats(store))
    ensures |OwnerRecords(store)| > 0 ==>
      |GetMonthlyStats(store)| > 0 &&
      Last(GetMonthlyStats(store)).month == Last(MonthlyInput(ByDateAscending(store))).0
    ensures var xs := MonthlyInput(ByDateAscending(store));
      forall i :: 0 <= i < |GetMonthlyStats(store)| ==>
        var b := GetMonthlyStats(store)[i];
        b.income == IncomeTotal(PostingsIn(xs, b.month)) && b.expense == ExpenseTotal(PostingsIn(xs, b.month))
        && b.balance == b.income - b.expense
  {
    var sorted := ByDateAscending(store);
    OrderIsTotalPreorder(ByDate, Ascending);
    SortSorted(OwnerRecords(store), Order(ByDate, Ascending));
    SortedGivesOrderedMonths(sorted);
    var xs := MonthlyInput(sorted);
    GroupByMonthAscending(xs);
    GroupByMonthCorrect(xs);
    var all := GroupByMonth(xs);
    TakeLastKeepsOrder(all, 6);
    TakeLastFaithful(all, 6, xs);
    assert Faithful(GetMonthlyStats(store), xs);
  }

  // ----- the seeded sample -----

  function SeedRecord(id: string, kind: Kind, dollars: int, c: Category, description: string, day: int): Transaction {
    var d := DateTime(2024, 10, day, 0, 0, 0);
    Transaction(id, DefaultUserId, kind, dollars * 100, c, description, d, d, d)
  }

  /** The eight sample records the seed script creates (amounts in cents). */
  const Seed: seq<Transaction> := [
    SeedRecord("s1", Income, 5000, Salary, "Monthly salary", 1),
    SeedRecord("s2", Expense, 150, Food, "Groceries", 5),
    SeedRecord("s3", Expense, 50, Entertainment, "Movie tickets", 10),
    SeedRecord("s4", Expense, 1200, Bills, "Rent payment", 1),
    SeedRecord("s5", Income, 500, Freelance, "Web design project", 15),
    SeedRecord("s6", Expense, 80, Travel, "Gas", 12),
    SeedRecord("s7", Expense, 200, Shopping, "Clothes", 20),
    SeedRecord("s8", Expense, 100, Healthcare, "Doctor visit", 18)
  ]

  /** A store holding only the owner's records is its own selection. */
  lemma OwnerRecordsAll(store: seq<Transaction>)
    requires forall i :: 0 <= i < |store| ==> store[i].userId == DefaultUserId
    ensures OwnerRecords(store) == store
  {
    KeepEverything(store, Matcher(Filter(DefaultUserId, None, None, None)));
  }

  lemma PostingsSnoc(ts: seq<Transaction>, k: nat)
    requires 0 < k <= |ts|
    ensures Postings(ts[..k]) == Postings(ts[..k - 1]) + [PostingOf(ts[k - 1])]
  {
    assert Front(ts[..k]) == ts[..k - 1];
  }

  /** The postings of the seeded records, in cents. */
  const SeedPostings: seq<Posting> := [
    Posting(Income, 500000), Posting(Expense, 15000), Posting(Expense, 5000), Posting(Expense, 120000),
    Posting(Income, 50000), Posting(Expense, 8000), Posting(Expense, 20000), Posting(Expense, 10000)]

  lemma SeedOwned()
    ensures OwnerRecords(Seed) == Seed
  {
    assert forall i :: 0 <= i < |Seed| ==> Seed[i].userId == DefaultUserId;
    OwnerRecordsAll(Seed);
  }

  lemma SeedPostingsAgree()
    ensures Postings(Seed) == SeedPostings
  {
    assert forall i :: 0 <= i < 8 ==> SeedPostings[i] == PostingOf(Seed[i]);
    SeedPostingsPrefix(8);
    assert Seed[..8] == Seed && SeedPostings[..8] == SeedPostings;
  }

  lemma {:induction false} SeedPostingsPrefix(k: nat)
    requires k <= 8
    requires forall i :: 0 <= i < 8 ==> SeedPostings[i] == PostingOf(Seed[i])
    ensures Postings(Seed[..k]) == SeedPostings[..k]
  {
    if k > 0 {
      SeedPostingsPrefix(k - 1);
      PostingsSnoc(Seed, k);
      assert SeedPostings[..k] == SeedPostings[..k - 1] + [SeedPostings[k - 1]];
    }
  }

  lemma TotalsStep(ps: seq<Posting>, k: nat)
    requires 0 < k <= |ps|
    ensures IncomeTotal(ps[..k]) == IncomeTotal(ps[..k - 1]) + (if ps[k - 1].kind == Income then ps[k - 1].amount else 0)
    ensures ExpenseTotal(ps[..k]) == ExpenseTotal(ps[..k - 1]) + (if ps[k - 1].kind == Expense then ps[k - 1].amount else 0)
  {
    assert Front(ps[..k]) == ps[..k - 1];
  }

  /** The seeded totals, read off the signed and gross sums of the postings. */
  lemma SeedTotals()
    ensures IncomeTotal(SeedPostings) == 550000 && ExpenseTotal(SeedPostings) == 178000
  {
    BalanceIsSignedTotal(SeedPostings);
    IncomePlusExpenseIsGross(SeedPostings);
    assert SignedTotal(SeedPostings) == 372000;
    assert GrossTotal(SeedPostings) == 728000;
  }

  /** On the seeded data the statistics are 5500 income, 1780 expense and a
      3720 balance (in cents). */
  lemma SeedStats()
    ensures GetTransactionStats(Seed).totalIncome == 550000
    ensures GetTransactionStats(Seed).totalExpense == 178000
    ensures GetTransactionStats(Seed).balance == 372000
  {
    SeedOwned();
    SeedPostingsAgree();
    SeedTotals();
  }
}

=== FILE: text.dfy ===
/** Plain string helpers: JavaScript's `Array.prototype.join` and
    `String.prototype.split` on a one-character separator, decimal digits,
    and character counting. */
module Text {

  /** `parts.join(sep)`: the parts with `sep` between neighbours. */
  function Join(parts: seq<string>, sep: string): string
  {
    if |parts| == 0 then ""
    else if |parts| == 1 then parts[0]
    else parts[0] + sep + Join(parts[1..], sep)
  }

  /** A character in neither the parts nor the separator is not in the join. */
  lemma {:induction false} JoinAvoids(parts: seq<string>, sep: string, c: char)
    requires c !in sep
    requires forall i :: 0 <= i < |parts| ==> c !in parts[i]
    ensures c !in Join(parts, sep)
  {
    if |parts| > 1 {
      JoinAvoids(parts[1..], sep, c);
    }
  }

  /** `s.split(c)` for a one-character separator `c`. */
  function Split(s: string, c: char): (r: seq<string>)
    ensures |r| >= 1
  {
    if |s| == 0 then [""]
    else
      var rest := Split(s[1..], c);
      if s[0] == c then [""] + rest else [[s[0]] + rest[0]] + rest[1..]
  }

  /** Splitting a string without the separator gives the string back whole. */
  lemma {:induction false} SplitNoSeparator(s: string, c: char)
    requires c !in s
    ensures Split(s, c) == [s]
  {
    if |s| > 0 {
      assert c !in s[1..];
      SplitNoSeparator(s[1..], c);
      assert s[0] != c;
      assert [s[0]] + s[1..] == s;
    }
  }

  /** Splitting `a + [c] + b` cuts at the first separator when `a` has none. */
  lemma {:induction false} SplitAtFirst(a: string, c: char, b: string)
    requires c !in a
    ensures Split(a + [c] + b, c) == [a] + Split(b, c)
  {
    if |a| == 0 {
      assert a + [c] + b == [c] + b;
      assert ([c] + b)[1..] == b;
    } else {
      assert (a + [c] + b)[1..] == a[1..] + [c] + b;
      assert c !in a[1..];
      SplitAtFirst(a[1..], c, b);
      assert [a[0]] + a[1..] == a;
    }
  }

  /** `split` undoes `join` when no part contains the separator. */
  lemma {:induction false} SplitJoin(parts: seq<string>, c: char)
    requires |parts| >= 1
    requires forall i :: 0 <= i < |parts| ==> c !in parts[i]
    ensures Split(Join(parts, [c]), c) == parts
  {
    if |parts| == 1 {
      SplitNoSeparator(parts[0], c);
    } else {
      SplitJoin(parts[1..], c);
      SplitAtFirst(parts[0], c, Join(parts[1..], [c]));
      assert [parts[0]] + parts[1..] == parts;
    }
  }

  /** The number of occurrences of `c` in `s`. */
  function Count(s: string, c: char): nat
  {
    if |s| == 0 then 0 else (if s[0] == c then 1 else 0) + Count(s[1..], c)
  }

  /** A character occurs exactly when its count is positive. */
  lemma {:induction false} CountPositive(s: string, c: char)
    ensures c in s <==> Count(s, c) > 0
  {
    if |s| > 0 {
      CountPositive(s[1..], c);
      assert s == [s[0]] + s[1..];
    }
  }

  lemma {:induction false} CountAppend(a: string, b: string, c: char)
    ensures Count(a + b, c) == Count(a, c) + Count(b, c)
  {
    if |a| > 0 {
      assert (a + b)[1..] == a[1..] + b;
      CountAppend(a[1..], b, c);
    } else {
      assert a + b == b;
    }
  }

  predicate IsDigit(ch: char) {
    '0' <= ch <= '9'
  }

  /** The decimal digit character for `d`. */
  function DigitChar(d: nat): (ch: char)
    requires d < 10
    ensures IsDigit(ch) && ch as int - '0' as int == d
  {
    (d + '0' as int) as char
  }

  /** The decimal rendering of a natural number, without leading zeros
      (JavaScript's `String(n)` for a non-negative safe integer). */
  function Decimal(n: nat): (r: string)
    ensures |r| >= 1
    ensures forall i :: 0 <= i < |r| ==> IsDigit(r[i])
    ensures n > 0 ==> r[0] != '0'
  {
    if n < 10 then [DigitChar(n)] else Decimal(n / 10) + [DigitChar(n % 10)]
  }

  /** The natural number a non-empty run of decimal digits denotes. */
  function DecimalValue(ds: string): nat
    requires forall i :: 0 <= i < |ds| ==> IsDigit(ds[i])
  {
    if |ds| == 0 then 0
    else
      var d := ds[|ds| - 1] as int - '0' as int;
      assert IsDigit(ds[|ds| - 1]);
      DecimalValue(ds[..|ds| - 1]) * 10 + d
  }

  /** Reading back a decimal rendering gives the number. */
  lemma {:induction false} DecimalRoundTrip(n: nat)
    ensures DecimalValue(Decimal(n)) == n
  {
    if n >= 10 {
      var d := Decimal(n);
      assert d[..|d| - 1] == Decimal(n / 10);
      DecimalRoundTrip(n / 10);
    }
  }

  predicate AllDigits(s: string) {
    forall i :: 0 <= i < |s| ==> IsDigit(s[i])
  }

  function Pow10(k: nat): (p: nat)
    ensures p >= 1
  {
    if k == 0 then 1 else 10 * Pow10(k - 1)
  }

  /** The last `width` decimal digits of `n`, zero-padded: for
      `n < 10^width` this is `String(n).padStart(width, '0')`. */
  function Fixed(n: nat, width: nat): (r: string)
    ensures |r| == width && AllDigits(r)
  {
    if width == 0 then "" else Fixed(n / 10, width - 1) + [DigitChar(n % 10)]
  }

  /** Reading a padded rendering back gives the number. */
  lemma {:induction false} FixedRoundTrip(n: nat, width: nat)
    requires n < Pow10(width)
    ensures DecimalValue(Fixed(n, width)) == n
  {
    if width > 0 {
      var r := Fixed(n, width);
      assert r[..|r| - 1] == Fixed(n / 10, width - 1);
      FixedRoundTrip(n / 10, width - 1);
    }
  }
}

=== FILE: validation.dfy ===
/** The request validators: object schemas checked field by field, in
    declaration order, with zod's messages joined by ", ". A passing body
    is handed on unchanged; the parsed value is discarded. */
module Validation {
  import opened Wrappers
  import opened Text
  import opened Domain
  import opened JsNumber
  import opened Listing

  /** A JSON value as the body parser produces it. Numbers are kept as
      integer hundredths, the precision amounts carry. */
  datatype Json =
    | JNull
    | JBool(b: bool)
    | JNumber(hundredths: int)
    | JString(s: string)
    | JArray(items: seq<Json>)
    | JObject(fields: map<string, Json>)

  /** The type names zod reports after "received". */
  function TypeName(j: Json): string {
    match j
    case JNull => "null"
    case JBool(_) => "boolean"
    case JNumber(_) => "number"
    case JString(_) => "string"
    case JArray(_) => "array"
    case JObject(_) => "object"
  }

  const RequiredMessage: string := "Required"
  const UnionMessage: string := "Invalid input"
  const AmountMessage: string := "Amount must be positive"
  const DescriptionMessage: string := "Description is required"

  const KindOptions: seq<string> := ["income", "expense"]
  const CategoryOptions: seq<string> :=
    ["Food", "Travel", "Bills", "Shopping", "Entertainment", "Healthcare", "Salary", "Freelance", "Investment", "Other"]
  const SortByOptions: seq<string> := ["date", "amount"]
  const SortOrderOptions: seq<string> := ["asc", "desc"]

  /** The enum options are exactly the names of the domain's values. */
  lemma OptionsAreNames(s: string)
    ensures s in KindOptions <==> KindNamed(s).Some?
    ensures s in CategoryOptions <==> CategoryNamed(s).Some?
  {
  }

  function Quote(s: string): string {
    "'" + s + "'"
  }

  function QuoteAll(options: seq<string>): (r: seq<string>)
    ensures |r| == |options|
  {
    if |options| == 0 then [] else [Quote(options[0])] + QuoteAll(options[1..])
  }

  /** `'a' | 'b'`: how zod lists the values an enum expects. */
  function OptionList(options: seq<string>): string {
    Join(QuoteAll(options), " | ")
  }

  /** What one field's schema demands of a present value. */
  datatype Rule =
    | OneOf(options: seq<string>)   // z.enum([...])
    | Positive                      // z.number().positive('Amount must be positive')
    | NonEmpty                      // z.string().min(1, 'Description is required')
    | StringOrDate                  // z.string().or(z.date())
    | AnyString                     // z.string()

  datatype Field = Field(key: string, rule: Rule, optional: bool)

  /** The issue a present value raises, if any. A body parsed from JSON
      holds no `Date` objects, so the union accepts exactly the strings. */
  function CheckValue(rule: Rule, v: Json): (r: Option<string>)
    ensures r.None? <==> match rule
      case OneOf(options) => v.JString? && v.s in options
      case Positive => v.JNumber? && v.hundredths > 0
      case NonEmpty => v.JString? && |v.s| >= 1
      case StringOrDate => v.JString?
      case AnyString => v.JString?
  {
    match rule
    case OneOf(options) =>
      if !v.JString? then Some("Expected " + OptionList(options) + ", received " + TypeName(v))
      else if v.s in options then None
      else Some("Invalid enum value. Expected " + OptionList(options) + ", received '" + v.s + "'")
    case Positive =>
      if !v.JNumber? then Some("Expected number, received " + TypeName(v))
      else if v.hundredths > 0 then None
      else Some(AmountMessage)
    case NonEmpty =>
      if !v.JString? then Some("Expected string, received " + TypeName(v))
      else if |v.s| >= 1 then None
      else Some(DescriptionMessage)
    case StringOrDate =>
      if v.JString? then None else Some(UnionMessage)
    case AnyString =>
      if v.JString? then None else Some("Expected string, received " + TypeName(v))
  }

  /** The issue a field raises: an absent optional field passes; an absent
      required one is "Required", except for the union, whose members all
      fail and which then reports "Invalid input". */
  function CheckField(f: Field, fields: map<string, Json>): (r: Option<string>)
    ensures f.key !in fields ==> (r.None? <==> f.optional)
    ensures f.key in fields ==> r == CheckValue(f.rule, fields[f.key])
  {
    if f.key !in fields then
      if f.optional then None
      else if f.rule.StringOrDate? then Some(UnionMessage)
      else Some(RequiredMessage)
    else CheckValue(f.rule, fields[f.key])
  }

  /** The issues of an object, one per failing field, in schema order. */
  function Issues(schema: seq<Field>, fields: map<string, Json>): (r: seq<string>)
    ensures |r| <= |schema|
    ensures r == [] <==> forall i :: 0 <= i < |schema| ==> CheckField(schema[i], fields).None?
  {
    if |schema| == 0 then []
    else
      var rest := Issues(schema[1..], fields);
      match CheckField(schema[0], fields)
      case Some(m) => [m] + rest
      case None =>
        assert forall i :: 1 <= i < |schema| ==> schema[i] == schema[1..][i - 1];
        rest
  }

  /** `validate(schema)`: a non-object is "Expected object, received …";
      otherwise the field issues, joined; a passing body goes on as it came. */
  function Validate(schema: seq<Field>, body: Json): (r: Result<Json, Error>)
    ensures r.Success? <==> body.JObject? && Issues(schema, body.fields) == []
    ensures r.Success? ==> r.value == body
    ensures r.Failure? ==> r.error.Invalid?
  {
    if !body.JObject? then Failure(Invalid("Expected object, received " + TypeName(body)))
    else
      var issues := Issues(schema, body.fields);
      if issues == [] then Success(body) else Failure(Invalid(Join(issues, ", ")))
  }

  /** `transactionCreateSchema` */
  const CreateSchema: seq<Field> := [
    Field("type", OneOf(KindOptions), false),
    Field("amount", Positive, false),
    Field("category", OneOf(CategoryOptions), false),
    Field("description", NonEmpty, false),
    Field("date", StringOrDate, false)]

  /** `transactionUpdateSchema`: the same fields, each optional. */
  const UpdateSchema: seq<Field> := [
    Field("type", OneOf(KindOptions), true),
    Field("amount", Positive, true),
    Field("category", OneOf(CategoryOptions), true),
    Field("description", NonEmpty, true),
    Field("date", StringOrDate, true)]

  // ----- what the body schemas accept -----

  /** Reference: a present field satisfies its constraint. */
  predicate GoodKind(f: map<string, Json>) {
    "type" in f && f["type"].JString? && KindNamed(f["type"].s).Some?
  }
  predicate GoodAmount(f: map<string, Json>) {
    "amount" in f && f["amount"].JNumber? && f["amount"].hundredths > 0
  }
  predicate GoodCategory(f: map<string, Json>) {
    "category" in f && f["category"].JString? && CategoryNamed(f["category"].s).Some?
  }
  predicate GoodDescription(f: map<string, Json>) {
    "description" in f && f["description"].JString? && |f["description"].s| >= 1
  }
  predicate GoodDate(f: map<string, Json>) {
    "date" in f && f["date"].JString?
  }

  /** A create body names a type and a category, has a positive amount, a
      non-empty description and a date string. */
  predicate CreateBody(f: map<string, Json>) {
    GoodKind(f) && GoodAmount(f) && GoodCategory(f) && GoodDescription(f) && GoodDate(f)
  }

  /** An update body: each field it carries satisfies its constraint. */
  predicate UpdateBody(f: map<string, Json>) {
    && ("type" in f ==> GoodKind(f))
    && ("amount" in f ==> GoodAmount(f))
    && ("category" in f ==> GoodCategory(f))
    && ("description" in f ==> GoodDescription(f))
    && ("date" in f ==> GoodDate(f))
  }

  /** A field passes when it is good, or absent and optional. */
  lemma KindCheck(f: map<string, Json>, optional: bool)
    ensures CheckField(Field("type", OneOf(KindOptions), optional), f).None? <==> (("type" in f || !optional) ==> GoodKind(f))
  {
    if "type" in f && f["type"].JString? {
      OptionsAreNames(f["type"].s);
    }
  }

  lemma AmountCheck(f: map<string, Json>, optional: bool)
    ensures CheckField(Field("amount", Positive, optional), f).None? <==> (("amount" in f || !optional) ==> GoodAmount(f))
  {
  }

  lemma CategoryCheck(f: map<string, Json>, optional: bool)
    ensures CheckField(Field("category", OneOf(CategoryOptions), optional), f).None? <==> (("category" in f || !optional) ==> GoodCategory(f))
  {
    if "category" in f && f["category"].JString? {
      OptionsAreNames(f["category"].s);
    }
  }

  lemma DescriptionCheck(f: map<string, Json>, optional: bool)
    ensures CheckField(Field("description", NonEmpty, optional), f).None? <==> (("description" in f || !optional) ==> GoodDescription(f))
  {
  }

  lemma DateCheck(f: map<string, Json>, optional: bool)
    ensures CheckField(Field("date", StringOrDate, optional), f).None? <==> (("date" in f || !optional) ==> GoodDate(f))
  {
  }

  lemma FieldChecks(f: map<string, Json>, optional: bool)
    ensures var schema := if optional then UpdateSchema else CreateSchema;
      && |schema| == 5
      && (CheckField(schema[0], f).None? <==> (("type" in f || !optional) ==> GoodKind(f)))
      && (CheckField(schema[1], f).None? <==> (("amount" in f || !optional) ==> GoodAmount(f)))
      && (CheckField(schema[2], f).None? <==> (("category" in f || !optional) ==> GoodCategory(f)))
      && (CheckField(schema[3], f).None? <==> (("description" in f || !optional) ==> GoodDescription(f)))
      && (CheckField(schema[4], f).None? <==> (("date" in f || !optional) ==> GoodDate(f)))
  {
    KindCheck(f, optional);
    AmountCheck(f, optional);
    CategoryCheck(f, optional);
    DescriptionCheck(f, optional);
    DateCheck(f, optional);
  }

  /** A field's issue as a sequence of zero or one messages. */
  function IssueOf(x: Field, fields: map<string, Json>): seq<string> {
    match CheckField(x, fields)
    case Some(m) => [m]
    case None => []
  }

  lemma {:induction false} IssuesUnfold(schema: seq<Field>, fields: map<string, Json>, tail: seq<string>)
    requires |schema| > 0 && Issues(schema[1..], fields) == tail
    ensures Issues(schema, fields) == IssueOf(schema[0], fields) + tail
  {
  }

  /** A five-field schema's issues, field by field. */
  lemma {:induction false} IssuesOfFive(schema: seq<Field>, fields: map<string, Json>)
    requires |schema| == 5
    ensures Issues(schema, fields) == IssueOf(schema[0], fields) + (IssueOf(schema[1], fields)
      + (IssueOf(schema[2], fields) + (IssueOf(schema[3], fields) + IssueOf(schema[4], fields))))
  {
    var i0, i1, i2, i3, i4 := IssueOf(schema[0], fields), IssueOf(schema[1], fields),
      IssueOf(schema[2], fields), IssueOf(schema[3], fields), IssueOf(schema[4], fields);
    var s4 := schema[4..];
    assert s4[0] == schema[4] && s4[1..] == [];
    IssuesUnfold(s4, fields, []);
    var s3 := schema[3..];
    assert s3[0] == schema[3] && s3[1..] == s4;
    IssuesUnfold(s3, fields, i4 + []);
    var s2 := schema[2..];
    assert s2[0] == schema[2] && s2[1..] == s3;
    IssuesUnfold(s2, fields, i3 + (i4 + []));
    var s1 := schema[1..];
    assert s1[0] == schema[1] && s1[1..] == s2;
    IssuesUnfold(s1, fields, i2 + (i3 + (i4 + [])));
    IssuesUnfold(schema, fields, i1 + (i2 + (i3 + (i4 + []))));
    assert i4 + [] == i4;
  }

  /** The create schema accepts an object exactly when it is a create body. */
  lemma CreateAccepts(f: map<string, Json>)
    ensures Validate(CreateSchema, JObject(f)).Success? <==> CreateBody(f)
  {
    FieldChecks(f, false);
  }

  /** The update schema accepts an object exactly when it is an update body. */
  lemma UpdateAccepts(f: map<string, Json>)
    ensures Validate(UpdateSchema, JObject(f)).Success? <==> UpdateBody(f)
  {
    FieldChecks(f, true);
  }

  /** Whatever creates may also update; an empty object updates nothing and
      passes; a non-object never passes either schema. */
  lemma SchemasRelate(body: Json)
    ensures Validate(CreateSchema, body).Success? ==> Validate(UpdateSchema, body).Success?
    ensures Validate(UpdateSchema, JObject(map[])).Success?
    ensures !body.JObject? ==> Validate(CreateSchema, body).Failure? && Validate(UpdateSchema, body).Failure?
  {
    if body.JObject? {
      CreateAccepts(body.fields);
      UpdateAccepts(body.fields);
    }
    UpdateAccepts(map[]);
  }

  /** Keys outside the schema are never looked at: adding one changes nothing. */
  lemma ExtraKeysIgnored(schema: seq<Field>, f: map<string, Json>, k: string, v: Json)
    requires forall i :: 0 <= i < |schema| ==> schema[i].key != k
    ensures Issues(schema, f[k := v]) == Issues(schema, f)
    decreases |schema|
  {
    if |schema| > 0 {
      ExtraKeysIgnored(schema[1..], f, k, v);
    }
  }

  /** A body with nothing wrong but a non-positive amount is refused with
      exactly the amount message. */
  lemma NonPositiveAmount(f: map<string, Json>, n: int)
    requires CreateBody(f) && n <= 0
    ensures Validate(CreateSchema, JObject(f["amount" := JNumber(n)])) == Failure(Invalid(AmountMessage))
  {
    var g := f["amount" := JNumber(n)];
    FieldChecks(g, false);
    IssuesOfFive(CreateSchema, g);
    assert IssueOf(CreateSchema[1], g) == [AmountMessage];
  }

  /** An empty object: the four required fields report "Required" and the
      date, whose union members all fail, "Invalid input", in schema order. */
  lemma EmptyCreateBody()
    ensures Validate(CreateSchema, JObject(map[]))
         == Failure(Invalid(Join(["Required", "Required", "Required", "Required", "Invalid input"], ", ")))
  {
    var none: map<string, Json> := map[];
    IssuesOfFive(CreateSchema, none);
    assert IssueOf(CreateSchema[0], none) == ["Required"];
    assert IssueOf(CreateSchema[1], none) == ["Required"];
    assert IssueOf(CreateSchema[2], none) == ["Required"];
    assert IssueOf(CreateSchema[3], none) == ["Required"];
    assert IssueOf(CreateSchema[4], none) == ["Invalid input"];
    assert Issues(CreateSchema, none) == ["Required", "Required", "Required", "Required", "Invalid input"];
    assert JObject(map[]).fields == none;
  }

  lemma KindOptionText()
    ensures OptionList(KindOptions) == "'income' | 'expense'"
  {
  }

  /** The enum's issue for the type "gift", before the option list is spelled out. */
  lemma UnknownKindIssue(f: map<string, Json>)
    requires CreateBody(f)
    ensures Validate(CreateSchema, JObject(f["type" := JString("gift")]))
         == Failure(Invalid("Invalid enum value. Expected " + OptionList(KindOptions) + ", received '" + "gift" + "'"))
  {
    var g := f["type" := JString("gift")];
    FieldChecks(g, false);
    IssuesOfFive(CreateSchema, g);
  }

  /** The message for a type outside the enum. */
  lemma UnknownKindMessage(f: map<string, Json>)
    requires CreateBody(f)
    ensures Validate(CreateSchema, JObject(f["type" := JString("gift")]))
         == Failure(Invalid("Invalid enum value. Expected 'income' | 'expense', received 'gift'"))
  {
    UnknownKindIssue(f);
    KindOptionText();
    EnumMessageSpelled();
  }

  lemma EnumMessageSpelled()
    ensures "Invalid enum value. Expected " + "'income' | 'expense'" + ", received '" + "gift" + "'"
         == "Invalid enum value. Expected 'income' | 'expense', received 'gift'"
  {
  }

  // ----- the query schema -----

  /** `transactionQuerySchema`: every parameter optional; page, limit,
      category, month and year any string; type and the sort keys enums. */
  const QuerySchema: seq<Field> := [
    Field("page", AnyString, true),
    Field("limit", AnyString, true),
    Field("category", AnyString, true),
    Field("type", OneOf(KindOptions), true),
    Field("month", AnyString, true),
    Field("year", AnyString, true),
    Field("sortBy", OneOf(SortByOptions), true),
    Field("sortOrder", OneOf(SortOrderOptions), true)]

  /** The query schema names the eight parameters, each optional, so the
      empty query passes; only type, sortBy and sortOrder are enums. */
  lemma QuerySchemaFields()
    ensures |QuerySchema| == 8
    ensures forall i :: 0 <= i < |QuerySchema| ==> QuerySchema[i].optional
    ensures (set i | 0 <= i < |QuerySchema| :: QuerySchema[i].key) ==
      {"page", "limit", "category", "type", "month", "year", "sortBy", "sortOrder"}
    ensures forall i :: 0 <= i < |QuerySchema| && QuerySchema[i].rule.OneOf? ==>
      QuerySchema[i].key in {"type", "sortBy", "sortOrder"}
    ensures ValidateQuery(map[]).Success?
  {
    QueryAccepts(map[]);
    var keys := set i | 0 <= i < |QuerySchema| :: QuerySchema[i].key;
    assert QuerySchema[0].key in keys && QuerySchema[1].key in keys && QuerySchema[2].key in keys;
    assert QuerySchema[3].key in keys && QuerySchema[4].key in keys && QuerySchema[5].key in keys;
    assert QuerySchema[6].key in keys && QuerySchema[7].key in keys;
  }

  /** The query string as the object the schema parses. */
  function QueryObject(q: Query): (j: Json)
    ensures j.JObject? && j.fields.Keys == q.Keys
  {
    JObject(map k | k in q :: JString(q[k]))
  }

  /** `validateQuery(transactionQuerySchema)`: the handler goes on reading
      the query as it came, or the request ends with the schema's messages. */
  function ValidateQuery(q: Query): (r: Result<Query, Error>)
    ensures r.Success? ==> r.value == q
    ensures r.Failure? ==> r.error.Invalid?
  {
    match Validate(QuerySchema, QueryObject(q))
    case Success(_) => Success(q)
    case Failure(e) => Failure(e)
  }

  /** A query passes exactly when type, sortBy and sortOrder, where present,
      are among their values; the empty string is not among them. */
  lemma QueryAccepts(q: Query)
    ensures ValidateQuery(q).Success? <==>
      && ("type" in q ==> q["type"] in KindOptions)
      && ("sortBy" in q ==> q["sortBy"] in SortByOptions)
      && ("sortOrder" in q ==> q["sortOrder"] in SortOrderOptions)
  {
    QueryFieldCheck(q, "type", KindOptions);
    QueryFieldCheck(q, "sortBy", SortByOptions);
    QueryFieldCheck(q, "sortOrder", SortOrderOptions);
    var f := QueryObject(q).fields;
    forall i | 0 <= i < 8 && QuerySchema[i].rule.AnyString? ensures CheckField(QuerySchema[i], f).None? {
      if QuerySchema[i].key in f {
        assert f[QuerySchema[i].key].JString?;
      }
    }
    assert QuerySchema[3] == Field("type", OneOf(KindOptions), true);
    assert QuerySchema[6] == Field("sortBy", OneOf(SortByOptions), true);
    assert QuerySchema[7] == Field("sortOrder", OneOf(SortOrderOptions), true);
  }

  lemma QueryFieldCheck(q: Query, key: string, options: seq<string>)
    ensures CheckField(Field(key, OneOf(options), true), QueryObject(q).fields).None? <==> (key in q ==> q[key] in options)
  {
    if key in q {
      assert QueryObject(q).fields[key] == JString(q[key]);
    }
  }

  /** A query that passes never names an unknown sort field or direction. */
  lemma ValidQuerySorts(q: Query)
    requires ValidateQuery(q).Success?
    ensures SortFieldOf(q).Some? && DirectionOf(q).Some?
  {
    QueryAccepts(q);
  }

  /** What the schema's transforms compute; the handler ignores it and
      re-reads the raw query. */
  datatype ParsedQuery = ParsedQuery(
    page: Num, limit: Num, category: Option<string>, kind: Option<string>,
    month: Option<Num>, year: Option<Num>)

  function Transformed(q: Query): (r: ParsedQuery)
    ensures r.page == NumberParam(q, "page", 1) && r.limit == NumberParam(q, "limit", 10)
    ensures r.month.Some? <==> Param(q, "month").Some?
    ensures r.month.GetOr(NaN) == OptionalNumberParam(q, "month")
    ensures r.year.Some? <==> Param(q, "year").Some?
    ensures r.year.GetOr(NaN) == OptionalNumberParam(q, "year")
    ensures (r.category.Some? <==> "category" in q) && (r.category.Some? ==> r.category.value == q["category"])
    ensures (r.kind.Some? <==> "type" in q) && (r.kind.Some? ==> r.kind.value == q["type"])
  {
    ParsedQuery(
      if "page" in q && q["page"] != "" then ParseInt(q["page"]) else Int(1),
      if "limit" in q && q["limit"] != "" then ParseInt(q["limit"]) else Int(10),
      if "category" in q then Some(q["category"]) else None,
      if "type" in q then Some(q["type"]) else None,
      if "month" in q && q["month"] != "" then Some(ParseInt(q["month"])) else None,
      if "year" in q && q["year"] != "" then Some(ParseInt(q["year"])) else None)
  }

  /** The transforms agree with the handler's own reading of page, limit,
      month and year (`undefined` being the falsy `NaN` there), and of
      category and type except when those are empty: the schema keeps an
      empty string, the handler treats it as absent. */
  lemma TransformAgreesWithHandler(q: Query)
    ensures Transformed(q).page == NumberParam(q, "page", 1)
    ensures Transformed(q).limit == NumberParam(q, "limit", 10)
    ensures Transformed(q).month.GetOr(NaN) == OptionalNumberParam(q, "month")
    ensures Transformed(q).year.GetOr(NaN) == OptionalNumberParam(q, "year")
    ensures Transformed(q).category == Param(q, "category") <==> !("category" in q && q["category"] == "")
    ensures Transformed(q).kind == Param(q, "type") <==> !("type" in q && q["type"] == "")
  {
  }
}

=== FILE: wrappers.dfy ===
/** Failure-compatible wrappers shared by every module of the model. */
module Wrappers {

  /** An optional value: a query parameter that may be absent, a field a
      partial update may leave out. */
  datatype Option<+T> = None | Some(value: T) {

    /** The value, or `default` when absent (the `x ?? default` of the source). */
    function GetOr(default: T): T {
      match this
      case Some(v) => v
      case None => default
    }
  }

  /** The outcome of an operation that can raise one of the source's errors. */
  datatype Result<+R, +E> = Success(value: R) | Failure(error: E) {

    predicate IsFailure() {
      Failure?
    }

    function PropagateFailure<U>(): Result<U, E>
      requires Failure?
    {
      Failure(error)
    }

    function Extract(): R
      requires Success?
    {
      value
    }
  }
}
